=== FILE: README.md ===
# GamePlanner task assignment, modelled in Dafny

GamePlanner is the B-Human behaviour module of a robot-soccer team. Once per control cycle,
each robot independently decides two things:

- which post (Voronoi cell) of the current formation it should occupy;
- which role it plays: Leader, Supporter or None, with GoalKeeper for robot 1 and for
  penalised robots.

The result is published as an `AgentTask` record. The model covers the decision core:

- **Formation files.** The parser reads text lines of the form `id,x,y[,num[,cx,cy]][:label]`
  into cells, and the loader turns a file's lines into a formation. The catalog of all
  `.cfg` formations is given as a map from file name to lines.
- **Cells.** The `VoronoiCell` record, its setters and the Y-mirror of the formation catalog.
- **The `AgentTask` record.** Its setters, and the nearest-cell classifier `converToId`.
  Around the previously chosen cell, the classifier has a 200 mm hysteresis band.
- **`DynBorder`.** A threshold that remembers its last answer (a Schmitt trigger), with the
  comparison operators that query it.
- **The basic plan.** Kick-off handling (`ballIsFree`), the kick-off ("palang") role
  timeout, and the ball-has-moved latch.
- **Formation selection.** Edge-triggered, from the game state, the number of active players
  and the kick-off side. It builds a file-name key. Under dynamic post assignment it mirrors the
  whole catalog each time the game enters READY from another state with an own kick-off,
  the first READY of a half included.
- **Post assignment.**
  - Static: the `players` parameter lists robot numbers by post.
  - Dynamic: an exhaustive search over all permutations in `std::next_permutation` order
    for a cheapest assignment. Optionally, the previous leader is pinned to its own cell.
- **Role assignment.**
  - Static: the robot in the ball's cell leads.
  - Dynamic: robots are ranked by time-to-ball cost, with a discount for last cycle's
    leader. Then come the supporter rule and the defender take-over ("LD2").
- **The per-cycle `update`.** It ties these steps together in the order the module runs
  them.

Design of the model:

- **Functional state.** Every C++ member that is updated in place becomes an immutable value
  that each operation returns. This covers the task, the formation state, the borders, the
  plan flags, the carried leader and the ball cell.
- **Faults as values.** Where the module aborts (a failed `ASSERT`) or reads out of bounds
  (`operator[]` on a vector), the model returns a `Fault` instead of continuing.
- **Float geometry as parameters.** Norms, frame transforms and the `timeCost` sums are
  fields of `World.Geometry`. The classifier and the search are specified over the
  distances and costs these functions return.
- **Clocks as inputs.** The system clock and frame clock are inputs in milliseconds.

Behaviour of the code that a reader might not expect, and that the model reproduces:

- **Classifier with no hint.** `converToId`'s hint defaults to `hysID = 0`, so cell 0 is
  pulled in by the 200 mm band even on a first classification
  (`AgentTask.DefaultHintFavoursFirstCell`).
- **Re-selection trigger.** A new formation is chosen when the game state, player count or
  kick-off side changes. The formation version is not a trigger.
- **Mirroring.** The catalog is mirrored only with dynamic post assignment.
- **Supporter room.** Whether there is room for a supporter is read from the cell assigned to
  the *leader* (`numOfSup`), not from the robot's own cell.
- **Incumbency discount.** The discount is 1 s in READY and 2 s otherwise, not one fixed
  value.
- **Two leaders.** The defender take-over can make a second robot Leader while the cheapest
  robot also leads.
- **Static role in READY.** In READY the static role does not look at ball possession.
- **Unreachable catch.** `getAgentByPlayerNumber` throws a `const char*` that the only
  `catch (std::string)` would not catch. The lookup can never fail, because the agents are
  taken from the same roster (`Team.AgentsAreFound`).

## Model

| member | source | states |
|---|---|---|
| World.StateCode | Src/Modules/BehaviorControl/GamePlanner/TaskAssignment.cpp:174-179 | game states are ordered INITIAL, READY, SET, PLAYING, so "state <= SET" means before kick-off |
| VoronoiCell.DefaultCell | Src/Tools/VoronoiCell.h:21-26 | a new cell has zero point and pointer, an empty name, region 0 and no supporter room |
| VoronoiCell.Set | Src/Tools/VoronoiCell.h:36 | replaces the point and the pointer and nothing else |
| VoronoiCell.SetRegionId | Src/Tools/VoronoiCell.h:37 | replaces the region id and nothing else |
| VoronoiCell.SetName | Src/Tools/VoronoiCell.h:38 | replaces the name and nothing else |
| VoronoiCell.SetNumOfSup | Src/Tools/VoronoiCell.h:39 | stores the count as a 32-bit unsigned: values in range are kept, negative ones wrap to 2^32 plus the value, other fields are unchanged |
| VoronoiCell.MirrorY | Src/Tools/VoronoiCell.h:42 | negates the y of point and pointer, keeps x, rotation, name, region and supporter count |
| VoronoiCell.MirrorYInvolution | Src/Tools/VoronoiCell.h:42 | mirroring a cell twice gives the cell back |
| VoronoiCell.MirrorAll | Src/Modules/BehaviorControl/GamePlanner/TaskAssignment.cpp:244-246 | every cell of a formation is mirrored, in place and order |
| VoronoiCell.MirrorAllInvolution | Src/Modules/BehaviorControl/GamePlanner/TaskAssignment.cpp:244-246 | mirroring a formation twice gives it back |
| FormationFile.StopIndex | Src/Representations/BehaviorControl/AgentTask.cpp:261-275 | the numeric part of a line ends at the first '#', ';' or ':' and contains none of them |
| FormationFile.Run | Src/Representations/BehaviorControl/AgentTask.cpp:255-294 | scanning keeps exactly six fields; the field counter stays non-negative, and within the signed char range when it wraps |
| FormationFile.PushValue | Src/Representations/BehaviorControl/AgentTask.cpp:221-244 | slot i of the six receives the value and the others are kept; an index outside 0..5 changes nothing |
| FormationFile.StepEffect | Src/Representations/BehaviorControl/AgentTask.cpp:263-293 | a space is skipped; a comma stores the open field while the counter is below six, counts it and opens a fresh positive field; a '-' marks the field negative; any other character appends its code minus 48 to the field |
| FormationFile.ProcessLineAsWritten | Src/Representations/BehaviorControl/AgentTask.cpp:246-319 | as written, a line is accepted exactly when its comma count taken as a signed 8-bit value is at least two |
| FormationFile.RunMatchesSegments | Src/Representations/BehaviorControl/AgentTask.cpp:277-294 | after the scan the counter is the number of commas, the pending value is the digit value of the text after the last comma, the sign flag says whether that text has a '-', and field k holds the signed value of the k-th comma-terminated segment, 0 when there is none |
| FormationFile.ProcessLineMatchesReference | Src/Representations/BehaviorControl/AgentTask.cpp:246-319 | processLine equals a declarative reading of the line: split the numeric part on commas, field k is the digits of segment k negated when the segment has a '-', the pointer defaults to the point below four commas, the label is the text after the first ':', and the line is accepted with two or more commas |
| FormationFile.CommentIgnored | Src/Representations/BehaviorControl/AgentTask.cpp:265-266 | everything from the first '#' or ';' on does not change the verdict |
| FormationFile.SpaceSkipped | Src/Representations/BehaviorControl/AgentTask.cpp:268-269 | a space in the numeric part does not change the verdict |
| FormationFile.LabelAfterColon | Src/Representations/BehaviorControl/AgentTask.cpp:301-307 | the label is the exact remainder after the first ':', spaces and comment characters included |
| FormationFile.NoColonNoLabel | Src/Representations/BehaviorControl/AgentTask.cpp:301-307 | a line without ':' has the empty label |
| FormationFile.AcceptedIffTwoCommas | Src/Representations/BehaviorControl/AgentTask.cpp:315-318 | a line is accepted exactly when its numeric part has at least two commas |
| FormationFile.PointerDefaults | Src/Representations/BehaviorControl/AgentTask.cpp:309-313 | with fewer than four commas the pointer equals the point; otherwise it is the fifth and sixth fields |
| FormationFile.FieldsInOrder | Src/Representations/BehaviorControl/AgentTask.cpp:221-244 | the fields fill id, x, y, num in that order |
| FormationFile.RunCounterWraps | Src/Representations/BehaviorControl/AgentTask.cpp:277-285 | with the 8-bit counter of the code, the counter after a scan is the comma count reduced to the signed char range |
| FormationFile.RunAgreesBelowWrap | Src/Representations/BehaviorControl/AgentTask.cpp:277-285 | below 128 commas the 8-bit counter and an unbounded one scan identically |
| FormationFile.AsWrittenAgreesBelowWrap | Src/Representations/BehaviorControl/AgentTask.cpp:246-319 | below 128 commas the line verdict as written equals the corrected one |
| FormationFile.WrappedCounterRejects | Src/Representations/BehaviorControl/AgentTask.cpp:277-318 | a line of 128 commas is rejected as written although it has more than two commas; the corrected parser accepts it |
| FormationFile.ToCell | Src/Representations/BehaviorControl/AgentTask.cpp:338-343 | an accepted line becomes a cell with point (x, y), pointer (cx, cy), name the label, region the id and supporter count num as unsigned |
| FormationFile.Load | Src/Representations/BehaviorControl/AgentTask.cpp:332-346 | a formation has at most one cell per line |
| FormationFile.LoadAsWritten | Src/Representations/BehaviorControl/AgentTask.cpp:329-346 | the loader with the wrapping counter yields at most one cell per line |
| FormationFile.LoadAgreesBelowWrap | Src/Representations/BehaviorControl/AgentTask.cpp:329-346 | the model's loader and the loader as written build the same formation whenever every line has fewer than 128 commas before its markers |
| FormationFile.WrappedLineDropped | Src/Representations/BehaviorControl/AgentTask.cpp:315-318 | a line of 128 commas gives a cell in the model's loader and none as written |
| FormationFile.AcceptedFromVerdicts | Src/Representations/BehaviorControl/AgentTask.cpp:336-345 | every cell collected comes from an accepted line verdict |
| FormationFile.LoadedCellsComeFromLines | Src/Representations/BehaviorControl/AgentTask.cpp:332-346 | every loaded cell is the cell of some accepted line of the file |
| FormationFile.AcceptedAppend | Src/Representations/BehaviorControl/AgentTask.cpp:332-346 | collecting cells distributes over concatenation of verdict lists |
| FormationFile.AllAccepted | Src/Representations/BehaviorControl/AgentTask.cpp:332-346 | when every line is accepted, the formation has one cell per line, the i-th from the i-th line |
| FormationFile.LoadAppend | Src/Representations/BehaviorControl/AgentTask.cpp:332-346 | loading two files' lines in sequence gives the first file's cells followed by the second's, so cells keep the order of their lines |
| FormationFile.LoadSingle | Src/Representations/BehaviorControl/AgentTask.cpp:335-345 | one line contributes its cell when accepted and nothing when rejected |
| FormationExamples.TwoFieldsRejected | Src/Representations/BehaviorControl/AgentTask.cpp:315-318 | the line "a,b" is rejected |
| FormationExamples.ExampleLine0 | Src/Representations/BehaviorControl/AgentTask.cpp:246-319 | "0,0,0:GK" is accepted with label GK and the pointer defaulted to the point |
| FormationExamples.ExampleLine1 | Src/Representations/BehaviorControl/AgentTask.cpp:246-319 | "1,1000,0,1" is accepted with one supporter and the pointer defaulted |
| FormationExamples.ExampleLine2 | Src/Representations/BehaviorControl/AgentTask.cpp:246-319 | "2,-1000,500" is accepted with a negative x and the pointer defaulted |
| FormationExamples.ExampleLine3 | Src/Representations/BehaviorControl/AgentTask.cpp:246-319 | "3,500,-500,0,600,-400:DF" is accepted with its own pointer and label DF |
| FormationExamples.LoadFour | Src/Representations/BehaviorControl/AgentTask.cpp:332-346 | four accepted lines load to four cells in line order |
| FormationExamples.ExampleFormation | Src/Representations/BehaviorControl/AgentTask.cpp:332-346 | the four example lines load to a four-cell formation whose third cell has an empty name and whose fourth cell's pointer differs from its point |
| AgentTask.RoleOrdinalBijective | Src/Representations/BehaviorControl/AgentTask.h:23-30 | there are exactly five roles, Leader first and None last, in one-to-one correspondence with 0..4 |
| AgentTask.NewAgentTask | Src/Representations/BehaviorControl/AgentTask.cpp:15-18 | a new task has no cells and the target pose (-1000, 0) |
| AgentTask.SetCells | Src/Representations/BehaviorControl/AgentTask.h:54 | loading a formation replaces the cell list wholesale and nothing else |
| AgentTask.SetCell | Src/Representations/BehaviorControl/AgentTask.h:34 | replaces one cell, keeping the others and every other field |
| AgentTask.SetCurrentAgentVoronoiId | Src/Representations/BehaviorControl/AgentTask.h:35 | replaces the cell id and nothing else |
| AgentTask.SetRole | Src/Representations/BehaviorControl/AgentTask.h:36 | replaces the role and nothing else |
| AgentTask.SetBallIsFree | Src/Representations/BehaviorControl/AgentTask.h:37 | replaces the ball-free flag and nothing else |
| AgentTask.SetCurrentVoronoiPose | Src/Representations/BehaviorControl/AgentTask.h:38 | replaces the target pose and nothing else |
| AgentTask.ScanFrom | Src/Representations/BehaviorControl/AgentTask.cpp:50-65 | the loop ends on the first cell of least biased distance |
| AgentTask.Biased | Src/Representations/BehaviorControl/AgentTask.cpp:43-58 | the hinted cell counts 200 mm closer than its distance and every other cell 200 mm farther |
| AgentTask.DistancesTo | Src/Representations/BehaviorControl/AgentTask.cpp:44-57 | one distance per cell, from the pose to that cell's occupation point, in cell order |
| AgentTask.ConverToId | Src/Representations/BehaviorControl/AgentTask.cpp:34-68 | fails exactly on an empty formation; otherwise returns the lowest-index cell whose distance, minus 200 for the hinted cell and plus 200 for the others, is least |
| AgentTask.FirstMinimumUnique | Src/Representations/BehaviorControl/AgentTask.cpp:50-65 | at most one cell is the first minimum, so the answer is well defined |
| AgentTask.ClassifierKeepsCellIff | Src/Representations/BehaviorControl/AgentTask.cpp:43-65 | the hinted cell is kept exactly when it is strictly closer than 400 plus the distance of every earlier cell and no farther than 400 plus that of every later cell |
| AgentTask.SwitchNeedsMargin | Src/Representations/BehaviorControl/AgentTask.cpp:43-65 | the classifier leaves the hinted cell only for a cell at least 400 closer |
| AgentTask.ClassifierIdempotent | Src/Representations/BehaviorControl/AgentTask.cpp:34-68 | classifying again with the answer as hint gives the same answer |
| AgentTask.DefaultHintFavoursFirstCell | Src/Representations/BehaviorControl/AgentTask.h:51 | an unhinted call biases cell 0: it wins whenever it is within 400 of every other cell |
| AgentTask.Classify | Src/Representations/BehaviorControl/AgentTask.cpp:34-68 | the classifier applied to a pose: fails exactly on no cells, else a valid index of the first minimum of the pose's distances |
| AgentTask.ConverToCell | Src/Representations/BehaviorControl/AgentTask.cpp:27-32 | fails exactly on no cells, else the cell nearest the pose (unhinted) |
| AgentTask.ConverToPoint | Src/Representations/BehaviorControl/AgentTask.cpp:20-25 | fails exactly on no cells, else the pointer of the cell nearest the pose (unhinted) |
| DynBorder.NewBorder | Src/Tools/DynBorder.h:34 | a new border has sign 0, so its first query compares with the position itself |
| DynBorder.IsAboveBorder | Src/Tools/DynBorder.h:58-68 | answers whether the reading exceeds the current threshold; afterwards the threshold sits dr below the position after yes and dr above after no |
| DynBorder.IsBelowBorder | Src/Tools/DynBorder.h:70-80 | answers whether the reading is under the current threshold; afterwards the threshold sits dr above the position after yes and dr below after no |
| DynBorder.BorderOpValue | Src/Tools/DynBorder.h:37-40 | `border < x` and `border <= x` ask "is x above", `border > x` and `border >= x` ask "is x below" |
| DynBorder.ValueOpBorder | Src/Tools/DynBorder.h:41-44 | `x < border` and `x <= border` ask "is x below", `x > border` and `x >= border` ask "is x above" |
| DynBorder.OperandSwap | Src/Tools/DynBorder.h:37-44 | `x op border` is `border op' x` with the comparison flipped |
| DynBorder.StrictEqualsNonStrict | Src/Tools/DynBorder.h:37-44 | the strict and non-strict operators give the same answer and state |
| DynBorder.CompareBorders | Src/Tools/DynBorder.h:46-49 | border-to-border `<`, `<=`, `>` and `>=` are the same comparisons of the two positions, whatever either border remembers |
| DynBorder.CompareBordersIgnoresState | Src/Tools/DynBorder.h:46-49 | border-to-border comparisons do not depend on either border's remembered answer |
| DynBorder.AboveBelowExclusive | Src/Tools/DynBorder.h:58-80 | a reading is never both above and below; away from the threshold it is exactly one, and both queries leave the same state |
| DynBorder.AboveIsSticky | Src/Tools/DynBorder.h:58-68 | after "above", a reading stays above until it drops to position - dr |
| DynBorder.BelowIsSticky | Src/Tools/DynBorder.h:58-68 | after "not above", a reading counts as above only beyond position + dr |
| DynBorder.AboveSeries | Src/Tools/DynBorder.h:58-68 | a series of "above" queries leaves the sign of its last answer |
| DynBorder.DeadBandHoldsAnswer | Src/Tools/DynBorder.h:58-68 | readings after the first inside (position - dr, position + dr] all get the first reading's "above" answer |
| DynBorder.BelowAnswerSticky | Src/Tools/DynBorder.h:70-80 | after "below", a reading stays below until it reaches position + dr; after "not below" it must fall under position - dr |
| DynBorder.BelowSeries | Src/Tools/DynBorder.h:70-80 | a series of "below" queries leaves the sign of its last answer |
| DynBorder.DeadBandHoldsBelow | Src/Tools/DynBorder.h:70-80 | readings after the first inside [position - dr, position + dr) all get the first reading's "below" answer |
| DynBorder.BallInOwnHalfThreshold | Src/Modules/BehaviorControl/GamePlanner/TaskAssignment.cpp:25 | the own-half border sits at x = -1500 with a 300 band |
| DynBorder.DistanceToTargetThreshold | Src/Modules/BehaviorControl/GamePlanner/TaskAssignment.cpp:26 | the ball-distance border sits at 750 with a 100 band |
| Team.ActiveNumbers | Src/Modules/BehaviorControl/GamePlanner/TaskAssignment.cpp:408-412 | the numbers of exactly the teammates that are neither goalkeeper nor penalised, at most one per teammate |
| Team.ActiveNumbersSnoc | Src/Modules/BehaviorControl/GamePlanner/TaskAssignment.cpp:408-412 | a teammate added at the end of the broadcast adds its number at the end exactly when it is active |
| Team.ActiveNumbersAppend | Src/Modules/BehaviorControl/GamePlanner/TaskAssignment.cpp:408-412 | the numbers keep broadcast order: those of a concatenated roster are the first part's followed by the second's |
| Team.Agents | Src/Modules/BehaviorControl/GamePlanner/TaskAssignment.cpp:407-413 | the agents are the active teammates' numbers followed by the robot's own, which comes last |
| Team.LastNumOfPlayers | Src/Modules/BehaviorControl/GamePlanner/TaskAssignment.cpp:897-906 | the player count is at least one (the robot itself) and at most one more than the teammates |
| Team.ActiveCountMatches | Src/Modules/BehaviorControl/GamePlanner/TaskAssignment.cpp:897-906 | the player count is one more than the number of active teammates |
| Team.AgentCountMatches | Src/Modules/BehaviorControl/GamePlanner/TaskAssignment.cpp:421-424 | the agent list always has the length of the dynamic player count, so the size check passes whenever both come from the same roster |
| Team.FindTeammate | Src/Modules/BehaviorControl/GamePlanner/TaskAssignment.cpp:265-275 | finds a teammate exactly when one has the number, and then the first such |
| Team.AgentsAreFound | Src/Modules/BehaviorControl/GamePlanner/TaskAssignment.cpp:305-313 | every agent other than the robot is found among the teammates, so the throw guarded by the unreachable catch never happens |
| Team.IndexOf | Src/Modules/BehaviorControl/GamePlanner/TaskAssignment.cpp:489-490 | finds a number exactly when it is listed, and then its first position |
| Team.SelfIsIndexed | Src/Modules/BehaviorControl/GamePlanner/TaskAssignment.cpp:489-490 | the robot always finds itself among the agents |
| Decimal.NatToString | Src/Modules/BehaviorControl/GamePlanner/TaskAssignment.h:126-131 | the decimal text of a count is canonical: digits only, no leading zero |
| Decimal.ParseNat | Src/Modules/BehaviorControl/GamePlanner/TaskAssignment.h:126-131 | reading succeeds exactly on canonical digit strings |
| Decimal.NatRoundTrip | Src/Modules/BehaviorControl/GamePlanner/TaskAssignment.h:126-131 | reading the text of a count gives the count back |
| Decimal.ParsePrintRoundTrip | Src/Modules/BehaviorControl/GamePlanner/TaskAssignment.h:126-131 | writing a read count gives the text back |
| Decimal.NatToStringInjective | Src/Modules/BehaviorControl/GamePlanner/TaskAssignment.h:126-131 | different counts have different texts |
| Decimal.IntToString | Src/Modules/BehaviorControl/GamePlanner/TaskAssignment.h:126-131 | the text of an integer starts with '-' exactly when it is negative |
| Decimal.ParseInt | Src/Modules/BehaviorControl/GamePlanner/TaskAssignment.h:126-131 | a negative reading comes only from text with a leading '-' |
| Decimal.IntRoundTrip | Src/Modules/BehaviorControl/GamePlanner/TaskAssignment.h:126-131 | reading the text of an integer gives it back |
| Decimal.IntToStringInjective | Src/Modules/BehaviorControl/GamePlanner/TaskAssignment.h:126-131 | different versions have different texts |
| BasicPlan.KickOffWaitSeconds | Src/Modules/BehaviorControl/GamePlanner/TaskAssignment.cpp:155-163 | the simulator build waits 10 s after an opponent kick-off, the robot build 0 s |
| BasicPlan.HasBallMoved | Src/Modules/BehaviorControl/GamePlanner/TaskAssignment.cpp:104-134 | the flag is cleared outside PLAYING, kept once set, and never set from a ball lost for over 700 ms |
| BasicPlan.MovedLatches | Src/Modules/BehaviorControl/GamePlanner/TaskAssignment.cpp:106-113 | through any series of PLAYING cycles a set flag stays set |
| BasicPlan.TruncDiv | Src/Modules/BehaviorControl/GamePlanner/TaskAssignment.cpp:169 | integer division truncates toward zero, as in C: the remainder has the sign of the dividend and is smaller than the divisor |
| BasicPlan.WaitThreshold | Src/Modules/BehaviorControl/GamePlanner/TaskAssignment.cpp:169 | truncated seconds reach a positive wait exactly when the milliseconds reach it; a zero wait accepts anything above -1000 ms |
| BasicPlan.InitialPlan | Src/Modules/BehaviorControl/GamePlanner/TaskAssignment.h:169-179 | the plan starts waiting for a kick-off stamp, with the ball not moved, not free and the kick-off role not expired |
| BasicPlan.UpdateBallIsFree | Src/Modules/BehaviorControl/GamePlanner/TaskAssignment.cpp:149-182 | in PLAYING after an opponent kick-off the clock and the target's wait (10 s in the simulator, 0 s on a robot) are stamped once, and the ball frees when the wait is over or the ball moved; before play it is blocked and the stamp re-armed for an opponent kick-off, and free for an own one, the clock and wait untouched; in PLAYING with the ball already free or an own kick-off, and in FINISHED, nothing changes |
| BasicPlan.UpdatePalang | Src/Modules/BehaviorControl/GamePlanner/TaskAssignment.cpp:186-199 | an opponent kick-off expires the kick-off role at once; an own kick-off restarts its clock in SET and expires it more than 15 s later in PLAYING |
| BasicPlan.UpdateBasicPlan | Src/Modules/BehaviorControl/GamePlanner/TaskAssignment.cpp:145-199 | the movement check runs first and feeds the ball-free rule; the kick-off role timeout runs after |
| BasicPlan.RobotFreesAtOnce | Src/Modules/BehaviorControl/GamePlanner/TaskAssignment.cpp:149-172 | on the robot build the first PLAYING cycle after an opponent kick-off already frees the ball |
| BasicPlan.SimulatorWaitsTenSeconds | Src/Modules/BehaviorControl/GamePlanner/TaskAssignment.cpp:149-172 | in the simulator the ball frees exactly when 10000 ms have passed since the stamp or it moved |
| BasicPlan.TeamBallRemembered | Src/Modules/BehaviorControl/GamePlanner/TaskAssignment.cpp:908-911 | the team has the ball while its team ball is valid and for under 3000 ms after; a more recent sighting never loses it |
| BasicPlan.HasGotBall | Src/Modules/BehaviorControl/GamePlanner/TaskAssignment.cpp:908-911 | a valid team ball is had; an invalid one is had for under 3000 ms after it was last valid |
| FormationSelection.KeyText | Src/Modules/BehaviorControl/GamePlanner/TaskAssignment.cpp:228-235 | every key starts with "formation" |
| FormationSelection.FormationKey | Src/Modules/BehaviorControl/GamePlanner/TaskAssignment.cpp:228-235 | READY and SET select the "_ready" formations and every other state the "_playing" ones; the name reads back as the phase, player count, kick-off side and version it was built from |
| FormationSelection.KeyRoundTrip | Src/Modules/BehaviorControl/GamePlanner/TaskAssignment.cpp:228-235 | phase, player count, kick-off side and version can be read back from the key |
| FormationSelection.KeyInjective | Src/Modules/BehaviorControl/GamePlanner/TaskAssignment.cpp:228-235 | different situations never share a formation file |
| FormationSelection.MirrorCatalog | Src/Modules/BehaviorControl/GamePlanner/TaskAssignment.cpp:238-247 | mirroring keeps every catalog entry and mirrors every formation in it |
| FormationSelection.MirrorCatalogInvolution | Src/Modules/BehaviorControl/GamePlanner/TaskAssignment.cpp:238-247 | mirroring the catalog twice gives it back |
| FormationSelection.NeedsChange | Src/Modules/BehaviorControl/GamePlanner/TaskAssignment.cpp:208-213 | a new formation is needed exactly when the game state, player count or kick-off side differs from the stored one |
| FormationSelection.MirrorsNow | Src/Modules/BehaviorControl/GamePlanner/TaskAssignment.cpp:238-239 | the catalog is mirrored exactly on entering READY with an own kick-off under dynamic post assignment |
| FormationSelection.UpdateFormation | Src/Modules/BehaviorControl/GamePlanner/TaskAssignment.cpp:204-263 | with no change in state, player count or kick-off side nothing changes; otherwise the situation is stored, the catalog mirrored when entering READY with own kick-off under dynamic posts, and the keyed formation loaded, a missing key being a fault |
| FormationSelection.UpdateIsEdgeTriggered | Src/Modules/BehaviorControl/GamePlanner/TaskAssignment.cpp:209-217 | directly after a selection, the same inputs select nothing |
| FormationSelection.LoadedMatchesKey | Src/Modules/BehaviorControl/GamePlanner/TaskAssignment.cpp:238-262 | the loaded formation is the stored last formation and the catalog entry of the key; the catalog only changes on entering READY |
| Permutations.PermsSound | Src/Modules/BehaviorControl/GamePlanner/TaskAssignment.cpp:462-487 | everything enumerated is a permutation of the start sequence |
| Permutations.PermsComplete | Src/Modules/BehaviorControl/GamePlanner/TaskAssignment.cpp:462-487 | every permutation of a duplicate-free sequence is enumerated |
| Permutations.PermsSorted | Src/Modules/BehaviorControl/GamePlanner/TaskAssignment.cpp:462-487 | from an increasing start, the enumeration is in strictly increasing lexicographic order |
| Permutations.Enumeration | Src/Modules/BehaviorControl/GamePlanner/TaskAssignment.cpp:454-487 | starting from 0..N-1, the loop visits each permutation of 0..N-1 exactly once, in lexicographic order |
| PostAssignment.SearchFrom | Src/Modules/BehaviorControl/GamePlanner/TaskAssignment.cpp:460-487 | the search finds nothing exactly when no permutation is pin-consistent, and otherwise the first of least cost |
| PostAssignment.BestPermutation | Src/Modules/BehaviorControl/GamePlanner/TaskAssignment.cpp:454-487 | the result has N entries and is a permutation, or all zeros when no permutation is pin-consistent |
| PostAssignment.BestPermutationInRange | Src/Modules/BehaviorControl/GamePlanner/TaskAssignment.cpp:454-487 | every entry of the best permutation names one of the first N posts, so indexing the cost matrix's posts with it stays in range |
| PostAssignment.BestPermutationOptimal | Src/Modules/BehaviorControl/GamePlanner/TaskAssignment.cpp:462-487 | the result is a pin-consistent permutation no dearer than any other pin-consistent one, and strictly cheaper than every earlier one in lexicographic order |
| PostAssignment.PinnedSearchSucceeds | Src/Modules/BehaviorControl/GamePlanner/TaskAssignment.cpp:469-471 | with a valid pin the result is a permutation giving the pinned agent the pinned cell |
| PostAssignment.UpdatePostStatic | Src/Modules/BehaviorControl/GamePlanner/TaskAssignment.cpp:343-370 | a listed robot whose first listing lies inside the formation takes that post, with that cell's point as target; unlisted robots and posts beyond the formation are faults |
| PostAssignment.StaticPostIsFirstListing | Src/Modules/BehaviorControl/GamePlanner/TaskAssignment.cpp:343-356 | for any position listing the robot's number: inside the formation it guarantees success, and the post taken is never later than it |
| PostAssignment.StaticPostsDistinct | Src/Modules/BehaviorControl/GamePlanner/TaskAssignment.cpp:343-356 | two robots with different numbers never take the same post |
| PostAssignment.LeaderCellAmong | Src/Modules/BehaviorControl/GamePlanner/TaskAssignment.cpp:391-402 | the leader's cell is -1 or a non-"DF" cell some teammate with the leader's number is classified into; -1 when no teammate has it |
| PostAssignment.LeaderCell | Src/Modules/BehaviorControl/GamePlanner/TaskAssignment.cpp:382-403 | no leader gives -1; otherwise a valid non-"DF" cell or -1, the robot's own cell when it led |
| PostAssignment.CostMatrix | Src/Modules/BehaviorControl/GamePlanner/TaskAssignment.cpp:431-436 | the cost matrix is N by N |
| PostAssignment.PoseOf | Src/Modules/BehaviorControl/GamePlanner/TaskAssignment.cpp:295-310 | the robot costs from its own pose and every other agent from the pose of the first teammate with its number |
| PostAssignment.PinCost | Src/Modules/BehaviorControl/GamePlanner/TaskAssignment.cpp:451-452 | pinning zeroes exactly the leader's entry for its cell |
| PostAssignment.PinOf | Src/Modules/BehaviorControl/GamePlanner/TaskAssignment.cpp:439-448 | a pin exists exactly when the leader has a cell and is among the agents, and then names the leader's position |
| PostAssignment.Assign | Src/Modules/BehaviorControl/GamePlanner/TaskAssignment.cpp:438-520 | the robot takes the stored formation's cell named by its own entry of the best permutation, with that cell's point as target; a pin outside the matrix or a chosen cell outside the stored formation is a fault, and with the pin inside the matrix and a stored formation of at least N cells it always succeeds; nothing else in the task changes |
| PostAssignment.UpdatePostDynamic | Src/Modules/BehaviorControl/GamePlanner/TaskAssignment.cpp:371-539 | the agent list is always rebuilt; a player-count mismatch keeps the task and the previous assignment and always succeeds once the leader's cell is known; the only faults are an empty formation and out-of-range reads, and with a matching count it fails on a current formation smaller than N and succeeds when both formations have at least N cells and the leader's cell is below N |
| PostAssignment.DynamicAssignmentOptimal | Src/Modules/BehaviorControl/GamePlanner/TaskAssignment.cpp:425-520 | the assignment is a permutation, cheapest among pin-consistent ones under the pinned costs, gives the leader its cell, and the robot takes its assigned cell and that cell's point as target |
| RoleAssignment.LeaderDiscount | Src/Modules/BehaviorControl/GamePlanner/TaskAssignment.cpp:606-614 | last cycle's leader costs 1 s less in READY and 2 s less otherwise; nobody else is discounted |
| RoleAssignment.RoleTarget | Src/Modules/BehaviorControl/GamePlanner/TaskAssignment.cpp:598-601 | robots race to the field centre in READY and SET and to the team ball in PLAYING |
| RoleAssignment.LastLeaderWinsTies | Src/Modules/BehaviorControl/GamePlanner/TaskAssignment.cpp:631-639 | of two robots with equal travel time, last cycle's leader is strictly cheaper |
| RoleAssignment.FieldPlayers | Src/Modules/BehaviorControl/GamePlanner/TaskAssignment.cpp:619-627 | only teammates that are not the goalkeeper race for the ball |
| RoleAssignment.FieldPlayersMembers | Src/Modules/BehaviorControl/GamePlanner/TaskAssignment.cpp:619-627 | the racing teammates are exactly those that are not the goalkeeper |
| RoleAssignment.FieldPlayersAppend | Src/Modules/BehaviorControl/GamePlanner/TaskAssignment.cpp:619-627 | the racing teammates keep broadcast order: those of two rosters in turn are the first's followed by the second's |
| RoleAssignment.FieldPlayersWithoutGoalkeeper | Src/Modules/BehaviorControl/GamePlanner/TaskAssignment.cpp:619-627 | with no goalkeeper among them, every teammate races, in order |
| RoleAssignment.TeammateCosts | Src/Modules/BehaviorControl/GamePlanner/TaskAssignment.cpp:619-658 | exactly one entry per non-goalkeeper teammate, in broadcast order: its discounted travel time when playing, 1000 otherwise |
| RoleAssignment.BuildCosts | Src/Modules/BehaviorControl/GamePlanner/TaskAssignment.cpp:595-617 | an upright field player lists itself first with its discounted travel time, followed by the teammates' entries; otherwise only teammates are listed |
| RoleAssignment.SortByCost | Src/Modules/BehaviorControl/GamePlanner/TaskAssignment.cpp:669 | the ranking is a permutation of the entries in ascending cost |
| RoleAssignment.RankingHeadIsCheapest | Src/Modules/BehaviorControl/GamePlanner/TaskAssignment.cpp:669-677 | any ranking starts with an entry no dearer than any other |
| RoleAssignment.UniqueCheapestFirst | Src/Modules/BehaviorControl/GamePlanner/TaskAssignment.cpp:669-677 | a strictly cheapest entry comes first in every ranking, whatever the sort does with ties |
| RoleAssignment.AmIDefender | Src/Modules/BehaviorControl/GamePlanner/TaskAssignment.cpp:696-697 | the robot is a defender exactly in PLAYING on a "DF" cell; a cell id past the formation is a fault then |
| RoleAssignment.HasSupporter | Src/Modules/BehaviorControl/GamePlanner/TaskAssignment.cpp:682-713 | with dynamic posts and the leader among the agents, room comes from the leader's assigned cell (none before any assignment); a fault exactly when an assignment exists but the leader's entry or its cell lies out of range; otherwise there is room unless the robot defends |
| RoleAssignment.LeaderPoseX | Src/Modules/BehaviorControl/GamePlanner/TaskAssignment.cpp:715-722 | the leader's x is known exactly when a teammate has its number, and is the last such teammate's x |
| RoleAssignment.DynamicRole | Src/Modules/BehaviorControl/GamePlanner/TaskAssignment.cpp:581-771 | without the ball or entries, None with the leader unchanged; otherwise the head of the ranking leads, the robot leads when it is the head, supports only when second with the kick-off role expired, takes over only when second with the ball below the own-half border and the leader ahead of it; it fails exactly on the three out-of-range reads (own cell, second rank, leader's cell in the supporter check); the border is replaced by the query's result exactly for the second-ranked defender without a supporter and kept in every other case |
| RoleAssignment.SecondRankedRole | Src/Modules/BehaviorControl/GamePlanner/TaskAssignment.cpp:739-767 | for the second-ranked robot: with room it supports exactly when the kick-off role expired and it is no defender; without room it leads exactly when it defends, the ball is below the border and the leader is ahead of the ball |
| RoleAssignment.CheapestRobotLeads | Src/Modules/BehaviorControl/GamePlanner/TaskAssignment.cpp:669-732 | a strictly cheapest robot becomes the leader, and takes the Leader role when it is the robot itself |
| RoleAssignment.LeaderHasLeastCost | Src/Modules/BehaviorControl/GamePlanner/TaskAssignment.cpp:669-677 | the chosen leader always has least cost |
| RoleAssignment.StaticRole | Src/Modules/BehaviorControl/GamePlanner/TaskAssignment.cpp:547-580 | in READY the robot leads exactly when its cell contains the centre; otherwise exactly when the team has the ball and the ball is in its cell (hinted by the last ball cell) or within the distance border, the border being queried, and so updated, only when the cells differ; no cells is a fault |
| RoleAssignment.BallCellIsSticky | Src/Modules/BehaviorControl/GamePlanner/TaskAssignment.cpp:561 | the ball's cell changes only for a cell at least 400 closer to the ball |
| TaskAssignment.DefaultParams | Src/Modules/BehaviorControl/GamePlanner/TaskAssignment.h:45-48 | by default posts are static, roles dynamic, version 1 and the post list four zeros |
| TaskAssignment.BuildCatalog | Src/Modules/BehaviorControl/GamePlanner/TaskAssignment.cpp:27-64 | the catalog holds exactly the ".cfg" files, each loaded from its lines |
| TaskAssignment.InitialState | Src/Modules/BehaviorControl/GamePlanner/TaskAssignment.h:143-179 | the module starts with no leader (-1), ball cell 0, no agents, game state INITIAL and the two borders at their constructor values |
| TaskAssignment.PlanStep | Src/Modules/BehaviorControl/GamePlanner/TaskAssignment.cpp:136-182 | the plan is updated, the task gets its ball-free flag, and the player count is the active roster with dynamic posts and the post list's length otherwise |
| TaskAssignment.FormationStep | Src/Modules/BehaviorControl/GamePlanner/TaskAssignment.cpp:249-262 | selection keeps role and leader, and either keeps the cells or loads the formation it stores as last set |
| TaskAssignment.PostStep | Src/Modules/BehaviorControl/GamePlanner/TaskAssignment.cpp:338-540 | post assignment keeps cells, role and leader |
| TaskAssignment.RoleStep | Src/Modules/BehaviorControl/GamePlanner/TaskAssignment.cpp:542-773 | role assignment keeps the cells and yields Leader, Supporter or None |
| TaskAssignment.PlayStep | Src/Modules/BehaviorControl/GamePlanner/TaskAssignment.cpp:81-93 | in READY, SET and PLAYING the steps run in order and yield Leader, Supporter or None, keeping the plan |
| TaskAssignment.Cycle | Src/Modules/BehaviorControl/GamePlanner/TaskAssignment.cpp:66-102 | robot 1 and penalised robots publish GoalKeeper and skip everything; others run the plan, then the play steps in READY, SET, PLAYING; the published task is the internal one; faults arise only in play |
| TaskAssignment.GoalkeeperPublished | Src/Modules/BehaviorControl/GamePlanner/TaskAssignment.cpp:71-77 | goalkeeper and penalised robots publish GoalKeeper and leave the plan untouched |
| TaskAssignment.StaleRoleOutsidePlay | Src/Modules/BehaviorControl/GamePlanner/TaskAssignment.cpp:94-100 | outside READY, SET and PLAYING the leader is forgotten but the published role is last cycle's, because the None written to the output is overwritten |
| TaskAssignment.DefaultPlayersUnlisted | Src/Modules/BehaviorControl/GamePlanner/TaskAssignment.cpp:343-351 | with the default post list of zeros every field player is unlisted, so static post assignment fails its assertion |

## Left out

- `timeCost` and the float frame transforms, norms and angles are not modelled. Floating-point arithmetic is out of scope: they are the functions of `World.Geometry`, and the contracts hold for any values they return.
- `voronoiPoseRelativeToBall` is left out. It is float interpolation, and its only call is commented out.
- The directory scan and regex filter, file opening and the `getline` loop are left out, because they are I/O. A file is given as its sequence of lines, and the catalog as a map from file name to lines.
- `getline` stores at most 254 characters. On a longer line it sets the stream's fail bit, no later call reads anything, and `while (!file.eof())` never ends, so the loader hangs on such a file. The model accepts lines of any length.
- Lines are read as characters, not bytes: the model's digit value is the character's code minus 48, while the code subtracts 48 from a signed `char`, which is negative for bytes of 128 and above (for example UTF-8 in the numeric part). Formation files are taken to be ASCII.
- `varValue` is an `int` and overflows after nine or ten digits. The model's field values are unbounded integers, because formation files hold coordinates of a few digits.
- `processLine` also exists, identical, inside `AgentTask::load(const std::string&)` (`AgentTask.cpp:106-179`). The model follows the copy in `getTilesFromFile`, which the catalog uses, with the counter corrected as described under FormationFile.Load.
- The system clock and frame clock are inputs in milliseconds. Their unsigned 32-bit wrap-around is not modelled.
- The percepts behind the ball-movement check enter as numbers (`BallSighting`), not as sensor data.
- Debug drawings, console output and serialisation are framework plumbing and are left out.
- The kick-off ("palang") name check reads the robot's own cell. Its value is never used, so only its out-of-range read is modelled, as a fault.
- In a release build a failed `ASSERT` does nothing and the cycle goes on with stale values. The model reports the fault instead, as a debug build stops.
- C++ members that are never initialised start as parameters of `TaskAssignment.InitialState` and `AgentTask.NewAgentTask`. These are the task's role, cell id and ball flag, the stored kick-off side, the player count and the palang timer.
- `BehaviorControl2015.cpp` is module wiring and the behaviour engine, which consume the published task. It is not part of this model.
- FormationFile.Load: it reads lines with the corrected, unbounded field counter (`ProcessLine`), not the wrapping `char` counter of `getTilesFromFile`, so on a line with 128 or more commas before its markers it can keep a cell the code drops (see Findings). `LoadAsWritten` is the loader as written, and `LoadAgreesBelowWrap` proves the two equal on every file without such a line. Its own contract is only a length bound. What a formation contains is stated by `LoadAppend`, `LoadSingle`, `AllAccepted` and `LoadedCellsComeFromLines`.
- RoleAssignment.SortByCost: `std::sort` is not stable, so the cycle uses one admissible order, an insertion sort. `DynamicRole` and the lemmas about it accept any ranking that `IsRanking` admits.
- PostAssignment.CostMatrix: only the matrix shape is stated. Each entry is the `postCost` geometry value of the agent's pose (own or teammate) and the cell's point.
- TaskAssignment.RoleStep: its contract states only what the step preserves. The role decision is stated on `RoleAssignment.StaticRole`, `RoleAssignment.DynamicRole` and the lemmas about them.
- TaskAssignment.PostStep: its contract states only what the step preserves. The assignment is stated on `PostAssignment.UpdatePostStatic`, `PostAssignment.UpdatePostDynamic` and `PostAssignment.DynamicAssignmentOptimal`.

## Findings

| source | as written | input that shows it | evidently intended | confidence | as-written member | corrected member |
|---|---|---|---|---|---|---|
| Src/Representations/BehaviorControl/AgentTask.cpp:219 | The field counter `varCounter` is a `char`, incremented at every comma. It wraps from 127 to -128, after which the acceptance test `varCounter < 2` passes and the line is rejected. | A line of 128 commas: it has more than two commas but is rejected. | A line is accepted whenever it has at least two commas. | not executed | FormationFile.WrappedCounterRejects | FormationFile.AcceptedIffTwoCommas |

=== FILE: agent_task.dfy ===
/** The per-cycle output of task assignment: the active formation, the own role, whether
    the ball is free, the assigned cell and its position; and the nearest-cell classifier
    with its hysteresis band. */
module AgentTask {
  import opened Wrappers
  import opened VoronoiCell
  import opened World

  /** Roles, in the order of the enumeration. Defender and GoalKeeper only drive the LEDs. */
  datatype Role = Leader | Supporter | Defender | GoalKeeper | None

  const RoleCount: nat := 5

  function RoleOrdinal(r: Role): (n: nat)
    ensures n < RoleCount
  {
    if r.Leader? then 0
    else if r.Supporter? then 1
    else if r.Defender? then 2
    else if r.GoalKeeper? then 3
    else 4
  }

  function RoleOfOrdinal(n: nat): Role
    requires n < RoleCount
  {
    if n == 0 then Leader
    else if n == 1 then Supporter
    else if n == 2 then Defender
    else if n == 3 then GoalKeeper
    else Role.None
  }

  /** The enumeration has exactly five values, numbered 0 to 4 in declaration order. */
  lemma RoleOrdinalBijective(r: Role, n: nat)
    requires n < RoleCount
    ensures RoleOfOrdinal(RoleOrdinal(r)) == r
    ensures RoleOrdinal(RoleOfOrdinal(n)) == n
    ensures RoleOrdinal(Leader) == 0 && RoleOrdinal(Role.None) == 4
  {
  }

  /** A point with integer coordinates: the translation of an occupation pose. */
  datatype Point = Point(x: int, y: int)

  function Translation(p: Pose): Point {
    Point(p.x, p.y)
  }

  datatype AgentTask = AgentTask(
    cells: seq<Cell>,
    role: Role,
    currentVoronoiId: int,
    currentVoronoiPose: Point,
    ballIsFree: bool)

  /** The constructor only sets the pose; role, cell id and ball flag start undefined in
      the system and are parameters here. */
  function NewAgentTask(role: Role, currentVoronoiId: int, ballIsFree: bool): (t: AgentTask)
    ensures t.cells == [] && t.currentVoronoiPose == Point(-1000, 0)
  {
    AgentTask([], role, currentVoronoiId, Point(-1000, 0), ballIsFree)
  }

  /** `setCells`, also what `load(tiles)` does: the formation is replaced wholesale. */
  function SetCells(t: AgentTask, tiles: seq<Cell>): (r: AgentTask)
    ensures r.cells == tiles
    ensures r.role == t.role && r.currentVoronoiId == t.currentVoronoiId
    ensures r.currentVoronoiPose == t.currentVoronoiPose && r.ballIsFree == t.ballIsFree
  {
    t.(cells := tiles)
  }

  function SetCell(t: AgentTask, id: nat, value: Cell): (r: AgentTask)
    requires id < |t.cells|
    ensures |r.cells| == |t.cells| && r.cells[id] == value
    ensures forall i :: 0 <= i < |t.cells| && i != id ==> r.cells[i] == t.cells[i]
    ensures r.role == t.role && r.currentVoronoiId == t.currentVoronoiId
    ensures r.currentVoronoiPose == t.currentVoronoiPose && r.ballIsFree == t.ballIsFree
  {
    t.(cells := t.cells[id := value])
  }

  function SetCurrentAgentVoronoiId(t: AgentTask, id: int): (r: AgentTask)
    ensures r.currentVoronoiId == id
    ensures r.cells == t.cells && r.role == t.role
    ensures r.currentVoronoiPose == t.currentVoronoiPose && r.ballIsFree == t.ballIsFree
  {
    t.(currentVoronoiId := id)
  }

  function SetRole(t: AgentTask, role: Role): (r: AgentTask)
    ensures r.role == role
    ensures r.cells == t.cells && r.currentVoronoiId == t.currentVoronoiId
    ensures r.currentVoronoiPose == t.currentVoronoiPose && r.ballIsFree == t.ballIsFree
  {
    t.(role := role)
  }

  function SetBallIsFree(t: AgentTask, b: bool): (r: AgentTask)
    ensures r.ballIsFree == b
    ensures r.cells == t.cells && r.role == t.role
    ensures r.currentVoronoiId == t.currentVoronoiId && r.currentVoronoiPose == t.currentVoronoiPose
  {
    t.(ballIsFree := b)
  }

  function SetCurrentVoronoiPose(t: AgentTask, p: Point): (r: AgentTask)
    ensures r.currentVoronoiPose == p
    ensures r.cells == t.cells && r.role == t.role
    ensures r.currentVoronoiId == t.currentVoronoiId && r.ballIsFree == t.ballIsFree
  {
    t.(currentVoronoiPose := p)
  }

  // ---------------------------------------------------------------------------------
  // The hysteresis classifier `converToId`.

  /** Half-width of the hysteresis band, in millimetres. */
  const Band: real := 200.0

  /** Biased distance of cell `i`: the cell named by `hys` is pulled in by the band,
      every other cell is pushed out by it. */
  function Biased(d: seq<real>, hys: nat, i: nat): (b: real)
    requires i < |d|
    ensures i == hys ==> d[i] - b == 200.0
    ensures i != hys ==> b - d[i] == 200.0
  {
    if i == hys then d[i] - Band else d[i] + Band
  }

  /** `r` is the first index of minimal biased distance. */
  ghost predicate IsFirstMinimum(d: seq<real>, hys: nat, r: nat) {
    && r < |d|
    && (forall j :: 0 <= j < |d| ==> Biased(d, hys, r) <= Biased(d, hys, j))
    && (forall j :: 0 <= j < r ==> Biased(d, hys, r) < Biased(d, hys, j))
  }

  /** The loop of `converToId` from index `i` on, with `best` the index kept so far;
      a later cell replaces it only when strictly closer. */
  function ScanFrom(d: seq<real>, hys: nat, i: nat, best: nat): (r: nat)
    requires best < |d| && i <= |d|
    requires forall j :: 0 <= j < i ==> Biased(d, hys, best) <= Biased(d, hys, j)
    requires forall j :: 0 <= j < best ==> Biased(d, hys, best) < Biased(d, hys, j)
    ensures IsFirstMinimum(d, hys, r)
    decreases |d| - i
  {
    if i == |d| then best
    else if Biased(d, hys, best) > Biased(d, hys, i) then ScanFrom(d, hys, i + 1, i)
    else ScanFrom(d, hys, i + 1, best)
  }

  /** `converToId(p, hysID)`, given the distance from `p` to every cell's occupation
      point. An empty formation is an error. */
  function ConverToId(d: seq<real>, hys: nat): (r: Result<nat, Fault>)
    ensures r.Failure? <==> |d| == 0
    ensures r.Failure? ==> r.error == EmptyPartition
    ensures r.Success? ==> IsFirstMinimum(d, hys, r.value)
  {
    if |d| == 0 then Failure(EmptyPartition) else Success(ScanFrom(d, hys, 0, 0))
  }

  lemma FirstMinimumUnique(d: seq<real>, hys: nat, r: nat, s: nat)
    requires IsFirstMinimum(d, hys, r) && IsFirstMinimum(d, hys, s)
    ensures r == s
  {
    assert Biased(d, hys, r) <= Biased(d, hys, s);
    assert Biased(d, hys, s) <= Biased(d, hys, r);
  }

  /** The previous cell `h` is kept exactly when no earlier cell is 400 or more closer and
      no later cell is more than 400 closer. */
  ghost predicate KeepsCell(d: seq<real>, h: nat) {
    && h < |d|
    && (forall j :: 0 <= j < h ==> d[h] < d[j] + 2.0 * Band)
    && (forall j :: h < j < |d| ==> d[h] <= d[j] + 2.0 * Band)
  }

  lemma ClassifierKeepsCellIff(d: seq<real>, h: nat)
    requires h < |d|
    ensures ConverToId(d, h) == Success(h) <==> KeepsCell(d, h)
  {
    if KeepsCell(d, h) {
      assert IsFirstMinimum(d, h, h) by {
        forall j | 0 <= j < |d|
          ensures Biased(d, h, h) <= Biased(d, h, j)
        {
        }
      }
      FirstMinimumUnique(d, h, h, ConverToId(d, h).value);
    }
    if ConverToId(d, h) == Success(h) {
      forall j | 0 <= j < h
        ensures d[h] < d[j] + 2.0 * Band
      {
        assert Biased(d, h, h) < Biased(d, h, j);
      }
      forall j | h < j < |d|
        ensures d[h] <= d[j] + 2.0 * Band
      {
        assert Biased(d, h, h) <= Biased(d, h, j);
      }
    }
  }

  /** Leaving the previous cell takes a cell at least twice the band closer. */
  lemma SwitchNeedsMargin(d: seq<real>, h: nat, r: nat)
    requires h < |d|
    requires ConverToId(d, h) == Success(r) && r != h
    ensures d[r] + 2.0 * Band <= d[h]
  {
    assert Biased(d, h, r) <= Biased(d, h, h);
  }

  /** Feeding the answer back as the hysteresis hint returns the same cell. */
  lemma ClassifierIdempotent(d: seq<real>, h: nat)
    requires |d| > 0
    ensures ConverToId(d, ConverToId(d, h).value) == ConverToId(d, h)
  {
    var r := ConverToId(d, h).value;
    assert IsFirstMinimum(d, h, r);
    if r != h {
      forall j | 0 <= j < |d| && j != r
        ensures d[r] < d[j] + 2.0 * Band
      {
        assert Biased(d, h, r) <= Biased(d, h, j);
      }
    }
    ClassifierKeepsCellIff(d, r);
  }

  /** The default hint is cell 0: without a prior classification, cell 0 is still favoured
      by the band, so it wins whenever it is within twice the band of every other cell. */
  lemma DefaultHintFavoursFirstCell(d: seq<real>)
    requires |d| > 0
    requires forall j :: 0 < j < |d| ==> d[0] <= d[j] + 2.0 * Band
    ensures ConverToId(d, 0) == Success(0)
  {
    ClassifierKeepsCellIff(d, 0);
  }

  /** The pose of a cell's occupation point as a robot pose. */
  function CellPose(p: Pose): RobotPose {
    RobotPose(p.rotation as real, Vec(p.x as real, p.y as real))
  }

  /** Distances from a pose to every cell's occupation point. */
  function DistancesTo(geo: Geometry, p: RobotPose, cells: seq<Cell>): (d: seq<real>)
    ensures |d| == |cells|
    ensures forall i :: 0 <= i < |cells| ==> d[i] == geo.poseDistance(p, CellPose(cells[i].point))
  {
    seq(|cells|, i requires 0 <= i < |cells| => geo.poseDistance(p, CellPose(cells[i].point)))
  }

  /** `converToId(p, hysID)` on a formation. */
  function Classify(geo: Geometry, p: RobotPose, cells: seq<Cell>, hys: nat): (r: Result<nat, Fault>)
    ensures r.Failure? <==> |cells| == 0
    ensures r.Success? ==> r.value < |cells| && IsFirstMinimum(DistancesTo(geo, p, cells), hys, r.value)
  {
    ConverToId(DistancesTo(geo, p, cells), hys)
  }

  /** `converToCell(p)`: the cell the classification with the default hint picks. */
  function ConverToCell(geo: Geometry, p: RobotPose, cells: seq<Cell>): (r: Result<Cell, Fault>)
    ensures r.Failure? <==> |cells| == 0
    ensures r.Success? ==>
      exists i: nat :: IsFirstMinimum(DistancesTo(geo, p, cells), 0, i) && r.value == cells[i]
  {
    var id :- Classify(geo, p, cells, 0);
    Success(cells[id])
  }

  /** `converToPoint(p)`: the pointer of that cell. */
  function ConverToPoint(geo: Geometry, p: RobotPose, cells: seq<Cell>): (r: Result<Pose, Fault>)
    ensures r.Failure? <==> |cells| == 0
    ensures r.Success? ==>
      exists i: nat :: IsFirstMinimum(DistancesTo(geo, p, cells), 0, i) && r.value == cells[i].pointer
  {
    var c :- ConverToCell(geo, p, cells);
    Success(c.pointer)
  }
}

=== FILE: basic_plan.dfy ===
/** The basic plan that runs every cycle before formation, post and role: whether the ball
    has moved since kick-off, whether the ball is free to be played, and the expiry of the
    kick-off ("palang") role. Clocks are inputs: times are in milliseconds. */
module BasicPlan {
  import opened World

  /** The build the code is compiled for; the kick-off rules differ between them. */
  datatype Target = Simulator | Robot

  /** Seconds a robot waits after an opponent kick-off before the ball counts as free. */
  function KickOffWaitSeconds(target: Target): (s: int)
    ensures target == Simulator ==> s == 10
    ensures target == Robot ==> s == 0
  {
    match target
    case Simulator => 10
    case Robot => 0
  }

  /** Distance in millimetres the ball must travel to count as moved. */
  const BallMoveLimit: real := 400.0

  /** How long an own kick-off keeps the kick-off role before it expires. */
  const PalangTimeout: int := 15000

  /** What the ball-movement check reads, already reduced to times and distances. */
  datatype BallSighting = BallSighting(
    sinceBallDisappeared: int,   // time since the own ball model lost the ball
    poseValidity: real,          // self-localisation validity, 0 to 1
    ballFieldDistance: real,     // distance of the own ball estimate from the field centre
    teamBallDistance: real,      // distance of the team ball from the field centre
    sinceCircleSeen: int,        // time since the centre circle was last seen
    ballToCircleDistance: real)  // distance from the ball estimate to the seen circle centre

  /** `calculateHasBallMoved`: reset outside PLAYING, then a latch set by any evidence. */
  function HasBallMoved(target: Target, state: GameState, moved: bool, s: BallSighting): (r: bool)
    ensures state != StatePlaying ==> !r
    ensures state == StatePlaying && moved ==> r
    ensures state == StatePlaying && !moved && s.sinceBallDisappeared > 700 ==> !r
  {
    if state != StatePlaying then false
    else if moved then true
    else if s.sinceBallDisappeared > 700 then moved
    else
      var byPose := if s.poseValidity > 0.9 then moved || s.ballFieldDistance > BallMoveLimit else moved;
      match target
      case Simulator => if s.teamBallDistance > 500.0 then true else byPose
      case Robot =>
        if s.sinceCircleSeen < 5 then byPose || s.ballToCircleDistance > BallMoveLimit else byPose
  }

  /** During PLAYING the flag only ever goes from false to true: over any series of cycles in
      PLAYING, once set it stays set. */
  lemma {:induction false} MovedLatches(target: Target, moved: bool, xs: seq<BallSighting>)
    requires moved
    ensures MovedSeries(target, moved, xs)
    decreases |xs|
  {
    if |xs| > 0 {
      MovedLatches(target, HasBallMoved(target, StatePlaying, moved, xs[0]), xs[1..]);
    }
  }

  /** The flag after each of a series of cycles in PLAYING is true. */
  ghost predicate MovedSeries(target: Target, moved: bool, xs: seq<BallSighting>)
    decreases |xs|
  {
    |xs| == 0 ||
    (var m := HasBallMoved(target, StatePlaying, moved, xs[0]); m && MovedSeries(target, m, xs[1..]))
  }

  /** C integer division truncates toward zero: the remainder `a - q * b` has the sign of
      `a` and is smaller than `b` in magnitude. */
  function TruncDiv(a: int, b: int): (q: int)
    requires b > 0
    ensures a >= 0 ==> q * b <= a < q * b + b
    ensures a < 0 ==> q * b - b < a <= q * b
  {
    if a >= 0 then a / b else -((-a) / b)
  }

  /** The truncated seconds reach `w` exactly when the milliseconds reach `w` thousand, for a
      positive wait; for no wait, anything above minus one second counts. */
  lemma WaitThreshold(elapsed: int, w: int)
    ensures w > 0 ==> (TruncDiv(elapsed, 1000) >= w <==> elapsed >= w * 1000)
    ensures w == 0 ==> (TruncDiv(elapsed, 1000) >= w <==> elapsed > -1000)
  {
  }

  /** The state the basic plan keeps between cycles. */
  datatype PlanState = PlanState(
    setKickOffWait: bool,
    kickOffWait: int,
    timeMustWait: int,
    hasBallMoved: bool,
    ballIsFree: bool,
    kickOffTimerPalang: int,
    palangExpired: bool)

  /** The values set at construction; the palang timer starts undefined and is a parameter. */
  function InitialPlan(kickOffTimerPalang: int): (p: PlanState)
    ensures p.setKickOffWait && !p.hasBallMoved && !p.ballIsFree && !p.palangExpired
    ensures p.kickOffWait == 0 && p.timeMustWait == 0
  {
    PlanState(true, 0, 0, false, false, kickOffTimerPalang, false)
  }

  /** The ball-is-free part of `updateBasicPlan`, after the movement check. */
  function UpdateBallIsFree(p: PlanState, target: Target, state: GameState, kickOffOpponent: bool,
                            systemTime: int, moved: bool): (r: PlanState)
    ensures r.hasBallMoved == p.hasBallMoved && r.kickOffTimerPalang == p.kickOffTimerPalang
    ensures r.palangExpired == p.palangExpired
    ensures state == StatePlaying && !p.ballIsFree && kickOffOpponent ==>
      && !r.setKickOffWait
      && r.kickOffWait == (if p.setKickOffWait then systemTime else p.kickOffWait)
      && r.timeMustWait == (if p.setKickOffWait then KickOffWaitSeconds(target) else p.timeMustWait)
      && (r.ballIsFree <==> TruncDiv(systemTime - r.kickOffWait, 1000) >= r.timeMustWait || moved)
    ensures StateCode(state) <= 2 && kickOffOpponent ==> !r.ballIsFree && r.setKickOffWait
    ensures StateCode(state) <= 2 && !kickOffOpponent ==> r.ballIsFree && r.setKickOffWait == p.setKickOffWait
    ensures StateCode(state) <= 2 ==> r.timeMustWait == p.timeMustWait && r.kickOffWait == p.kickOffWait
    ensures state == StatePlaying && (p.ballIsFree || !kickOffOpponent) ==> r == p
    ensures state == StateFinished ==> r == p
  {
    if state == StatePlaying && !p.ballIsFree && kickOffOpponent then
      var p1 :=
        if p.setKickOffWait
        then p.(kickOffWait := systemTime, timeMustWait := KickOffWaitSeconds(target), setKickOffWait := false)
        else p;
      p1.(ballIsFree := TruncDiv(systemTime - p1.kickOffWait, 1000) >= p1.timeMustWait || moved)
    else if StateCode(state) <= StateCode(StateSet) && kickOffOpponent then
      p.(ballIsFree := false, setKickOffWait := true)
    else if StateCode(state) <= StateCode(StateSet) && !kickOffOpponent then
      p.(ballIsFree := true)
    else p
  }

  /** The palang part of `updateBasicPlan`: an opponent kick-off expires it at once; an own
      kick-off starts its clock in SET and expires it 15 seconds later in PLAYING. */
  function UpdatePalang(p: PlanState, state: GameState, kickOffOpponent: bool, frameTime: int): (r: PlanState)
    ensures r.ballIsFree == p.ballIsFree && r.hasBallMoved == p.hasBallMoved
    ensures r.setKickOffWait == p.setKickOffWait && r.kickOffWait == p.kickOffWait
    ensures r.timeMustWait == p.timeMustWait
    ensures kickOffOpponent ==> r.palangExpired && r.kickOffTimerPalang == p.kickOffTimerPalang
    ensures !kickOffOpponent && state == StateSet ==> !r.palangExpired && r.kickOffTimerPalang == frameTime
    ensures !kickOffOpponent && state == StatePlaying ==>
      r.kickOffTimerPalang == p.kickOffTimerPalang &&
      (r.palangExpired <==> frameTime - p.kickOffTimerPalang > PalangTimeout)
    ensures !kickOffOpponent && state != StateSet && state != StatePlaying ==> !r.palangExpired
  {
    var p1 := p.(palangExpired := kickOffOpponent);
    var p2 := if state == StateSet && !kickOffOpponent then p1.(kickOffTimerPalang := frameTime, palangExpired := false) else p1;
    if state == StatePlaying && !kickOffOpponent
    then p2.(palangExpired := frameTime - p2.kickOffTimerPalang > PalangTimeout)
    else p2
  }

  /** `updateBasicPlan` without the player count, which the control cycle computes. */
  function UpdateBasicPlan(p: PlanState, target: Target, state: GameState, kickOffOpponent: bool,
                           systemTime: int, frameTime: int, s: BallSighting): (r: PlanState)
    ensures r.hasBallMoved == HasBallMoved(target, state, p.hasBallMoved, s)
    ensures r.ballIsFree ==
      UpdateBallIsFree(p, target, state, kickOffOpponent, systemTime, r.hasBallMoved).ballIsFree
    ensures r.palangExpired == UpdatePalang(p, state, kickOffOpponent, frameTime).palangExpired
  {
    var moved := HasBallMoved(target, state, p.hasBallMoved, s);
    var p1 := UpdateBallIsFree(p.(hasBallMoved := moved), target, state, kickOffOpponent, systemTime, moved);
    UpdatePalang(p1, state, kickOffOpponent, frameTime)
  }

  /** On the robot build, the first PLAYING cycle after an opponent kick-off already frees the
      ball: the wait is zero seconds and the clock was just stamped. */
  lemma RobotFreesAtOnce(p: PlanState, kickOffOpponent: bool, systemTime: int, frameTime: int, s: BallSighting)
    requires kickOffOpponent && p.setKickOffWait && !p.ballIsFree
    ensures UpdateBasicPlan(p, Robot, StatePlaying, kickOffOpponent, systemTime, frameTime, s).ballIsFree
  {
  }

  /** In the simulator, an opponent kick-off keeps the ball blocked for ten seconds unless it
      moves first. */
  lemma SimulatorWaitsTenSeconds(p: PlanState, systemTime: int, moved: bool)
    requires !p.setKickOffWait && !p.ballIsFree && p.timeMustWait == 10
    ensures UpdateBallIsFree(p, Simulator, StatePlaying, true, systemTime, moved).ballIsFree <==>
      systemTime - p.kickOffWait >= 10000 || moved
  {
    WaitThreshold(systemTime - p.kickOffWait, 10);
  }

  /** How long the team keeps counting on a team ball after it was last valid. */
  const TeamBallMemory: int := 3000

  /** `hasGotBall`: the team ball is valid or was valid less than three seconds ago. */
  function HasGotBall(teamBallValid: bool, sinceTeamBallValid: int): (r: bool)
    ensures teamBallValid ==> r
    ensures !teamBallValid ==> (r <==> sinceTeamBallValid < 3000)
  {
    teamBallValid || sinceTeamBallValid < TeamBallMemory
  }

  /** A valid team ball is always had; an invalid one is had for exactly three seconds after
      it was last valid, and a more recent sighting never loses it. */
  lemma TeamBallRemembered(sinceTeamBallValid: int, sooner: int)
    requires sooner <= sinceTeamBallValid
    ensures HasGotBall(true, sinceTeamBallValid)
    ensures HasGotBall(false, sinceTeamBallValid) <==> sinceTeamBallValid < 3000
    ensures HasGotBall(false, sinceTeamBallValid) ==> HasGotBall(false, sooner)
  {
  }
}

=== FILE: decimal.dfy ===
/** Decimal text of integers, as a standard stream writes them (`toString`), and its
    inverse. Used to build formation file names. */
module Decimal {
  import opened Wrappers

  predicate IsDigit(c: char) {
    '0' <= c <= '9'
  }

  predicate AllDigits(s: string) {
    forall i :: 0 <= i < |s| ==> IsDigit(s[i])
  }

  function DigitChar(d: nat): (c: char)
    requires d < 10
    ensures IsDigit(c) && c as int - 48 == d
  {
    (48 + d) as char
  }

  /** No leading zero, except for "0" itself. */
  predicate Canonical(s: string) {
    |s| >= 1 && AllDigits(s) && (s[0] == '0' ==> |s| == 1)
  }

  function NatToString(n: nat): (s: string)
    ensures Canonical(s)
    ensures n < 10 <==> |s| == 1
    decreases n
  {
    if n < 10 then [DigitChar(n)] else NatToString(n / 10) + [DigitChar(n % 10)]
  }

  function DigitsValue(s: string): nat
    requires AllDigits(s)
  {
    if |s| == 0 then 0 else DigitsValue(s[..|s| - 1]) * 10 + (s[|s| - 1] as int - 48)
  }

  function ParseNat(s: string): (r: Option<nat>)
    ensures r.Some? <==> Canonical(s)
  {
    if Canonical(s) then Some(DigitsValue(s)) else None
  }

  lemma {:induction false} NatRoundTrip(n: nat)
    ensures ParseNat(NatToString(n)) == Some(n)
    decreases n
  {
    var s := NatToString(n);
    if n >= 10 {
      NatRoundTrip(n / 10);
      assert s[..|s| - 1] == NatToString(n / 10);
      assert s[|s| - 1] as int - 48 == n % 10;
    } else {
      assert s == [DigitChar(n)];
      assert s[..|s| - 1] == [];
      assert DigitsValue(s) == DigitsValue([]) * 10 + n;
    }
  }

  lemma {:induction false} ValueLowerBound(s: string)
    requires Canonical(s) && |s| >= 2
    ensures DigitsValue(s) >= 10
    decreases |s|
  {
    var init := s[..|s| - 1];
    if |init| >= 2 {
      ValueLowerBound(init);
    } else {
      assert init[0] == s[0];
    }
  }

  /** Parsing then printing gives back the text: canonical decimal strings and naturals are
      in one-to-one correspondence. */
  lemma {:induction false} ParsePrintRoundTrip(s: string)
    requires ParseNat(s).Some?
    ensures NatToString(ParseNat(s).value) == s
    decreases |s|
  {
    var n := DigitsValue(s);
    var d := s[|s| - 1] as int - 48;
    var init := s[..|s| - 1];
    assert 0 <= d < 10;
    assert n == DigitsValue(init) * 10 + d;
    if |s| >= 2 {
      ValueLowerBound(s);
      assert init[0] == s[0];
      ParsePrintRoundTrip(init);
      assert n / 10 == DigitsValue(init) && n % 10 == d;
      assert DigitChar(d) == s[|s| - 1];
      assert s == init + [s[|s| - 1]];
    } else {
      assert init == [];
      assert DigitChar(d) == s[0];
    }
  }

  lemma NatToStringInjective(a: nat, b: nat)
    requires NatToString(a) == NatToString(b)
    ensures a == b
  {
    NatRoundTrip(a);
    NatRoundTrip(b);
  }

  function IntToString(i: int): (s: string)
    ensures |s| >= 1
    ensures i < 0 <==> s[0] == '-'
  {
    if i < 0 then "-" + NatToString(-i) else NatToString(i)
  }

  /** A minus sign followed by a canonical positive number, or a canonical number. */
  function ParseInt(s: string): (r: Option<int>)
    ensures r.Some? && r.value < 0 ==> |s| >= 1 && s[0] == '-'
  {
    if |s| >= 1 && s[0] == '-' then
      var p := ParseNat(s[1..]);
      if p.Some? && p.value > 0 then Some(0 - p.value) else None
    else
      var p := ParseNat(s);
      if p.Some? then Some(p.value as int) else None
  }

  lemma IntRoundTrip(i: int)
    ensures ParseInt(IntToString(i)) == Some(i)
  {
    if i < 0 {
      NatRoundTrip(-i);
      assert IntToString(i)[1..] == NatToString(-i);
    } else {
      NatRoundTrip(i);
    }
  }

  lemma IntToStringInjective(a: int, b: int)
    requires IntToString(a) == IntToString(b)
    ensures a == b
  {
    IntRoundTrip(a);
    IntRoundTrip(b);
  }
}

=== FILE: dyn_border.dfy ===
/** A threshold with a dead band (a Schmitt trigger). Every comparison of a value with the
    border answers and also moves the border: after a value is found above, the effective
    threshold drops by the deliberation radius; after it is found below, it rises. */
module DynBorder {

  /** `sign` is -1 after an "above" answer, 1 after a "below" answer and 0 before any. */
  datatype Border = Border(position: real, dr: real, sign: int)

  ghost predicate ValidSign(b: Border) {
    b.sign == -1 || b.sign == 0 || b.sign == 1
  }

  function NewBorder(position: real, dr: real): (b: Border)
    ensures b.position == position && b.dr == dr && b.sign == 0
    ensures ValidSign(b)
  {
    Border(position, dr, 0)
  }

  /** The value a reading is compared with under the current state. */
  function Threshold(b: Border): real {
    b.position + b.dr * b.sign as real
  }

  /** The answer to a query and the border after it. */
  datatype Answer = Answer(result: bool, border: Border)

  function IsAboveBorder(b: Border, x: real): (a: Answer)
    ensures a.border.position == b.position && a.border.dr == b.dr
    ensures a.result <==> x > Threshold(b)
    ensures a.border.sign == (if a.result then -1 else 1)
  {
    if x > Threshold(b) then Answer(true, b.(sign := -1)) else Answer(false, b.(sign := 1))
  }

  function IsBelowBorder(b: Border, x: real): (a: Answer)
    ensures a.border.position == b.position && a.border.dr == b.dr
    ensures a.result <==> x < Threshold(b)
    ensures a.border.sign == (if a.result then 1 else -1)
  {
    if x < Threshold(b) then Answer(true, b.(sign := 1)) else Answer(false, b.(sign := -1))
  }

  /** Comparison operators between a border and a value. */
  datatype Op = Less | LessEq | Greater | GreaterEq

  /** `border op x`: "<" and "<=" ask whether `x` is above, ">" and ">=" whether below. */
  function BorderOpValue(b: Border, op: Op, x: real): (a: Answer)
    ensures op.Less? || op.LessEq? ==> a == IsAboveBorder(b, x)
    ensures op.Greater? || op.GreaterEq? ==> a == IsBelowBorder(b, x)
  {
    match op
    case Less => IsAboveBorder(b, x)
    case LessEq => IsAboveBorder(b, x)
    case Greater => IsBelowBorder(b, x)
    case GreaterEq => IsBelowBorder(b, x)
  }

  /** `x op border`: "<" and "<=" ask whether `x` is below, ">" and ">=" whether above. */
  function ValueOpBorder(x: real, op: Op, b: Border): (a: Answer)
    ensures op.Less? || op.LessEq? ==> a == IsBelowBorder(b, x)
    ensures op.Greater? || op.GreaterEq? ==> a == IsAboveBorder(b, x)
  {
    match op
    case Less => IsBelowBorder(b, x)
    case LessEq => IsBelowBorder(b, x)
    case Greater => IsAboveBorder(b, x)
    case GreaterEq => IsAboveBorder(b, x)
  }

  function Flip(op: Op): Op {
    match op
    case Less => Greater
    case LessEq => GreaterEq
    case Greater => Less
    case GreaterEq => LessEq
  }

  /** Writing the comparison the other way round gives the same answer and the same state. */
  lemma OperandSwap(b: Border, op: Op, x: real)
    ensures ValueOpBorder(x, op, b) == BorderOpValue(b, Flip(op), x)
  {
  }

  /** A border has no equality case: the strict and the non-strict operator are one query. */
  lemma StrictEqualsNonStrict(b: Border, x: real)
    ensures BorderOpValue(b, Less, x) == BorderOpValue(b, LessEq, x)
    ensures BorderOpValue(b, Greater, x) == BorderOpValue(b, GreaterEq, x)
    ensures ValueOpBorder(x, Less, b) == ValueOpBorder(x, LessEq, b)
    ensures ValueOpBorder(x, Greater, b) == ValueOpBorder(x, GreaterEq, b)
  {
  }

  /** Border against border compares positions only; neither border changes. */
  function CompareBorders(a: Border, op: Op, b: Border): (r: bool)
    ensures op.Less? ==> (r <==> a.position < b.position)
    ensures op.LessEq? ==> (r <==> a.position <= b.position)
    ensures op.Greater? ==> (r <==> b.position < a.position)
    ensures op.GreaterEq? ==> (r <==> !(a.position < b.position))
  {
    match op
    case Less => a.position < b.position
    case LessEq => a.position <= b.position
    case Greater => a.position > b.position
    case GreaterEq => a.position >= b.position
  }

  lemma CompareBordersIgnoresState(a: Border, a': Border, op: Op, b: Border, b': Border)
    requires a.position == a'.position && b.position == b'.position
    ensures CompareBorders(a, op, b) == CompareBorders(a', op, b')
  {
  }

  /** The two questions never both answer yes, and away from the threshold exactly one does;
      the state each leaves behind then agrees. */
  lemma AboveBelowExclusive(b: Border, x: real)
    ensures !(IsAboveBorder(b, x).result && IsBelowBorder(b, x).result)
    ensures x != Threshold(b) ==> IsAboveBorder(b, x).result != IsBelowBorder(b, x).result
    ensures x != Threshold(b) ==> IsAboveBorder(b, x).border == IsBelowBorder(b, x).border
  {
  }

  /** Once above, a reading stays above until it falls to `position - dr`. */
  lemma AboveIsSticky(b: Border, x: real)
    requires b.sign == -1 && b.dr >= 0.0
    ensures IsAboveBorder(b, x).result <==> x > b.position - b.dr
  {
  }

  /** Once below, a reading rises above only beyond `position + dr`. */
  lemma BelowIsSticky(b: Border, x: real)
    requires b.sign == 1 && b.dr >= 0.0
    ensures IsAboveBorder(b, x).result <==> x > b.position + b.dr
  {
  }

  /** A series of "is above" queries, each seeing the border the previous one left. */
  function AboveSeries(b: Border, xs: seq<real>): (r: (seq<bool>, Border))
    ensures |r.0| == |xs|
    ensures r.1.position == b.position && r.1.dr == b.dr
    ensures |xs| == 0 ==> r.1 == b
    ensures |xs| > 0 ==> r.1.sign == (if r.0[|xs| - 1] then -1 else 1)
    decreases |xs|
  {
    if |xs| == 0 then ([], b)
    else
      var prev := AboveSeries(b, xs[..|xs| - 1]);
      var a := IsAboveBorder(prev.1, xs[|xs| - 1]);
      (prev.0 + [a.result], a.border)
  }

  /** Noise inside the dead band never flips the answer: if every reading after the first
      lies in `(position - dr, position + dr]`, all answers equal the first one. */
  lemma {:induction false} DeadBandHoldsAnswer(b: Border, xs: seq<real>)
    requires b.dr >= 0.0 && |xs| > 0
    requires forall i :: 0 < i < |xs| ==> b.position - b.dr < xs[i] <= b.position + b.dr
    ensures forall i :: 0 <= i < |xs| ==> AboveSeries(b, xs).0[i] == AboveSeries(b, xs).0[0]
    decreases |xs|
  {
    if |xs| > 1 {
      var init := xs[..|xs| - 1];
      DeadBandHoldsAnswer(b, init);
      var prev := AboveSeries(b, init);
      assert prev.0[0] == AboveSeries(b, xs).0[0];
      var last := xs[|xs| - 1];
      if prev.0[|init| - 1] {
        AboveIsSticky(prev.1, last);
      } else {
        BelowIsSticky(prev.1, last);
      }
    }
  }

  /** Once a reading was below, the next one is below exactly when it is under `position + dr`;
      once one was not, the next one is below only under `position - dr`. */
  lemma BelowAnswerSticky(b: Border, x: real)
    requires b.dr >= 0.0
    ensures b.sign == 1 ==> (IsBelowBorder(b, x).result <==> x < b.position + b.dr)
    ensures b.sign == -1 ==> (IsBelowBorder(b, x).result <==> x < b.position - b.dr)
  {
  }

  /** A series of "is below" queries, each seeing the border the previous one left. This is
      the query `x < border` makes. */
  function BelowSeries(b: Border, xs: seq<real>): (r: (seq<bool>, Border))
    ensures |r.0| == |xs|
    ensures r.1.position == b.position && r.1.dr == b.dr
    ensures |xs| == 0 ==> r.1 == b
    ensures |xs| > 0 ==> r.1.sign == (if r.0[|xs| - 1] then 1 else -1)
    decreases |xs|
  {
    if |xs| == 0 then ([], b)
    else
      var prev := BelowSeries(b, xs[..|xs| - 1]);
      var a := IsBelowBorder(prev.1, xs[|xs| - 1]);
      (prev.0 + [a.result], a.border)
  }

  /** The same for "is below": readings after the first that stay in
      `[position - dr, position + dr)` repeat the first answer. */
  lemma {:induction false} DeadBandHoldsBelow(b: Border, xs: seq<real>)
    requires b.dr >= 0.0 && |xs| > 0
    requires forall i :: 0 < i < |xs| ==> b.position - b.dr <= xs[i] < b.position + b.dr
    ensures forall i :: 0 <= i < |xs| ==> BelowSeries(b, xs).0[i] == BelowSeries(b, xs).0[0]
    decreases |xs|
  {
    if |xs| > 1 {
      var init := xs[..|xs| - 1];
      DeadBandHoldsBelow(b, init);
      var prev := BelowSeries(b, init);
      assert prev.0[0] == BelowSeries(b, xs).0[0];
      BelowAnswerSticky(prev.1, xs[|xs| - 1]);
    }
  }

  /** The border that decides whether the team ball counts as in the own half. */
  function BallInOwnHalfThreshold(): (b: Border)
    ensures b.position == -1500.0 && b.dr == 300.0 && b.sign == 0
  {
    NewBorder(-1500.0, 300.0)
  }

  /** The border that decides whether the ball is close enough to the robot. */
  function DistanceToTargetThreshold(): (b: Border)
    ensures b.position == 750.0 && b.dr == 100.0 && b.sign == 0
  {
    NewBorder(750.0, 100.0)
  }
}

=== FILE: formation_examples.dfy ===
/** The worked example of a formation file: four lines, one of them with a label, one
    without, one with an explicit pointer. Each line's scan is traced character by
    character. */
module FormationExamples {
  import opened VoronoiCell
  import opened FormationFile

  lemma RunSnoc(s: string, c: char, wraps: bool)
    ensures Run(s + [c], wraps) == Step(Run(s, wraps), c, wraps)
  {
    assert (s + [c])[..|s|] == s;
  }

  lemma StopAt(a: string, b: string)
    requires NoStop(a)
    requires |b| > 0 && IsStop(b[0])
    ensures Body(a + b) == a
  {
    StopIndexAfterPlain(a, b);
    assert (a + b)[..|a|] == a;
  }

  lemma Whole(a: string)
    requires NoStop(a)
    ensures Body(a) == a && Label(a) == ""
  {
    assert a[..StopIndex(a)] == a;
  }

  /** `a,b` has one comma and is rejected. */
  lemma TwoFieldsRejected()
    ensures !ProcessLine("a,b").ok
  {
    Whole("a,b");
    AcceptedIffTwoCommas("a,b");
    assert "a,b"[..2] == "a,";
    assert "a,"[..1] == "a";
  }

  lemma RunLine0()
    ensures Run("0,0,0", false) == Scan([0, 0, 0, 0, 0, 0], 2, 0, false)
  {
    assert Run("0", false) == Scan([0, 0, 0, 0, 0, 0], 0, 0, false) by {
      RunSnoc("", '0', false);
      assert "" + ['0'] == "0";
    }
    assert Run("0,", false) == Scan([0, 0, 0, 0, 0, 0], 1, 0, false) by {
      RunSnoc("0", ',', false);
      assert "0" + [','] == "0,";
    }
    assert Run("0,0", false) == Scan([0, 0, 0, 0, 0, 0], 1, 0, false) by {
      RunSnoc("0,", '0', false);
      assert "0," + ['0'] == "0,0";
    }
    assert Run("0,0,", false) == Scan([0, 0, 0, 0, 0, 0], 2, 0, false) by {
      RunSnoc("0,0", ',', false);
      assert "0,0" + [','] == "0,0,";
    }
    RunSnoc("0,0,", '0', false);
    assert "0,0," + ['0'] == "0,0,0";
  }

  lemma ExampleLine0(line: string)
    requires line == "0,0,0:GK"
    ensures ProcessLine(line) == Line(0, 0, 0, 0, 0, 0, "GK", true)
  {
    var body := "0,0,0";
    assert line == body + ":GK";
    StopAt(body, ":GK");
    StopIndexAfterPlain(body, ":GK");
    assert line[|body| + 1..] == "GK";
    RunLine0();
  }

  lemma RunLine1a()
    ensures Run("1,1000,0", false) == Scan([1, 1000, 0, 0, 0, 0], 2, 0, false)
  {
    assert Run("1", false) == Scan([0, 0, 0, 0, 0, 0], 0, 1, false) by {
      RunSnoc("", '1', false);
      assert "" + ['1'] == "1";
    }
    assert Run("1,", false) == Scan([1, 0, 0, 0, 0, 0], 1, 0, false) by {
      RunSnoc("1", ',', false);
      assert "1" + [','] == "1,";
    }
    assert Run("1,1", false) == Scan([1, 0, 0, 0, 0, 0], 1, 1, false) by {
      RunSnoc("1,", '1', false);
      assert "1," + ['1'] == "1,1";
    }
    assert Run("1,10", false) == Scan([1, 0, 0, 0, 0, 0], 1, 10, false) by {
      RunSnoc("1,1", '0', false);
      assert "1,1" + ['0'] == "1,10";
    }
    assert Run("1,100", false) == Scan([1, 0, 0, 0, 0, 0], 1, 100, false) by {
      RunSnoc("1,10", '0', false);
      assert "1,10" + ['0'] == "1,100";
    }
    assert Run("1,1000", false) == Scan([1, 0, 0, 0, 0, 0], 1, 1000, false) by {
      RunSnoc("1,100", '0', false);
      assert "1,100" + ['0'] == "1,1000";
    }
    assert Run("1,1000,", false) == Scan([1, 1000, 0, 0, 0, 0], 2, 0, false) by {
      RunSnoc("1,1000", ',', false);
      assert "1,1000" + [','] == "1,1000,";
    }
    RunSnoc("1,1000,", '0', false);
    assert "1,1000," + ['0'] == "1,1000,0";
  }

  lemma RunLine1()
    ensures Run("1,1000,0,1", false) == Scan([1, 1000, 0, 0, 0, 0], 3, 1, false)
  {
    RunLine1a();
    assert Run("1,1000,0,", false) == Scan([1, 1000, 0, 0, 0, 0], 3, 0, false) by {
      RunSnoc("1,1000,0", ',', false);
      assert "1,1000,0" + [','] == "1,1000,0,";
    }
    RunSnoc("1,1000,0,", '1', false);
    assert "1,1000,0," + ['1'] == "1,1000,0,1";
  }

  lemma ExampleLine1(line: string)
    requires line == "1,1000,0,1"
    ensures ProcessLine(line) == Line(1, 1000, 0, 1, 1000, 0, "", true)
  {
    Whole(line);
    RunLine1();
    FinishLine1(line);
  }

  lemma FinishLine1(line: string)
    requires Body(line) == line && Label(line) == ""
    requires Run(line, false) == Scan([1, 1000, 0, 0, 0, 0], 3, 1, false)
    ensures ProcessLine(line) == Line(1, 1000, 0, 1, 1000, 0, "", true)
  {
  }

  lemma RunLine2a()
    ensures Run("2,-1000,", false) == Scan([2, -1000, 0, 0, 0, 0], 2, 0, false)
  {
    assert Run("2", false) == Scan([0, 0, 0, 0, 0, 0], 0, 2, false) by {
      RunSnoc("", '2', false);
      assert "" + ['2'] == "2";
    }
    assert Run("2,", false) == Scan([2, 0, 0, 0, 0, 0], 1, 0, false) by {
      RunSnoc("2", ',', false);
      assert "2" + [','] == "2,";
    }
    assert Run("2,-", false) == Scan([2, 0, 0, 0, 0, 0], 1, 0, true) by {
      RunSnoc("2,", '-', false);
      assert "2," + ['-'] == "2,-";
    }
    assert Run("2,-1", false) == Scan([2, 0, 0, 0, 0, 0], 1, 1, true) by {
      RunSnoc("2,-", '1', false);
      assert "2,-" + ['1'] == "2,-1";
    }
    assert Run("2,-10", false) == Scan([2, 0, 0, 0, 0, 0], 1, 10, true) by {
      RunSnoc("2,-1", '0', false);
      assert "2,-1" + ['0'] == "2,-10";
    }
    assert Run("2,-100", false) == Scan([2, 0, 0, 0, 0, 0], 1, 100, true) by {
      RunSnoc("2,-10", '0', false);
      assert "2,-10" + ['0'] == "2,-100";
    }
    assert Run("2,-1000", false) == Scan([2, 0, 0, 0, 0, 0], 1, 1000, true) by {
      RunSnoc("2,-100", '0', false);
      assert "2,-100" + ['0'] == "2,-1000";
    }
    RunSnoc("2,-1000", ',', false);
    assert "2,-1000" + [','] == "2,-1000,";
  }

  lemma RunLine2()
    ensures Run("2,-1000,500", false) == Scan([2, -1000, 0, 0, 0, 0], 2, 500, false)
  {
    RunLine2a();
    assert Run("2,-1000,5", false) == Scan([2, -1000, 0, 0, 0, 0], 2, 5, false) by {
      RunSnoc("2,-1000,", '5', false);
      assert "2,-1000," + ['5'] == "2,-1000,5";
    }
    assert Run("2,-1000,50", false) == Scan([2, -1000, 0, 0, 0, 0], 2, 50, false) by {
      RunSnoc("2,-1000,5", '0', false);
      assert "2,-1000,5" + ['0'] == "2,-1000,50";
    }
    RunSnoc("2,-1000,50", '0', false);
    assert "2,-1000,50" + ['0'] == "2,-1000,500";
  }

  lemma ExampleLine2(line: string)
    requires line == "2,-1000,500"
    ensures ProcessLine(line) == Line(2, -1000, 500, 0, -1000, 500, "", true)
  {
    Whole(line);
    RunLine2();
    FinishLine2(line);
  }

  lemma FinishLine2(line: string)
    requires Body(line) == line && Label(line) == ""
    requires Run(line, false) == Scan([2, -1000, 0, 0, 0, 0], 2, 500, false)
    ensures ProcessLine(line) == Line(2, -1000, 500, 0, -1000, 500, "", true)
  {
  }

  lemma RunLine3a()
    ensures Run("3,500,-5", false) == Scan([3, 500, 0, 0, 0, 0], 2, 5, true)
  {
    assert Run("3", false) == Scan([0, 0, 0, 0, 0, 0], 0, 3, false) by {
      RunSnoc("", '3', false);
      assert "" + ['3'] == "3";
    }
    assert Run("3,", false) == Scan([3, 0, 0, 0, 0, 0], 1, 0, false) by {
      RunSnoc("3", ',', false);
      assert "3" + [','] == "3,";
    }
    assert Run("3,5", false) == Scan([3, 0, 0, 0, 0, 0], 1, 5, false) by {
      RunSnoc("3,", '5', false);
      assert "3," + ['5'] == "3,5";
    }
    assert Run("3,50", false) == Scan([3, 0, 0, 0, 0, 0], 1, 50, false) by {
      RunSnoc("3,5", '0', false);
      assert "3,5" + ['0'] == "3,50";
    }
    assert Run("3,500", false) == Scan([3, 0, 0, 0, 0, 0], 1, 500, false) by {
      RunSnoc("3,50", '0', false);
      assert "3,50" + ['0'] == "3,500";
    }
    assert Run("3,500,", false) == Scan([3, 500, 0, 0, 0, 0], 2, 0, false) by {
      RunSnoc("3,500", ',', false);
      assert "3,500" + [','] == "3,500,";
    }
    assert Run("3,500,-", false) == Scan([3, 500, 0, 0, 0, 0], 2, 0, true) by {
      RunSnoc("3,500,", '-', false);
      assert "3,500," + ['-'] == "3,500,-";
    }
    RunSnoc("3,500,-", '5', false);
    assert "3,500,-" + ['5'] == "3,500,-5";
  }

  lemma RunLine3b()
    ensures Run("3,500,-500,0,", false) == Scan([3, 500, -500, 0, 0, 0], 4, 0, false)
  {
    RunLine3a();
    assert Run("3,500,-50", false) == Scan([3, 500, 0, 0, 0, 0], 2, 50, true) by {
      RunSnoc("3,500,-5", '0', false);
      assert "3,500,-5" + ['0'] == "3,500,-50";
    }
    assert Run("3,500,-500", false) == Scan([3, 500, 0, 0, 0, 0], 2, 500, true) by {
      RunSnoc("3,500,-50", '0', false);
      assert "3,500,-50" + ['0'] == "3,500,-500";
    }
    assert Run("3,500,-500,", false) == Scan([3, 500, -500, 0, 0, 0], 3, 0, false) by {
      RunSnoc("3,500,-500", ',', false);
      assert "3,500,-500" + [','] == "3,500,-500,";
    }
    assert Run("3,500,-500,0", false) == Scan([3, 500, -500, 0, 0, 0], 3, 0, false) by {
      RunSnoc("3,500,-500,", '0', false);
      assert "3,500,-500," + ['0'] == "3,500,-500,0";
    }
    RunSnoc("3,500,-500,0", ',', false);
    assert "3,500,-500,0" + [','] == "3,500,-500,0,";
  }

  lemma RunLine3c()
    ensures Run("3,500,-500,0,600", false) == Scan([3, 500, -500, 0, 0, 0], 4, 600, false)
  {
    RunLine3b();
    assert Run("3,500,-500,0,6", false) == Scan([3, 500, -500, 0, 0, 0], 4, 6, false) by {
      RunSnoc("3,500,-500,0,", '6', false);
      assert "3,500,-500,0," + ['6'] == "3,500,-500,0,6";
    }
    assert Run("3,500,-500,0,60", false) == Scan([3, 500, -500, 0, 0, 0], 4, 60, false) by {
      RunSnoc("3,500,-500,0,6", '0', false);
      assert "3,500,-500,0,6" + ['0'] == "3,500,-500,0,60";
    }
    RunSnoc("3,500,-500,0,60", '0', false);
    assert "3,500,-500,0,60" + ['0'] == "3,500,-500,0,600";
  }

  lemma RunLine3()
    ensures Run("3,500,-500,0,600,-400", false) == Scan([3, 500, -500, 0, 600, 0], 5, 400, true)
  {
    RunLine3c();
    assert Run("3,500,-500,0,600,", false) == Scan([3, 500, -500, 0, 600, 0], 5, 0, false) by {
      RunSnoc("3,500,-500,0,600", ',', false);
      assert "3,500,-500,0,600" + [','] == "3,500,-500,0,600,";
    }
    assert Run("3,500,-500,0,600,-", false) == Scan([3, 500, -500, 0, 600, 0], 5, 0, true) by {
      RunSnoc("3,500,-500,0,600,", '-', false);
      assert "3,500,-500,0,600," + ['-'] == "3,500,-500,0,600,-";
    }
    assert Run("3,500,-500,0,600,-4", false) == Scan([3, 500, -500, 0, 600, 0], 5, 4, true) by {
      RunSnoc("3,500,-500,0,600,-", '4', false);
      assert "3,500,-500,0,600,-" + ['4'] == "3,500,-500,0,600,-4";
    }
    assert Run("3,500,-500,0,600,-40", false) == Scan([3, 500, -500, 0, 600, 0], 5, 40, true) by {
      RunSnoc("3,500,-500,0,600,-4", '0', false);
      assert "3,500,-500,0,600,-4" + ['0'] == "3,500,-500,0,600,-40";
    }
    RunSnoc("3,500,-500,0,600,-40", '0', false);
    assert "3,500,-500,0,600,-40" + ['0'] == "3,500,-500,0,600,-400";
  }

  lemma ExampleLine3(line: string)
    requires line == "3,500,-500,0,600,-400:DF"
    ensures ProcessLine(line) == Line(3, 500, -500, 0, 600, -400, "DF", true)
  {
    var body := "3,500,-500,0,600,-400";
    assert line == body + ":DF";
    StopAt(body, ":DF");
    StopIndexAfterPlain(body, ":DF");
    assert line[|body| + 1..] == "DF";
    RunLine3();
    FinishLine3(line, body);
  }

  lemma FinishLine3(line: string, body: string)
    requires Body(line) == body && Label(line) == "DF"
    requires Run(body, false) == Scan([3, 500, -500, 0, 600, 0], 5, 400, true)
    ensures ProcessLine(line) == Line(3, 500, -500, 0, 600, -400, "DF", true)
  {
  }

  /** Four accepted lines load as four cells, in order. */
  lemma LoadFour(l0: string, l1: string, l2: string, l3: string)
    requires ProcessLine(l0).ok && ProcessLine(l1).ok && ProcessLine(l2).ok && ProcessLine(l3).ok
    ensures |Load([l0, l1, l2, l3])| == 4
    ensures Load([l0, l1, l2, l3])[0] == ToCell(ProcessLine(l0))
    ensures Load([l0, l1, l2, l3])[1] == ToCell(ProcessLine(l1))
    ensures Load([l0, l1, l2, l3])[2] == ToCell(ProcessLine(l2))
    ensures Load([l0, l1, l2, l3])[3] == ToCell(ProcessLine(l3))
  {
    var ls := ProcessAll([l0, l1, l2, l3]);
    AllAccepted(ls);
  }

  /** Loading the four lines yields four cells; the third has an empty label and the
      fourth walks to a pointer different from its occupation point. */
  lemma ExampleFormation(l0: string, l1: string, l2: string, l3: string)
    requires l0 == "0,0,0:GK" && l1 == "1,1000,0,1"
    requires l2 == "2,-1000,500" && l3 == "3,500,-500,0,600,-400:DF"
    ensures var cells := Load([l0, l1, l2, l3]);
      && |cells| == 4
      && cells[0].name == "GK"
      && cells[1].numOfSup == 1
      && cells[2].name == "" && cells[2].point == At(-1000, 500)
      && cells[3].name == "DF" && cells[3].pointer == At(600, -400) && cells[3].pointer != cells[3].point
  {
    ExampleLine0(l0);
    ExampleLine1(l1);
    ExampleLine2(l2);
    ExampleLine3(l3);
    LoadFour(l0, l1, l2, l3);
  }
}

=== FILE: formation_file.dfy ===
/** The formation-file reader: one text line `id,x,y[,num[,cx,cy]][:label]` becomes one
    cell. `#` or `;` starts a comment, spaces are skipped, and the text after the first `:`
    is the label. The scanner below follows the reader's character loop; `Reference` states
    the same result through a split of the line at its commas. */
module FormationFile {
  import opened VoronoiCell

  predicate IsStop(c: char) {
    c == '#' || c == ';' || c == ':'
  }

  predicate NoStop(s: string) {
    forall i :: 0 <= i < |s| ==> !IsStop(s[i])
  }

  /** Index of the first comment or label marker, or the length of the line. */
  function StopIndex(line: string): (k: nat)
    ensures k <= |line|
    ensures NoStop(line[..k])
    ensures k < |line| ==> IsStop(line[k])
  {
    if |line| == 0 then 0
    else if IsStop(line[0]) then 0
    else
      var k := 1 + StopIndex(line[1..]);
      assert line[..k] == [line[0]] + line[1..][..k - 1];
      k
  }

  /** The part of a line the numeric scanner sees. */
  function Body(line: string): string {
    line[..StopIndex(line)]
  }

  /** Text after the first `:` when the scan stopped there, empty otherwise. */
  function Label(line: string): string {
    var k := StopIndex(line);
    if k < |line| && line[k] == ':' then line[k + 1..] else ""
  }

  /** The scanner's locals: the six slots id, x, y, num, cx, cy, the field counter, the
      magnitude accumulated for the current field and whether a `-` was seen in it. */
  datatype Scan = Scan(fields: seq<int>, counter: int, value: int, neg: bool)

  const Start: Scan := Scan([0, 0, 0, 0, 0, 0], 0, 0, false)

  function Signed(st: Scan): int {
    if st.neg then -st.value else st.value
  }

  /** `pushAValue`: slots 0 to 5 exist, any other index is ignored. */
  function PushValue(fields: seq<int>, i: int, v: int): (r: seq<int>)
    ensures |r| == |fields|
    ensures 0 <= i < |fields| ==> r[i] == v
    ensures forall k :: 0 <= k < |fields| && k != i ==> r[k] == fields[k]
  {
    if 0 <= i < |fields| then fields[i := v] else fields
  }

  /** The field counter is a C `char`. When `wraps` holds it behaves as a signed 8-bit
      value, so 127 + 1 becomes -128; otherwise it is unbounded. */
  function Increment(counter: int, wraps: bool): int {
    if wraps && counter == 127 then -128 else counter + 1
  }

  /** One iteration of the scanning loop on a character before the stop marker. */
  function Step(st: Scan, c: char, wraps: bool): Scan {
    if c == ' ' then st
    else if c == ',' then
      Scan(if st.counter < 6 then PushValue(st.fields, st.counter, Signed(st)) else st.fields,
           Increment(st.counter, wraps), 0, false)
    else if c == '-' then st.(neg := true)
    else st.(value := st.value * 10 + (c as int - 48))
  }

  /** What one character does to the scanner: a space is skipped, a comma stores the open
      field (while the counter is below six) and opens a fresh one, and any other character
      changes only the open field. */
  lemma StepEffect(st: Scan, c: char, wraps: bool)
    ensures c == ' ' ==> Step(st, c, wraps) == st
    ensures |Step(st, c, wraps).fields| == |st.fields|
    ensures c == ',' ==>
      && Step(st, c, wraps).counter == Increment(st.counter, wraps)
      && Step(st, c, wraps).value == 0 && !Step(st, c, wraps).neg
      && (0 <= st.counter < 6 && st.counter < |st.fields| ==> Step(st, c, wraps).fields[st.counter] == Signed(st))
      && (forall k :: 0 <= k < |st.fields| && k != st.counter ==> Step(st, c, wraps).fields[k] == st.fields[k])
    ensures c != ',' ==> Step(st, c, wraps).counter == st.counter && Step(st, c, wraps).fields == st.fields
    ensures c == '-' ==> Step(st, c, wraps).neg && Step(st, c, wraps).value == st.value
    ensures c != ' ' && c != ',' && c != '-' ==>
      Step(st, c, wraps).neg == st.neg && Step(st, c, wraps).value == st.value * 10 + (c as int - 48)
  {
  }

  function Run(body: string, wraps: bool): (st: Scan)
    ensures |st.fields| == 6
    ensures wraps ==> -128 <= st.counter <= 127
    ensures !wraps ==> st.counter >= 0
  {
    if |body| == 0 then Start
    else Step(Run(body[..|body| - 1], wraps), body[|body| - 1], wraps)
  }

  /** The reader's verdict on one line: the six integers, the label (`tag`) and whether the line
      yields a cell. */
  datatype Line = Line(id: int, x: int, y: int, num: int, cx: int, cy: int, tag: string, ok: bool)

  function ProcessLineWith(line: string, wraps: bool): Line {
    var st := Run(Body(line), wraps);
    var f := if st.value != 0 then PushValue(st.fields, st.counter, Signed(st)) else st.fields;
    Line(f[0], f[1], f[2], f[3],
         if st.counter < 4 then f[1] else f[4],
         if st.counter < 4 then f[2] else f[5],
         Label(line), st.counter >= 2)
  }

  /** `processLine` exactly as written, with the 8-bit wrapping field counter: it accepts a
      line when its comma count, taken as a signed 8-bit value, is at least two. */
  function ProcessLineAsWritten(line: string): (r: Line)
    ensures r.ok <==> CharOf(Commas(Body(line))) >= 2
  {
    RunCounterWraps(Body(line));
    ProcessLineWith(line, true)
  }

  /** `processLine` with an unbounded field counter: the behaviour the reader evidently
      intends, and the one the loader below uses. */
  function ProcessLine(line: string): Line {
    ProcessLineWith(line, false)
  }

  // ---------------------------------------------------------------------------------
  // Reference definition: split the body at its commas.

  function Last<T>(s: seq<T>): T
    requires |s| > 0
  {
    s[|s| - 1]
  }

  function Commas(s: string): nat {
    if |s| == 0 then 0 else Commas(s[..|s| - 1]) + (if Last(s) == ',' then 1 else 0)
  }

  /** The comma-separated pieces of `s`, always one more than the commas. */
  function Segments(s: string): (segs: seq<string>)
    ensures |segs| == Commas(s) + 1
  {
    if |s| == 0 then [[]]
    else
      var prev := Segments(s[..|s| - 1]);
      if Last(s) == ',' then prev + [[]]
      else prev[..|prev| - 1] + [Last(prev) + [Last(s)]]
  }

  /** Decimal magnitude of a field: spaces and `-` are skipped, every other character
      contributes its code minus the code of '0'. */
  function Magnitude(seg: string): int {
    if |seg| == 0 then 0
    else if Last(seg) == ' ' || Last(seg) == '-' then Magnitude(seg[..|seg| - 1])
    else Magnitude(seg[..|seg| - 1]) * 10 + (Last(seg) as int - 48)
  }

  /** A `-` anywhere in the field negates it. */
  function FieldValue(seg: string): int {
    if '-' in seg then -Magnitude(seg) else Magnitude(seg)
  }

  /** Field `k` of a body, 0 when the body has fewer fields. */
  function Field(body: string, k: nat): int {
    var segs := Segments(body);
    if k < |segs| then FieldValue(segs[k]) else 0
  }

  function Reference(line: string): Line {
    var body := Body(line);
    var n := Commas(body);
    Line(Field(body, 0), Field(body, 1), Field(body, 2), Field(body, 3),
         if n < 4 then Field(body, 1) else Field(body, 4),
         if n < 4 then Field(body, 2) else Field(body, 5),
         Label(line), n >= 2)
  }

  /** The scanner's locals describe the comma-split pieces of what it has read. */
  ghost predicate Describes(st: Scan, body: string) {
    && st.counter == Commas(body)
    && st.value == Magnitude(Last(Segments(body)))
    && st.neg == ('-' in Last(Segments(body)))
    && |st.fields| == 6
    && forall k :: 0 <= k < 6 ==> st.fields[k] == (if k < Commas(body) then FieldValue(Segments(body)[k]) else 0)
  }

  /** After scanning a body, the scanner's locals describe its comma-split pieces. */
  lemma {:induction false} RunMatchesSegments(body: string)
    ensures Run(body, false).counter == Commas(body)
    ensures Run(body, false).value == Magnitude(Last(Segments(body)))
    ensures Run(body, false).neg == ('-' in Last(Segments(body)))
    ensures forall k :: 0 <= k < 6 ==>
      Run(body, false).fields[k] == (if k < Commas(body) then FieldValue(Segments(body)[k]) else 0)
  {
    RunDescribes(body);
  }

  lemma {:induction false} RunDescribes(body: string)
    ensures Describes(Run(body, false), body)
  {
    if |body| > 0 {
      var init := body[..|body| - 1];
      RunDescribes(init);
      assert body == init + [Last(body)];
      if Last(body) == ',' {
        CommaDescribed(Run(init, false), init);
      } else {
        OtherDescribed(Run(init, false), init, Last(body));
      }
    }
  }

  lemma CommaDescribed(st: Scan, init: string)
    requires Describes(st, init)
    ensures Describes(Step(st, ',', false), init + [','])
  {
    var body := init + [','];
    var prev := Segments(init);
    assert body[..|body| - 1] == init;
    assert Segments(body) == prev + [[]];
    var st' := Step(st, ',', false);
    forall k | 0 <= k < 6
      ensures st'.fields[k] == (if k < Commas(body) then FieldValue(Segments(body)[k]) else 0)
    {
      if k < Commas(init) {
        assert Segments(body)[k] == prev[k];
      } else if k == Commas(init) {
        assert Segments(body)[k] == Last(prev);
      }
    }
  }

  lemma OtherDescribed(st: Scan, init: string, c: char)
    requires Describes(st, init) && c != ','
    ensures Describes(Step(st, c, false), init + [c])
  {
    var body := init + [c];
    OtherSegments(init, c);
    var lastSeg := Last(Segments(init)) + [c];
    LastSegmentStep(Last(Segments(init)), c);
    var st' := Step(st, c, false);
    if c == ' ' {
      assert st' == st;
    } else if c == '-' {
      assert st'.value == st.value && st'.neg;
    } else {
      assert st'.value == Magnitude(lastSeg);
    }
    assert st'.counter == Commas(body) && st'.fields == st.fields;
  }

  /** A character other than a comma extends the last piece and leaves the others alone. */
  lemma OtherSegments(init: string, c: char)
    requires c != ','
    ensures Commas(init + [c]) == Commas(init)
    ensures Last(Segments(init + [c])) == Last(Segments(init)) + [c]
    ensures forall k :: 0 <= k < Commas(init) ==> Segments(init + [c])[k] == Segments(init)[k]
  {
    var body := init + [c];
    var prev := Segments(init);
    assert body[..|body| - 1] == init;
    assert Segments(body) == prev[..|prev| - 1] + [Last(prev) + [c]];
  }

  /** What one more character does to a piece's magnitude and sign. */
  lemma LastSegmentStep(seg: string, c: char)
    requires c != ','
    ensures c == ' ' || c == '-' ==> Magnitude(seg + [c]) == Magnitude(seg)
    ensures c != ' ' && c != '-' ==> Magnitude(seg + [c]) == Magnitude(seg) * 10 + (c as int - 48)
    ensures ('-' in seg + [c]) <==> ('-' in seg || c == '-')
  {
    assert (seg + [c])[..|seg|] == seg;
  }

  /** The scanner computes the comma-split reference definition. */
  lemma ProcessLineMatchesReference(line: string)
    ensures ProcessLine(line) == Reference(line)
  {
    var body := Body(line);
    RunMatchesSegments(body);
    var st := Run(body, false);
    var f := if st.value != 0 then PushValue(st.fields, st.counter, Signed(st)) else st.fields;
    forall k | 0 <= k < 6
      ensures f[k] == Field(body, k)
    {
      if k == Commas(body) {
        assert Segments(body)[k] == Last(Segments(body));
      }
    }
  }

  /** Everything from the first `#` or `;` onward is ignored. */
  lemma CommentIgnored(a: string, b: string, wraps: bool)
    requires NoStop(a)
    requires |b| > 0 && (b[0] == '#' || b[0] == ';')
    ensures ProcessLineWith(a + b, wraps) == ProcessLineWith(a, wraps)
  {
    StopIndexAfterPlain(a, b);
    StopIndexAfterPlain(a, []);
    assert a + [] == a;
    assert (a + b)[..|a|] == a;
  }

  lemma {:induction false} StopIndexAfterPlain(a: string, b: string)
    requires NoStop(a)
    ensures StopIndex(a + b) == |a| + StopIndex(b)
  {
    if |a| > 0 {
      assert (a + b)[1..] == a[1..] + b;
      assert !IsStop(a[0]);
      StopIndexAfterPlain(a[1..], b);
    } else {
      assert a + b == b;
    }
  }

  lemma {:induction false} RunSkipsSpace(a: string, t: string, wraps: bool)
    ensures Run(a + [' '] + t, wraps) == Run(a + t, wraps)
  {
    if |t| == 0 {
      assert (a + [' '] + t)[..|a|] == a;
      assert a + [' '] + t == a + [' '];
      assert a + t == a;
    } else {
      var t' := t[..|t| - 1];
      RunSkipsSpace(a, t', wraps);
      assert (a + [' '] + t)[..|a + [' '] + t| - 1] == a + [' '] + t';
      assert (a + t)[..|a + t| - 1] == a + t';
    }
  }

  /** Two lines with the same body scan and the same label get the same verdict. */
  lemma SameVerdict(x: string, y: string, wraps: bool)
    requires Run(Body(x), wraps) == Run(Body(y), wraps) && Label(x) == Label(y)
    ensures ProcessLineWith(x, wraps) == ProcessLineWith(y, wraps)
  {
  }

  /** A prefix without markers is scanned whole; the label comes from the rest. */
  lemma PlainPrefix(a: string, b: string)
    requires NoStop(a)
    ensures Body(a + b) == a + Body(b) && Label(a + b) == Label(b)
  {
    StopIndexAfterPlain(a, b);
    PlainPrefixBody(a, b, StopIndex(b));
    PlainPrefixLabel(a, b, StopIndex(b));
  }

  lemma PlainPrefixBody(a: string, b: string, kb: nat)
    requires kb <= |b| && StopIndex(a + b) == |a| + kb
    ensures Body(a + b) == a + b[..kb]
  {
    assert (a + b)[..|a| + kb] == a + b[..kb];
  }

  lemma PlainPrefixLabel(a: string, b: string, kb: nat)
    requires kb == StopIndex(b) && StopIndex(a + b) == |a| + kb
    ensures Label(a + b) == Label(b)
  {
    if kb < |b| {
      assert (a + b)[|a| + kb] == b[kb];
      assert (a + b)[|a| + kb + 1..] == b[kb + 1..];
    }
  }

  /** A space before the stop marker changes nothing. */
  lemma SpaceSkipped(a: string, b: string, wraps: bool)
    requires NoStop(a)
    ensures ProcessLineWith(a + [' '] + b, wraps) == ProcessLineWith(a + b, wraps)
  {
    assert NoStop(a + [' ']);
    PlainPrefix(a + [' '], b);
    assert a + [' '] + b == (a + [' ']) + b;
    PlainPrefix(a, b);
    RunSkipsSpace(a, Body(b), wraps);
    SameVerdict(a + [' '] + b, a + b, wraps);
  }

  /** The label is the exact remainder after the first `:`. */
  lemma LabelAfterColon(a: string, b: string, wraps: bool)
    requires NoStop(a)
    ensures ProcessLineWith(a + [':'] + b, wraps).tag == b
  {
    StopIndexAfterPlain(a, [':'] + b);
    assert a + ([':'] + b) == a + [':'] + b;
    assert (a + [':'] + b)[|a| + 1..] == b;
  }

  /** Without a `:` there is no label. */
  lemma NoColonNoLabel(line: string, wraps: bool)
    requires forall i :: 0 <= i < |line| ==> line[i] != ':'
    ensures ProcessLineWith(line, wraps).tag == ""
  {
  }

  /** A line yields a cell iff its body holds at least two commas. */
  lemma AcceptedIffTwoCommas(line: string)
    ensures ProcessLine(line).ok <==> Commas(Body(line)) >= 2
  {
    RunMatchesSegments(Body(line));
  }

  /** With fewer than four commas the pointer is the occupation point; otherwise the
      fifth and sixth fields are kept. */
  lemma PointerDefaults(line: string)
    ensures Commas(Body(line)) < 4 ==>
      ProcessLine(line).cx == ProcessLine(line).x && ProcessLine(line).cy == ProcessLine(line).y
    ensures Commas(Body(line)) >= 4 ==>
      ProcessLine(line).cx == Field(Body(line), 4) && ProcessLine(line).cy == Field(Body(line), 5)
  {
    ProcessLineMatchesReference(line);
  }

  /** Slots fill id, x, y, num in order; fields past the sixth are dropped. */
  lemma FieldsInOrder(line: string)
    ensures ProcessLine(line).id == Field(Body(line), 0)
    ensures ProcessLine(line).x == Field(Body(line), 1)
    ensures ProcessLine(line).y == Field(Body(line), 2)
    ensures ProcessLine(line).num == Field(Body(line), 3)
  {
    ProcessLineMatchesReference(line);
  }

  // ---------------------------------------------------------------------------------
  // The wrapping counter.

  /** The signed 8-bit value of an unbounded count. */
  function CharOf(n: int): int {
    (n + 128) % 256 - 128
  }

  /** Adding one to a signed 8-bit value wraps exactly like the unbounded count does. */
  lemma CharOfNext(n: int)
    ensures CharOf(n + 1) == Increment(CharOf(n), true)
  {
    var m := (n + 128) % 256;
    if m == 255 {
      assert n + 129 == ((n + 128) / 256 + 1) * 256;
    } else {
      assert n + 129 == (n + 128) / 256 * 256 + (m + 1);
    }
  }

  lemma {:induction false} RunCounterWraps(body: string)
    ensures Run(body, true).counter == CharOf(Commas(body))
  {
    if |body| > 0 {
      var init := body[..|body| - 1];
      RunCounterWraps(init);
      if Last(body) == ',' {
        CharOfNext(Commas(init));
      }
    }
  }

  lemma {:induction false} RunAgreesBelowWrap(body: string)
    requires Commas(body) < 128
    ensures Run(body, true) == Run(body, false)
  {
    if |body| > 0 {
      var init := body[..|body| - 1];
      RunAgreesBelowWrap(init);
      RunMatchesSegments(init);
    }
  }

  /** Below 128 commas the reader as written and the unbounded reader agree. */
  lemma AsWrittenAgreesBelowWrap(line: string)
    requires Commas(Body(line)) < 128
    ensures ProcessLineAsWritten(line) == ProcessLine(line)
  {
    RunAgreesBelowWrap(Body(line));
  }

  function Repeat(c: char, n: nat): (s: string)
    ensures |s| == n
    ensures forall i :: 0 <= i < n ==> s[i] == c
  {
    if n == 0 then [] else Repeat(c, n - 1) + [c]
  }

  lemma {:induction false} CommasOfRepeat(n: nat)
    ensures Commas(Repeat(',', n)) == n
  {
    if n > 0 {
      assert Repeat(',', n)[..n - 1] == Repeat(',', n - 1);
      CommasOfRepeat(n - 1);
    }
  }

  /** A line of 128 commas has more than two, yet the reader as written rejects it: the
      counter has wrapped to -128. */
  lemma WrappedCounterRejects()
    ensures Commas(Body(Repeat(',', 128))) == 128
    ensures !ProcessLineAsWritten(Repeat(',', 128)).ok
    ensures ProcessLine(Repeat(',', 128)).ok
  {
    var line := Repeat(',', 128);
    assert StopIndex(line) == 128;
    assert Body(line) == line;
    CommasOfRepeat(128);
    RunCounterWraps(line);
    AcceptedIffTwoCommas(line);
  }

  // ---------------------------------------------------------------------------------
  // Loading a formation.

  /** The cell built from an accepted line. */
  function ToCell(l: Line): (c: Cell)
    ensures c.point == At(l.x, l.y) && c.pointer == At(l.cx, l.cy)
    ensures c.name == l.tag && c.regionId == l.id
    ensures c.numOfSup == l.num % UnsignedBound
  {
    SetNumOfSup(SetRegionId(SetName(Set(DefaultCell(), At(l.x, l.y), At(l.cx, l.cy)), l.tag), l.id), l.num)
  }

  /** The reader's verdict on every line of a file. */
  function ProcessAll(lines: seq<string>): seq<Line> {
    seq(|lines|, i requires 0 <= i < |lines| => ProcessLine(lines[i]))
  }

  /** The cells of the accepted verdicts, in order. */
  function Accepted(ls: seq<Line>): (cells: seq<Cell>)
    ensures |cells| <= |ls|
  {
    if |ls| == 0 then []
    else Accepted(ls[..|ls| - 1]) + (if Last(ls).ok then [ToCell(Last(ls))] else [])
  }

  /** `load` / `getTilesFromFile` after the file has been split into lines: one cell per
      accepted line, in order. */
  function Load(lines: seq<string>): (cells: seq<Cell>)
    ensures |cells| <= |lines|
  {
    Accepted(ProcessAll(lines))
  }

  /** `getTilesFromFile` exactly as written: the lines go through the wrapping reader. */
  function LoadAsWritten(lines: seq<string>): (cells: seq<Cell>)
    ensures |cells| <= |lines|
  {
    Accepted(seq(|lines|, i requires 0 <= i < |lines| => ProcessLineAsWritten(lines[i])))
  }

  /** The two loaders build the same formation from any file whose lines all hold fewer than
      128 commas before their markers. */
  lemma LoadAgreesBelowWrap(lines: seq<string>)
    requires forall i :: 0 <= i < |lines| ==> Commas(Body(lines[i])) < 128
    ensures Load(lines) == LoadAsWritten(lines)
  {
    var ls := seq(|lines|, i requires 0 <= i < |lines| => ProcessLineAsWritten(lines[i]));
    forall i | 0 <= i < |lines|
      ensures ls[i] == ProcessAll(lines)[i]
    {
      AsWrittenAgreesBelowWrap(lines[i]);
    }
    assert ls == ProcessAll(lines);
  }

  /** A file holding one line of 128 commas loads one cell, but none as written. */
  lemma WrappedLineDropped()
    ensures LoadAsWritten([Repeat(',', 128)]) == []
    ensures |Load([Repeat(',', 128)])| == 1
  {
    var line := Repeat(',', 128);
    WrappedCounterRejects();
    var ls := seq(1, i requires 0 <= i < 1 => ProcessLineAsWritten([line][i]));
    assert ls == [ProcessLineAsWritten(line)] && ls[..0] == [];
    LoadSingle(line);
  }

  lemma {:induction false} AcceptedFromVerdicts(ls: seq<Line>)
    ensures forall c :: c in Accepted(ls) ==> exists i :: 0 <= i < |ls| && ls[i].ok && c == ToCell(ls[i])
  {
    if |ls| > 0 {
      var init := ls[..|ls| - 1];
      AcceptedFromVerdicts(init);
      forall c | c in Accepted(ls)
        ensures exists i :: 0 <= i < |ls| && ls[i].ok && c == ToCell(ls[i])
      {
        if c in Accepted(init) {
          var i :| 0 <= i < |init| && init[i].ok && c == ToCell(init[i]);
          assert ls[i] == init[i];
        } else {
          assert c == ToCell(ls[|ls| - 1]);
        }
      }
    }
  }

  /** Every loaded cell comes from an accepted line of the file. */
  lemma LoadedCellsComeFromLines(lines: seq<string>)
    ensures forall c :: c in Load(lines) ==>
      exists i :: 0 <= i < |lines| && ProcessLine(lines[i]).ok && c == ToCell(ProcessLine(lines[i]))
  {
    var ls := ProcessAll(lines);
    AcceptedFromVerdicts(ls);
    forall c | c in Load(lines)
      ensures exists i :: 0 <= i < |lines| && ProcessLine(lines[i]).ok && c == ToCell(ProcessLine(lines[i]))
    {
      var i :| 0 <= i < |ls| && ls[i].ok && c == ToCell(ls[i]);
      assert ls[i] == ProcessLine(lines[i]);
    }
  }

  lemma {:induction false} AcceptedAppend(x: seq<Line>, y: seq<Line>)
    ensures Accepted(x + y) == Accepted(x) + Accepted(y)
  {
    if |y| == 0 {
      assert x + y == x;
    } else {
      var y' := y[..|y| - 1];
      AcceptedAppend(x, y');
      assert (x + y)[..|x + y| - 1] == x + y';
      assert Last(x + y) == Last(y);
    }
  }

  /** When every line is accepted, each one yields the cell at its own position. */
  lemma {:induction false} AllAccepted(ls: seq<Line>)
    requires forall i :: 0 <= i < |ls| ==> ls[i].ok
    ensures |Accepted(ls)| == |ls|
    ensures forall i :: 0 <= i < |ls| ==> Accepted(ls)[i] == ToCell(ls[i])
  {
    if |ls| > 0 {
      var init := ls[..|ls| - 1];
      AllAccepted(init);
      assert Accepted(ls) == Accepted(init) + [ToCell(Last(ls))];
    }
  }

  /** Loading distributes over concatenation of files. */
  lemma LoadAppend(a: seq<string>, b: seq<string>)
    ensures Load(a + b) == Load(a) + Load(b)
  {
    assert ProcessAll(a + b) == ProcessAll(a) + ProcessAll(b);
    AcceptedAppend(ProcessAll(a), ProcessAll(b));
  }

  /** A single line contributes its cell iff it is accepted. */
  lemma LoadSingle(line: string)
    ensures Load([line]) == (if ProcessLine(line).ok then [ToCell(ProcessLine(line))] else [])
  {
    var ls := ProcessAll([line]);
    assert ls == [ProcessLine(line)];
    assert ls[..0] == [];
  }
}

=== FILE: formation_selection.dfy ===
/** Formation selection: the catalog of formations keyed by file name, the name the current
    game situation asks for, and the edge-triggered reload (with mirroring after a goal). */
module FormationSelection {
  import opened Wrappers
  import opened World
  import opened VoronoiCell
  import opened Decimal

  // ---------------------------------------------------------------------------------
  // Formation file names.

  /** What a formation file name encodes. `ready` is the READY/SET formation family. */
  datatype KeyParts = KeyParts(ready: bool, players: nat, kickoffus: bool, version: int)

  function PhaseText(ready: bool): string {
    if ready then "_ready" else "_playing"
  }

  function KickoffText(kickoffus: bool): string {
    if kickoffus then "_kickoffus" else ""
  }

  /** The part after the player count: `[_kickoffus]_<version>.cfg`. */
  function TailText(kickoffus: bool, version: int): string {
    KickoffText(kickoffus) + ("_" + (IntToString(version) + ".cfg"))
  }

  /** The part after the phase: `_<N>player` and the tail. */
  function MidText(players: nat, kickoffus: bool, version: int): string {
    "_" + (NatToString(players) + ("player" + TailText(kickoffus, version)))
  }

  /** `formation<phase>_<N>player[_kickoffus]_<version>.cfg` */
  function KeyText(k: KeyParts): (s: string)
    ensures |s| > 9 && s[..9] == "formation"
  {
    "formation" + (PhaseText(k.ready) + MidText(k.players, k.kickoffus, k.version))
  }

  /** The file name `updateFormation` looks up: READY and SET share the ready family, every
      other state reads the playing one, and the name carries the player count, the kick-off
      side and the version so that they can be read back from it. */
  function FormationKey(state: GameState, players: nat, kickoffus: bool, version: int): (s: string)
    ensures |s| > 15 && s[..9] == "formation"
    ensures s[9..15] == "_ready" <==> state == StateReady || state == StateSet
    ensures ParseKey(s) == Some(KeyParts(state == StateReady || state == StateSet, players, kickoffus, version))
  {
    var k := KeyParts(state == StateReady || state == StateSet, players, kickoffus, version);
    KeyRoundTrip(k);
    KeyText(k)
  }

  function StripPrefix(p: string, s: string): (r: Option<string>)
    ensures r.Some? <==> |p| <= |s| && s[..|p|] == p
    ensures r.Some? ==> s == p + r.value
  {
    if |p| <= |s| && s[..|p|] == p then Some(s[|p|..]) else None
  }

  lemma StripConcat(p: string, t: string)
    ensures StripPrefix(p, p + t) == Some(t)
  {
    assert (p + t)[..|p|] == p;
    assert (p + t)[|p|..] == t;
  }

  function StripSuffix(s: string, q: string): (r: Option<string>)
    ensures r.Some? <==> |q| <= |s| && s[|s| - |q|..] == q
    ensures r.Some? ==> s == r.value + q
  {
    if |q| <= |s| && s[|s| - |q|..] == q then Some(s[..|s| - |q|]) else None
  }

  lemma StripSuffixConcat(t: string, q: string)
    ensures StripSuffix(t + q, q) == Some(t)
  {
    assert (t + q)[|t + q| - |q|..] == q;
    assert (t + q)[..|t + q| - |q|] == t;
  }

  /** Length of the run of digits at the start of `s`. */
  function DigitRun(s: string): (k: nat)
    ensures k <= |s| && AllDigits(s[..k])
    ensures k < |s| ==> !IsDigit(s[k])
  {
    if |s| == 0 || !IsDigit(s[0]) then 0
    else
      var k := DigitRun(s[1..]);
      assert s[..k + 1] == [s[0]] + s[1..][..k];
      k + 1
  }

  lemma {:induction false} DigitRunConcat(d: string, t: string)
    requires AllDigits(d) && |t| > 0 && !IsDigit(t[0])
    ensures DigitRun(d + t) == |d|
    decreases |d|
  {
    if |d| > 0 {
      assert (d + t)[1..] == d[1..] + t;
      DigitRunConcat(d[1..], t);
    } else {
      assert d + t == t;
    }
  }

  function ParsePhase(s: string): (r: Option<(bool, string)>)
    ensures r.Some? ==> s == PhaseText(r.value.0) + r.value.1
  {
    match StripPrefix("_ready", s)
    case Some(rest) => Some((true, rest))
    case None =>
      match StripPrefix("_playing", s)
      case Some(rest) => Some((false, rest))
      case None => None
  }

  function ParseKickoff(s: string): (r: (bool, string))
    ensures s == KickoffText(r.0) + r.1
  {
    match StripPrefix("_kickoffus", s)
    case Some(rest) => (true, rest)
    case None => (false, s)
  }

  function ParseTail(d: string): Option<(bool, int)> {
    var (kickoffus, e) := ParseKickoff(d);
    var f :- StripPrefix("_", e);
    var g :- StripSuffix(f, ".cfg");
    var version :- ParseInt(g);
    Some((kickoffus, version))
  }

  function ParseMid(b: string): Option<(nat, bool, int)> {
    var c :- StripPrefix("_", b);
    var k := DigitRun(c);
    var players :- ParseNat(c[..k]);
    var d :- StripPrefix("player", c[k..]);
    var (kickoffus, version) :- ParseTail(d);
    Some((players, kickoffus, version))
  }

  /** Reads the parts back from a formation file name. */
  function ParseKey(s: string): Option<KeyParts> {
    var a :- StripPrefix("formation", s);
    var (ready, b) :- ParsePhase(a);
    var (players, kickoffus, version) :- ParseMid(b);
    Some(KeyParts(ready, players, kickoffus, version))
  }

  lemma PhaseRoundTrip(ready: bool, t: string)
    ensures ParsePhase(PhaseText(ready) + t) == Some((ready, t))
  {
    if ready {
      StripConcat("_ready", t);
    } else {
      var s := "_playing" + t;
      assert s[..6] != "_ready" by { assert s[1] == 'p'; }
      StripConcat("_playing", t);
    }
  }

  lemma KickoffRoundTrip(kickoffus: bool, t: string)
    requires |t| > 0 && t[0] == '_' && (|t| == 1 || t[1] != 'k')
    ensures ParseKickoff(KickoffText(kickoffus) + t) == (kickoffus, t)
  {
    if kickoffus {
      StripConcat("_kickoffus", t);
    } else {
      assert KickoffText(kickoffus) + t == t;
      if |t| >= 10 {
        assert t[..10] != "_kickoffus" by { assert "_kickoffus"[1] == 'k'; }
      }
    }
  }

  lemma TailRoundTrip(kickoffus: bool, version: int)
    ensures ParseTail(TailText(kickoffus, version)) == Some((kickoffus, version))
  {
    var v := IntToString(version);
    var tail := "_" + (v + ".cfg");
    KickoffRoundTrip(kickoffus, tail);
    StripConcat("_", v + ".cfg");
    StripSuffixConcat(v, ".cfg");
    IntRoundTrip(version);
  }

  lemma MidRoundTrip(players: nat, kickoffus: bool, version: int)
    ensures ParseMid(MidText(players, kickoffus, version)) == Some((players, kickoffus, version))
  {
    var n := NatToString(players);
    var d := TailText(kickoffus, version);
    var c := n + ("player" + d);
    StripConcat("_", c);
    DigitRunConcat(n, "player" + d);
    assert c[..|n|] == n && c[|n|..] == "player" + d;
    NatRoundTrip(players);
    StripConcat("player", d);
    TailRoundTrip(kickoffus, version);
  }

  /** Every formation file name can be read back into what it encodes. */
  lemma KeyRoundTrip(k: KeyParts)
    ensures ParseKey(KeyText(k)) == Some(k)
  {
    var b := MidText(k.players, k.kickoffus, k.version);
    StripConcat("formation", PhaseText(k.ready) + b);
    PhaseRoundTrip(k.ready, b);
    MidRoundTrip(k.players, k.kickoffus, k.version);
  }

  /** Distinct situations ask for distinct files. */
  lemma KeyInjective(k1: KeyParts, k2: KeyParts)
    requires KeyText(k1) == KeyText(k2)
    ensures k1 == k2
  {
    KeyRoundTrip(k1);
    KeyRoundTrip(k2);
  }

  // ---------------------------------------------------------------------------------
  // Reloading the formation.

  /** Mirrors every formation of the catalog across the x axis. */
  function MirrorCatalog(catalog: map<string, seq<Cell>>): (r: map<string, seq<Cell>>)
    ensures r.Keys == catalog.Keys
    ensures forall k :: k in r ==> r[k] == MirrorAll(catalog[k])
  {
    map k | k in catalog :: MirrorAll(catalog[k])
  }

  lemma MirrorCatalogInvolution(catalog: map<string, seq<Cell>>)
    ensures MirrorCatalog(MirrorCatalog(catalog)) == catalog
  {
    forall k | k in catalog
      ensures MirrorCatalog(MirrorCatalog(catalog))[k] == catalog[k]
    {
      MirrorAllInvolution(catalog[k]);
    }
  }

  /** What `updateFormation` remembers between cycles. The stored game state starts as
      INITIAL; the stored kick-off flag starts undefined. */
  datatype FormationState = FormationState(
    gameState: GameState,
    kickoffus: bool,
    lastFrameNumOfPlayers: nat,
    catalog: map<string, seq<Cell>>,
    lastSetFormation: seq<Cell>)

  /** The stored situation differs from the current one. The version is not part of it. */
  predicate NeedsChange(fs: FormationState, state: GameState, kickoffus: bool, players: nat)
    ensures NeedsChange(fs, state, kickoffus, players) <==>
      (fs.gameState, fs.lastFrameNumOfPlayers, fs.kickoffus) != (state, players, kickoffus)
  {
    fs.gameState != state || fs.lastFrameNumOfPlayers != players || fs.kickoffus != kickoffus
  }

  /** After a goal the team that kicks off lines up mirrored: on entering READY with an own
      kick-off (and only with dynamic post assignment) every stored formation is mirrored. */
  predicate MirrorsNow(fs: FormationState, state: GameState, kickoffus: bool, dynamicPostAssign: bool)
    ensures MirrorsNow(fs, state, kickoffus, dynamicPostAssign) <==>
      fs.gameState != StateReady && state == StateReady && kickoffus && dynamicPostAssign
  {
    fs.gameState != state && kickoffus && state == StateReady && dynamicPostAssign
  }

  /** `updateFormation`. Returns the new state and the formation to load, or `None` for
      "keep the current one". A missing file is a fault. */
  function UpdateFormation(fs: FormationState, state: GameState, kickoffus: bool, players: nat,
                           version: int, dynamicPostAssign: bool)
    : (r: Result<(FormationState, Option<seq<Cell>>), Fault>)
    ensures !NeedsChange(fs, state, kickoffus, players) ==> r == Success((fs, None))
    ensures NeedsChange(fs, state, kickoffus, players) ==>
      var catalog := if MirrorsNow(fs, state, kickoffus, dynamicPostAssign)
                     then MirrorCatalog(fs.catalog) else fs.catalog;
      var key := FormationKey(state, players, kickoffus, version);
      && (r.Failure? <==> key !in catalog)
      && (r.Failure? ==> r.error == MissingFormation(key))
      && (r.Success? ==>
            && r.value.1 == Some(catalog[key])
            && r.value.0 == FormationState(state, kickoffus, players, catalog, catalog[key]))
  {
    if !NeedsChange(fs, state, kickoffus, players) then Success((fs, None))
    else
      var catalog := if MirrorsNow(fs, state, kickoffus, dynamicPostAssign)
                     then MirrorCatalog(fs.catalog) else fs.catalog;
      var key := FormationKey(state, players, kickoffus, version);
      if key !in catalog then Failure(MissingFormation(key))
      else Success((FormationState(state, kickoffus, players, catalog, catalog[key]), Some(catalog[key])))
  }

  /** Running the update twice in the same situation reloads nothing the second time. */
  lemma UpdateIsEdgeTriggered(fs: FormationState, state: GameState, kickoffus: bool, players: nat,
                              version: int, dynamicPostAssign: bool)
    requires UpdateFormation(fs, state, kickoffus, players, version, dynamicPostAssign).Success?
    ensures
      var fs' := UpdateFormation(fs, state, kickoffus, players, version, dynamicPostAssign).value.0;
      UpdateFormation(fs', state, kickoffus, players, version, dynamicPostAssign) == Success((fs', None))
  {
  }

  /** The loaded formation is always the one stored under the situation's key, and mirroring
      only ever happens on a switch into READY. */
  lemma LoadedMatchesKey(fs: FormationState, state: GameState, kickoffus: bool, players: nat,
                         version: int, dynamicPostAssign: bool)
    requires UpdateFormation(fs, state, kickoffus, players, version, dynamicPostAssign).Success?
    ensures
      var (fs', loaded) := UpdateFormation(fs, state, kickoffus, players, version, dynamicPostAssign).value;
      && (loaded.Some? ==> fs'.lastSetFormation == loaded.value == fs'.catalog[FormationKey(state, players, kickoffus, version)])
      && (fs'.catalog != fs.catalog ==> state == StateReady && fs.gameState != StateReady)
  {
  }
}

=== FILE: permutations.dfy ===
/** The permutations of a sequence in the order `std::next_permutation` visits them when it
    starts from the sorted sequence: lexicographic order. */
module Permutations {

  /** 0, 1, ..., n - 1 */
  function Identity(n: nat): (s: seq<nat>)
    ensures |s| == n && forall i :: 0 <= i < n ==> s[i] == i
  {
    seq(n, i requires 0 <= i < n => i)
  }

  predicate Increasing(s: seq<nat>) {
    forall i, j :: 0 <= i < j < |s| ==> s[i] < s[j]
  }

  /** `p` holds every element of `s` the same number of times. */
  ghost predicate IsPermOf(p: seq<nat>, s: seq<nat>) {
    |p| == |s| && multiset(p) == multiset(s)
  }

  /** Strict lexicographic order. */
  predicate LexLess(a: seq<nat>, b: seq<nat>) {
    |a| > 0 && |b| > 0 && (a[0] < b[0] || (a[0] == b[0] && LexLess(a[1..], b[1..])))
  }

  lemma {:induction false} LexLessAsymmetric(a: seq<nat>, b: seq<nat>)
    requires LexLess(a, b)
    ensures !LexLess(b, a) && a != b
    decreases |a|
  {
    if a[0] == b[0] {
      LexLessAsymmetric(a[1..], b[1..]);
    }
  }

  function Remove(s: seq<nat>, i: nat): (r: seq<nat>)
    requires i < |s|
    ensures |r| == |s| - 1
    ensures multiset(r) + multiset{s[i]} == multiset(s)
  {
    assert s == s[..i] + [s[i]] + s[i + 1..];
    s[..i] + s[i + 1..]
  }

  lemma RemoveIncreasing(s: seq<nat>, i: nat)
    requires i < |s| && Increasing(s)
    ensures Increasing(Remove(s, i))
    ensures forall k :: 0 <= k < |Remove(s, i)| ==> Remove(s, i)[k] in s
  {
    var r := Remove(s, i);
    forall a, b | 0 <= a < b < |r|
      ensures r[a] < r[b]
    {
      var a' := if a < i then a else a + 1;
      var b' := if b < i then b else b + 1;
      assert r[a] == s[a'] && r[b] == s[b'];
    }
    forall k | 0 <= k < |r|
      ensures r[k] in s
    {
      assert r[k] == s[if k < i then k else k + 1];
    }
  }

  function Prepend(x: nat, ps: seq<seq<nat>>): (r: seq<seq<nat>>)
    ensures |r| == |ps| && forall k :: 0 <= k < |ps| ==> r[k] == [x] + ps[k]
  {
    seq(|ps|, k requires 0 <= k < |ps| => [x] + ps[k])
  }

  /** All permutations of `s`: for each position in turn, its element followed by every
      permutation of the rest. */
  function Perms(s: seq<nat>): seq<seq<nat>>
    decreases |s|, 1, 0
  {
    if |s| == 0 then [[]] else PermsFrom(s, 0)
  }

  /** The permutations of `s` that start with `s[i]`, `s[i + 1]`, ... */
  function PermsFrom(s: seq<nat>, i: nat): seq<seq<nat>>
    requires i <= |s|
    decreases |s|, 0, |s| - i
  {
    if i == |s| then [] else Prepend(s[i], Perms(Remove(s, i))) + PermsFrom(s, i + 1)
  }

  // -- soundness

  lemma {:induction false} PermsSound(s: seq<nat>)
    ensures forall p :: p in Perms(s) ==> IsPermOf(p, s)
    decreases |s|, 1, 0
  {
    if |s| > 0 {
      PermsFromSound(s, 0);
    }
  }

  lemma {:induction false} PermsFromSound(s: seq<nat>, i: nat)
    requires i <= |s|
    ensures forall p :: p in PermsFrom(s, i) ==> IsPermOf(p, s) && exists j :: i <= j < |s| && p[0] == s[j]
    decreases |s|, 0, |s| - i
  {
    if i < |s| {
      var r := Remove(s, i);
      PermsSound(r);
      PermsFromSound(s, i + 1);
      var a := Prepend(s[i], Perms(r));
      forall p: seq<nat> | p in a
        ensures IsPermOf(p, s) && p[0] == s[i]
      {
        var k :| 0 <= k < |a| && a[k] == p;
        var q: seq<nat> := Perms(r)[k];
        assert q in Perms(r);
        var one: seq<nat> := [s[i]];
        assert p == one + q;
        assert multiset(p) == multiset(one) + multiset(q);
      }
    }
  }

  // -- completeness

  lemma {:induction false} PermsFromContains(s: seq<nat>, i: nat, j: nat, q: seq<nat>)
    requires i <= j < |s|
    requires q in Prepend(s[j], Perms(Remove(s, j)))
    ensures q in PermsFrom(s, i)
    decreases j - i
  {
    if i < j {
      PermsFromContains(s, i + 1, j, q);
    }
  }

  ghost predicate Distinct(s: seq<nat>) {
    forall i, j :: 0 <= i < j < |s| ==> s[i] != s[j]
  }

  lemma RemoveDistinct(s: seq<nat>, i: nat)
    requires i < |s| && Distinct(s)
    ensures Distinct(Remove(s, i))
  {
    var r := Remove(s, i);
    forall a, b | 0 <= a < b < |r|
      ensures r[a] != r[b]
    {
      assert r[a] == s[if a < i then a else a + 1];
      assert r[b] == s[if b < i then b else b + 1];
    }
  }

  lemma {:induction false} PermsComplete(s: seq<nat>, p: seq<nat>)
    requires Distinct(s) && IsPermOf(p, s)
    ensures p in Perms(s)
    decreases |s|
  {
    if |s| == 0 {
      assert p == [];
    } else {
      assert p[0] in multiset(s);
      var j :| 0 <= j < |s| && s[j] == p[0];
      var r := Remove(s, j);
      var t := p[1..];
      var one: seq<nat> := [p[0]];
      assert p == one + t;
      assert multiset(p) == multiset(one) + multiset(t);
      assert multiset(one) == multiset{s[j]};
      assert multiset(r) + multiset(one) == multiset(s);
      assert multiset(t) == multiset(p) - multiset(one);
      assert multiset(r) == multiset(s) - multiset(one);
      assert multiset(t) == multiset(r);
      RemoveDistinct(s, j);
      PermsComplete(r, t);
      var k :| 0 <= k < |Perms(r)| && Perms(r)[k] == t;
      assert Prepend(s[j], Perms(r))[k] == p;
      PermsFromContains(s, 0, j, p);
    }
  }

  // -- order

  ghost predicate LexSorted(l: seq<seq<nat>>) {
    forall a, b :: 0 <= a < b < |l| ==> LexLess(l[a], l[b])
  }

  lemma PrependSorted(x: nat, ps: seq<seq<nat>>)
    requires LexSorted(ps)
    requires forall p :: p in ps ==> |p| > 0
    ensures LexSorted(Prepend(x, ps))
  {
    var r := Prepend(x, ps);
    forall a, b | 0 <= a < b < |r|
      ensures LexLess(r[a], r[b])
    {
      assert r[a][1..] == ps[a] && r[b][1..] == ps[b];
    }
  }

  lemma {:induction false} PermsSorted(s: seq<nat>)
    requires Increasing(s)
    ensures LexSorted(Perms(s))
    decreases |s|, 1, 0
  {
    if |s| > 0 {
      PermsFromSorted(s, 0);
    }
  }

  lemma {:induction false} PermsFromSorted(s: seq<nat>, i: nat)
    requires i <= |s| && Increasing(s)
    ensures LexSorted(PermsFrom(s, i))
    decreases |s|, 0, |s| - i
  {
    if i < |s| {
      var r := Remove(s, i);
      RemoveIncreasing(s, i);
      PermsSorted(r);
      PermsSound(r);
      PermsFromSorted(s, i + 1);
      PermsFromSound(s, i + 1);
      if |s| == 1 {
        assert |PermsFrom(s, i + 1)| == 0;
        assert |r| == 0;
        assert |Perms(r)| == 1;
      } else {
        forall p | p in Perms(r)
          ensures |p| > 0
        {
        }
        PrependSorted(s[i], Perms(r));
        ConcatSorted(Prepend(s[i], Perms(r)), PermsFrom(s, i + 1), s[i]);
      }
    }
  }

  /** Two sorted blocks, every member of the first starting with `x` and every member of the
      second starting with something larger, concatenate to a sorted list. */
  lemma ConcatSorted(a: seq<seq<nat>>, b: seq<seq<nat>>, x: nat)
    requires LexSorted(a) && LexSorted(b)
    requires forall p :: p in a ==> |p| > 0 && p[0] == x
    requires forall p :: p in b ==> |p| > 0 && p[0] > x
    ensures LexSorted(a + b)
  {
    var l := a + b;
    forall u, v | 0 <= u < v < |l|
      ensures LexLess(l[u], l[v])
    {
      if v >= |a| && u < |a| {
        assert l[u] in a && l[v] in b;
      } else if u >= |a| {
        assert l[u] == b[u - |a|] && l[v] == b[v - |a|];
      }
    }
  }

  /** The enumeration of the permutations of `0 .. n - 1`: each exactly once, in strict
      lexicographic order. */
  lemma Enumeration(n: nat, p: seq<nat>)
    ensures forall q :: q in Perms(Identity(n)) ==> IsPermOf(q, Identity(n))
    ensures IsPermOf(p, Identity(n)) ==> p in Perms(Identity(n))
    ensures LexSorted(Perms(Identity(n)))
  {
    PermsSound(Identity(n));
    PermsSorted(Identity(n));
    if IsPermOf(p, Identity(n)) {
      PermsComplete(Identity(n), p);
    }
  }
}

=== FILE: post_assignment.dfy ===
/** Post assignment: which cell of the formation each robot occupies. Statically, from the
    configured list of player numbers; dynamically, by the cheapest assignment of robots to
    cells, with the last leader pinned to the cell it stands in. */
module PostAssignment {
  import opened Wrappers
  import opened World
  import opened VoronoiCell
  import opened AgentTask
  import opened Team
  import opened Permutations

  // ---------------------------------------------------------------------------------
  // The exhaustive search.

  /** A cost matrix entry; indices outside the matrix read as zero (they never occur). */
  function Entry(c: seq<seq<real>>, i: nat, j: nat): real {
    if i < |c| && j < |c[i]| then c[i][j] else 0.0
  }

  /** Total cost of sending agent `i` to post `p[i]`, for every `i`. */
  function Cost(c: seq<seq<real>>, p: seq<nat>): real
    decreases |p|
  {
    if |p| == 0 then 0.0 else Cost(c, p[..|p| - 1]) + Entry(c, |p| - 1, p[|p| - 1])
  }

  /** The leader, at index `agent` of the agent list, must keep post `post`. */
  datatype Pin = Pin(agent: nat, post: nat)

  predicate Feasible(p: seq<nat>, pin: Option<Pin>) {
    pin.None? || (pin.value.agent < |p| && p[pin.value.agent] == pin.value.post)
  }

  /** `k` indexes the first candidate of least cost among the feasible ones. */
  ghost predicate FirstOptimal(l: seq<seq<nat>>, c: seq<seq<real>>, pin: Option<Pin>, k: nat, upTo: nat)
    requires upTo <= |l|
  {
    && k < upTo && Feasible(l[k], pin)
    && (forall j :: 0 <= j < upTo && Feasible(l[j], pin) ==> Cost(c, l[k]) <= Cost(c, l[j]))
    && (forall j :: 0 <= j < k && Feasible(l[j], pin) ==> Cost(c, l[k]) < Cost(c, l[j]))
  }

  /** The search loop from candidate `i` on: a candidate replaces the best so far only when
      strictly cheaper, and the first feasible one is always taken (the running minimum
      starts at infinity). */
  function SearchFrom(l: seq<seq<nat>>, c: seq<seq<real>>, pin: Option<Pin>, i: nat, best: Option<nat>)
    : (r: Option<nat>)
    requires i <= |l|
    requires best.None? ==> forall j :: 0 <= j < i ==> !Feasible(l[j], pin)
    requires best.Some? ==> FirstOptimal(l, c, pin, best.value, i)
    ensures r.None? <==> forall j :: 0 <= j < |l| ==> !Feasible(l[j], pin)
    ensures r.Some? ==> FirstOptimal(l, c, pin, r.value, |l|)
    decreases |l| - i
  {
    if i == |l| then best
    else if !Feasible(l[i], pin) then SearchFrom(l, c, pin, i + 1, best)
    else if best.None? || Cost(c, l[i]) < Cost(c, l[best.value]) then SearchFrom(l, c, pin, i + 1, Some(i))
    else SearchFrom(l, c, pin, i + 1, best)
  }

  function Zeros(n: nat): (z: seq<nat>)
    ensures |z| == n && forall i :: 0 <= i < n ==> z[i] == 0
  {
    seq(n, i => 0)
  }

  /** Every entry of the best permutation names a post among the first `n`. */
  lemma BestPermutationInRange(c: seq<seq<real>>, n: nat, pin: Option<Pin>, k: nat)
    requires k < n
    ensures BestPermutation(c, n, pin)[k] < n
  {
    var r := BestPermutation(c, n, pin);
    if r != Zeros(n) {
      PermsSound(Identity(n));
      assert r[k] in multiset(r);
      assert r[k] in multiset(Identity(n));
      assert r[k] in Identity(n);
    }
  }

  /** The best permutation of posts for `n` agents, over the permutations in lexicographic
      order; all zeros when no permutation honours the pin. */
  function BestPermutation(c: seq<seq<real>>, n: nat, pin: Option<Pin>): (r: seq<nat>)
    ensures |r| == n
    ensures (forall q :: q in Perms(Identity(n)) ==> !Feasible(q, pin)) ==> r == Zeros(n)
    ensures r in Perms(Identity(n)) || r == Zeros(n)
  {
    var l := Perms(Identity(n));
    PermsSound(Identity(n));
    var found := SearchFrom(l, c, pin, 0, Option.None);
    if found.Some? then
      assert Feasible(l[found.value], pin) && l[found.value] in l;
      l[found.value]
    else Zeros(n)
  }

  /** A permutation of `0 .. n - 1` that honours a pin inside the matrix. */
  function Swap(n: nat, a: nat, b: nat): (s: seq<nat>)
    requires a < n && b < n
    ensures |s| == n && s[a] == b
  {
    seq(n, i requires 0 <= i < n => if i == a then b else if i == b then a else i)
  }

  lemma SwapIsPermutation(n: nat, a: nat, b: nat)
    requires a < n && b < n
    ensures IsPermOf(Swap(n, a, b), Identity(n))
  {
    var id: seq<nat> := Identity(n);
    var s := Swap(n, a, b);
    if a != b {
      var t := id[a := b];
      assert s == t[b := a];
      UpdateMultiset(id, a, b);
      UpdateMultiset(t, b, a);
    } else {
      assert s == id;
    }
  }

  lemma UpdateMultiset(s: seq<nat>, i: nat, v: nat)
    requires i < |s|
    ensures multiset(s[i := v]) == multiset(s) - multiset{s[i]} + multiset{v}
  {
  }

  /** The search result is a permutation that honours the pin, costs no more than any other
      such permutation, and costs strictly less than every one before it in lexicographic
      order — the first optimum wins ties. With the pin inside the matrix there always is one. */
  lemma BestPermutationOptimal(c: seq<seq<real>>, n: nat, pin: Option<Pin>, p: seq<nat>)
    requires pin.Some? ==> pin.value.agent < n && pin.value.post < n
    requires IsPermOf(p, Identity(n)) && Feasible(p, pin)
    ensures IsPermOf(BestPermutation(c, n, pin), Identity(n))
    ensures Feasible(BestPermutation(c, n, pin), pin)
    ensures Cost(c, BestPermutation(c, n, pin)) <= Cost(c, p)
    ensures LexLess(p, BestPermutation(c, n, pin)) ==> Cost(c, BestPermutation(c, n, pin)) < Cost(c, p)
  {
    var l := Perms(Identity(n));
    Enumeration(n, p);
    var kp :| 0 <= kp < |l| && l[kp] == p;
    var s := SearchFrom(l, c, pin, 0, Option.None);
    assert s.Some?;
    var k := s.value;
    var r := BestPermutation(c, n, pin);
    assert r == l[k];
    assert l[k] in l;
    if LexLess(p, r) {
      LexLessAsymmetric(p, r);
    }
  }

  /** A pin inside the matrix can always be honoured. */
  lemma PinnedSearchSucceeds(c: seq<seq<real>>, n: nat, pin: Pin)
    requires pin.agent < n && pin.post < n
    ensures BestPermutation(c, n, Some(pin))[pin.agent] == pin.post
    ensures IsPermOf(BestPermutation(c, n, Some(pin)), Identity(n))
  {
    SwapIsPermutation(n, pin.agent, pin.post);
    BestPermutationOptimal(c, n, Some(pin), Swap(n, pin.agent, pin.post));
  }

  // ---------------------------------------------------------------------------------
  // Static assignment.

  /** The robot takes the cell at the position of its player number in the configured list
      (the first position if listed twice). An unlisted robot trips an assertion; a list
      longer than the formation reads past the cells. */
  function UpdatePostStatic(task: AgentTask, players: seq<int>, self: int): (r: Result<AgentTask, Fault>)
    ensures self !in players ==> r == Failure(PlayerNotListed)
    ensures self in players && IndexOf(players, self).value >= |task.cells| ==> r == Failure(IndexOutOfRange)
    ensures self in players && IndexOf(players, self).value < |task.cells| ==>
      r.Success? && r.value.currentVoronoiId == IndexOf(players, self).value
    ensures r.Success? ==>
      var i := r.value.currentVoronoiId;
      && 0 <= i < |players| && i < |task.cells| && players[i] == self
      && (forall j :: 0 <= j < i ==> players[j] != self)
      && r.value.currentVoronoiPose == Translation(task.cells[i].point)
      && r.value.cells == task.cells && r.value.role == task.role && r.value.ballIsFree == task.ballIsFree
  {
    var found := IndexOf(players, self);
    if found.None? then Failure(PlayerNotListed)
    else if found.value >= |task.cells| then Failure(IndexOutOfRange)
    else
      var i := found.value;
      Success(SetCurrentVoronoiPose(SetCurrentAgentVoronoiId(task, i), Translation(task.cells[i].point)))
  }

  /** Against any listing of the robot's number: the robot succeeds when that listing lies
      inside the formation, and takes a cell no later than it. */
  lemma StaticPostIsFirstListing(task: AgentTask, players: seq<int>, self: int, k: nat)
    requires k < |players| && players[k] == self
    ensures k < |task.cells| ==> UpdatePostStatic(task, players, self).Success?
    ensures UpdatePostStatic(task, players, self).Success? ==>
      UpdatePostStatic(task, players, self).value.currentVoronoiId <= k
  {
    assert self in players;
  }

  /** Two different player numbers never share a post under static assignment. */
  lemma StaticPostsDistinct(task: AgentTask, players: seq<int>, a: int, b: int)
    requires a != b
    requires UpdatePostStatic(task, players, a).Success? && UpdatePostStatic(task, players, b).Success?
    ensures UpdatePostStatic(task, players, a).value.currentVoronoiId !=
            UpdatePostStatic(task, players, b).value.currentVoronoiId
  {
  }

  // ---------------------------------------------------------------------------------
  // Dynamic assignment.

  /** The cell of the last leader among the teammates: every teammate with the leader's
      number is classified in turn, and a non-defender cell overrides the value so far. */
  function LeaderCellAmong(geo: Geometry, cells: seq<Cell>, leaderID: int, teammates: seq<Teammate>)
    : (r: Result<int, Fault>)
    ensures r.Failure? ==> |cells| == 0 && r.error == EmptyPartition
    ensures r.Success? ==> -1 <= r.value < |cells|
    ensures r.Success? && r.value >= 0 ==>
      && cells[r.value].name != DefenderName
      && exists t :: t in teammates && t.number == leaderID &&
                     Classify(geo, t.pose, cells, 0) == Success(r.value as nat)
    ensures (forall t :: t in teammates ==> t.number != leaderID) ==> r == Success(-1)
    decreases |teammates|
  {
    if |teammates| == 0 then Success(-1)
    else
      var init := teammates[..|teammates| - 1];
      var t := teammates[|teammates| - 1];
      assert teammates == init + [t];
      var acc :- LeaderCellAmong(geo, cells, leaderID, init);
      if t.number != leaderID then Success(acc)
      else
        var id :- Classify(geo, t.pose, cells, 0);
        Success(if cells[id].name != DefenderName then id else acc)
  }

  /** The cell pinned to the last frame's leader, or -1 when there is no leader or it stands
      in a defender cell. The robot classifies its own pose when it was the leader. */
  function LeaderCell(geo: Geometry, cells: seq<Cell>, leaderID: int, self: int, selfPose: RobotPose,
                      teammates: seq<Teammate>): (r: Result<int, Fault>)
    ensures r.Failure? ==> |cells| == 0 && r.error == EmptyPartition
    ensures leaderID <= -1 ==> r == Success(-1)
    ensures r.Success? ==> -1 <= r.value < |cells|
    ensures r.Success? && r.value >= 0 ==> cells[r.value].name != DefenderName
    ensures r.Success? && r.value >= 0 && leaderID == self ==>
      Classify(geo, selfPose, cells, 0) == Success(r.value as nat)
  {
    if leaderID <= -1 then Success(-1)
    else if leaderID == self then
      var id :- Classify(geo, selfPose, cells, 0);
      Success(if cells[id].name != DefenderName then id else -1)
    else LeaderCellAmong(geo, cells, leaderID, teammates)
  }

  /** The pose the cost computation uses for an agent. Every agent other than the robot is
      among the teammates, so the last alternative is never taken. */
  function PoseOf(teammates: seq<Teammate>, self: int, selfPose: RobotPose, number: int): (p: RobotPose)
    ensures number == self ==> p == selfPose
    ensures number != self ==> forall k ::
      (0 <= k < |teammates| && teammates[k].number == number &&
       (forall j :: 0 <= j < k ==> teammates[j].number != number)) ==> p == teammates[k].pose
  {
    if number == self then selfPose
    else
      var t := FindTeammate(teammates, number);
      if t.Some? then t.value.pose else selfPose
  }

  function CellVec(c: Cell): Vec {
    Vec(c.point.x as real, c.point.y as real)
  }

  /** `costOfRobotToPost`: the time for agent `i` to reach cell `j`. */
  function CostMatrix(geo: Geometry, agents: seq<int>, teammates: seq<Teammate>, self: int,
                      selfPose: RobotPose, cells: seq<Cell>, n: nat): (c: seq<seq<real>>)
    requires n <= |agents| && n <= |cells|
    ensures |c| == n && forall i :: 0 <= i < n ==> |c[i]| == n
  {
    seq(n, i requires 0 <= i < n =>
      seq(n, j requires 0 <= j < n =>
        geo.postCost(PoseOf(teammates, self, selfPose, agents[i]), CellVec(cells[j]))))
  }

  /** Zeroes the leader's cost to its own cell. */
  function PinCost(c: seq<seq<real>>, pin: Pin): (r: seq<seq<real>>)
    requires pin.agent < |c| && pin.post < |c[pin.agent]|
    ensures |r| == |c| && forall i :: 0 <= i < |c| ==> |r[i]| == |c[i]|
    ensures r[pin.agent][pin.post] == 0.0
    ensures forall i, j :: 0 <= i < |c| && 0 <= j < |c[i]| && (i, j) != (pin.agent, pin.post) ==> r[i][j] == c[i][j]
  {
    c[pin.agent := c[pin.agent][pin.post := 0.0]]
  }

  /** What post assignment leaves behind. */
  datatype PostOutcome = PostOutcome(task: AgentTask, agents: seq<int>, bestPermutation: seq<nat>)

  /** The pin when the leader has a cell and is still among the agents. */
  function PinOf(agents: seq<int>, leaderID: int, leaderCell: int): (pin: Option<Pin>)
    ensures pin.Some? ==> pin.value.agent < |agents| && agents[pin.value.agent] == leaderID
    ensures pin.Some? <==> leaderCell > -1 && leaderID in agents
  {
    var idx := IndexOf(agents, leaderID);
    if leaderCell > -1 && idx.Some? then Some(Pin(idx.value, leaderCell as nat)) else Option.None
  }

  /** The search part of the dynamic post assignment: the robot takes the cell of the stored
      formation that its own entry of the best permutation names. A pinned cell outside the
      cost matrix, or a chosen cell outside the stored formation, is a read out of bounds. */
  function Assign(geo: Geometry, task: AgentTask, lastSet: seq<Cell>, agents: seq<int>, n: nat,
                  self: int, selfPose: RobotPose, teammates: seq<Teammate>, leaderID: int, leaderCell: int)
    : (r: Result<PostOutcome, Fault>)
    requires |agents| == n && self in agents && n <= |task.cells|
    ensures r.Failure? ==> r.error == IndexOutOfRange
    ensures var pin := PinOf(agents, leaderID, leaderCell);
      pin.Some? && pin.value.post >= n ==> r.Failure?
    ensures var pin := PinOf(agents, leaderID, leaderCell);
      (pin.None? || pin.value.post < n) && n <= |lastSet| ==> r.Success?
    ensures r.Success? ==>
      var out := r.value;
      var id := out.task.currentVoronoiId;
      && out.agents == agents && |out.bestPermutation| == n
      && id == out.bestPermutation[IndexOf(agents, self).value]
      && 0 <= id < |lastSet| && out.task.currentVoronoiPose == Translation(lastSet[id].point)
      && out.task.cells == task.cells && out.task.role == task.role && out.task.ballIsFree == task.ballIsFree
  {
    var c0 := CostMatrix(geo, agents, teammates, self, selfPose, task.cells, n);
    var pin := PinOf(agents, leaderID, leaderCell);
    if pin.Some? && pin.value.post >= n then Failure(IndexOutOfRange)
    else
      var c := if pin.Some? then PinCost(c0, pin.value) else c0;
      var bp := BestPermutation(c, n, pin);
      var idx := IndexOf(agents, self).value;
      BestPermutationInRange(c, n, pin, idx);
      var vID := bp[idx];
      if vID >= |lastSet| then Failure(IndexOutOfRange)
      else
        var t := SetCurrentAgentVoronoiId(SetCurrentVoronoiPose(task, Translation(lastSet[vID].point)), vID);
        Success(PostOutcome(t, agents, bp))
  }

  /** `updatePost` with dynamic assignment. The agent list is rebuilt first; when its size
      disagrees with the player count nothing else changes. A pinned cell outside the cost
      matrix is a write out of bounds. */
  function UpdatePostDynamic(geo: Geometry, task: AgentTask, lastSet: seq<Cell>, leaderID: int, n: nat,
                             self: int, selfPose: RobotPose, teammates: seq<Teammate>, best: seq<nat>)
    : (r: Result<PostOutcome, Fault>)
    ensures r.Success? ==> r.value.agents == Agents(teammates, self)
    ensures r.Success? && |Agents(teammates, self)| != n ==>
      r.value.task == task && r.value.bestPermutation == best
    ensures r.Failure? ==> r.error == EmptyPartition || r.error == IndexOutOfRange
    ensures LeaderCell(geo, task.cells, leaderID, self, selfPose, teammates).Failure? ==> r.Failure?
    ensures LeaderCell(geo, task.cells, leaderID, self, selfPose, teammates).Success? ==>
      var leaderCell := LeaderCell(geo, task.cells, leaderID, self, selfPose, teammates).value;
      var m := |Agents(teammates, self)|;
      && (m != n ==> r.Success?)
      && (m == n && |task.cells| < n ==> r == Failure(IndexOutOfRange))
      && (m == n <= |task.cells| && n <= |lastSet| && leaderCell < n ==> r.Success?)
  {
    var leaderCell :- LeaderCell(geo, task.cells, leaderID, self, selfPose, teammates);
    var agents := Agents(teammates, self);
    if |agents| != n then Success(PostOutcome(task, agents, best))
    else if |task.cells| < n then Failure(IndexOutOfRange)
    else Assign(geo, task, lastSet, agents, n, self, selfPose, teammates, leaderID, leaderCell)
  }

  /** The dynamic assignment gives every agent a distinct cell of the formation, the one the
      robot takes is its entry in the cheapest permutation, the last leader keeps its cell,
      and no permutation honouring that is cheaper. */
  lemma DynamicAssignmentOptimal(geo: Geometry, task: AgentTask, lastSet: seq<Cell>, leaderID: int, n: nat,
                                 self: int, selfPose: RobotPose, teammates: seq<Teammate>, best: seq<nat>,
                                 p: seq<nat>)
    requires |Agents(teammates, self)| == n
    requires UpdatePostDynamic(geo, task, lastSet, leaderID, n, self, selfPose, teammates, best).Success?
    ensures
      var out := UpdatePostDynamic(geo, task, lastSet, leaderID, n, self, selfPose, teammates, best).value;
      var agents := Agents(teammates, self);
      var leaderCell := LeaderCell(geo, task.cells, leaderID, self, selfPose, teammates).value;
      var pin := PinOf(agents, leaderID, leaderCell);
      var c0 := CostMatrix(geo, agents, teammates, self, selfPose, task.cells, n);
      var c := if pin.Some? then PinCost(c0, pin.value) else c0;
      && IsPermOf(out.bestPermutation, Identity(n))
      && out.task.currentVoronoiId == out.bestPermutation[IndexOf(agents, self).value]
      && out.task.currentVoronoiPose == Translation(lastSet[out.task.currentVoronoiId].point)
      && out.task.cells == task.cells && out.task.role == task.role && out.task.ballIsFree == task.ballIsFree
      && (pin.Some? ==> out.bestPermutation[pin.value.agent] == leaderCell)
      && (IsPermOf(p, Identity(n)) && Feasible(p, pin) ==> Cost(c, out.bestPermutation) <= Cost(c, p))
  {
    var agents := Agents(teammates, self);
    SelfIsIndexed(teammates, self);
    var leaderCell := LeaderCell(geo, task.cells, leaderID, self, selfPose, teammates).value;
    var pin := PinOf(agents, leaderID, leaderCell);
    var c0 := CostMatrix(geo, agents, teammates, self, selfPose, task.cells, n);
    var c := if pin.Some? then PinCost(c0, pin.value) else c0;
    if pin.Some? {
      PinnedSearchSucceeds(c, n, pin.value);
    } else {
      BestPermutationOptimal(c, n, pin, Identity(n));
    }
    if IsPermOf(p, Identity(n)) && Feasible(p, pin) {
      BestPermutationOptimal(c, n, pin, p);
    }
  }
}

=== FILE: role_assignment.dfy ===
/** Role assignment. Statically, the robot whose cell holds the ball leads. Dynamically,
    robots are ranked by their time to the ball; the cheapest leads and the second supports
    (or, as a defender, takes the lead when the ball is deep in the own half behind the
    leader). */
module RoleAssignment {
  import opened Wrappers
  import opened World
  import opened VoronoiCell
  import opened AgentTask
  import opened Team
  import opened DynBorder

  // ---------------------------------------------------------------------------------
  // Costs to the ball.

  /** A robot and its time to reach the ball. */
  datatype CostEntry = CostEntry(number: int, cost: real)

  /** The cost of a teammate that is not playing (fallen). */
  const FallenCost: real := 1000.0

  /** Where robots race to: the centre before kick-off, the team ball when playing. */
  function RoleTarget(state: GameState, teamBall: Vec): (v: Vec)
    ensures state == StateReady || state == StateSet ==> v == Vec(0.0, 0.0)
    ensures state == StatePlaying ==> v == teamBall
  {
    if state == StateReady || state == StateSet then Vec(0.0, 0.0) else teamBall
  }

  /** Last frame's leader gets one second (READY) or two seconds (otherwise) off its cost. */
  function LeaderDiscount(state: GameState, leaderID: int, number: int): (d: real)
    ensures leaderID == -1 || number != leaderID ==> d == 0.0
    ensures leaderID != -1 && number == leaderID ==> d == (if state == StateReady then -1.0 else -2.0)
  {
    if leaderID != -1 && number == leaderID then (if state == StateReady then -1.0 else -2.0) else 0.0
  }

  /** Of two robots equally far from the ball, last frame's leader ranks cheaper. */
  lemma LastLeaderWinsTies(state: GameState, leaderID: int, a: int, b: int, cost: real)
    requires leaderID != -1 && a == leaderID && b != leaderID
    ensures cost + LeaderDiscount(state, leaderID, a) < cost + LeaderDiscount(state, leaderID, b)
    ensures LeaderDiscount(state, leaderID, a) <= -1.0
  {
  }

  /** The teammates that race for the ball: every one but the goalkeeper, in broadcast
      order. */
  function FieldPlayers(teammates: seq<Teammate>): (r: seq<Teammate>)
    ensures |r| <= |teammates|
    ensures forall i :: 0 <= i < |r| ==> !r[i].isGoalkeeper
    decreases |teammates|
  {
    if |teammates| == 0 then []
    else
      var init := teammates[..|teammates| - 1];
      var t := teammates[|teammates| - 1];
      FieldPlayers(init) + (if t.isGoalkeeper then [] else [t])
  }

  /** The field players are exactly the teammates that are not the goalkeeper. */
  lemma {:induction false} FieldPlayersMembers(teammates: seq<Teammate>)
    ensures forall t :: t in FieldPlayers(teammates) <==> t in teammates && !t.isGoalkeeper
    decreases |teammates|
  {
    if |teammates| > 0 {
      var init := teammates[..|teammates| - 1];
      FieldPlayersMembers(init);
      assert teammates == init + [teammates[|teammates| - 1]];
    }
  }

  /** Filtering a roster piece by piece keeps the broadcast order: the field players of two
      rosters in turn are those of the first followed by those of the second. */
  lemma {:induction false} FieldPlayersAppend(a: seq<Teammate>, b: seq<Teammate>)
    ensures FieldPlayers(a + b) == FieldPlayers(a) + FieldPlayers(b)
    decreases |b|
  {
    if |b| == 0 {
      assert a + b == a;
    } else {
      var b' := b[..|b| - 1];
      var t := b[|b| - 1];
      var x := if t.isGoalkeeper then [] else [t];
      assert b == b' + [t];
      assert a + b == (a + b') + [t];
      FieldPlayersAppend(a, b');
      FieldPlayersSnoc(a + b', t);
      FieldPlayersSnoc(b', t);
      assert FieldPlayers(a + b) == (FieldPlayers(a) + FieldPlayers(b')) + x;
      assert FieldPlayers(b) == FieldPlayers(b') + x;
    }
  }

  /** One more teammate adds itself unless it is the goalkeeper. */
  lemma FieldPlayersSnoc(ts: seq<Teammate>, t: Teammate)
    ensures FieldPlayers(ts + [t]) == FieldPlayers(ts) + (if t.isGoalkeeper then [] else [t])
  {
    assert (ts + [t])[..|ts|] == ts;
  }

  /** A roster without a goalkeeper races whole, in order. */
  lemma {:induction false} FieldPlayersWithoutGoalkeeper(teammates: seq<Teammate>)
    requires forall i :: 0 <= i < |teammates| ==> !teammates[i].isGoalkeeper
    ensures FieldPlayers(teammates) == teammates
    decreases |teammates|
  {
    if |teammates| > 0 {
      FieldPlayersWithoutGoalkeeper(teammates[..|teammates| - 1]);
      assert teammates == teammates[..|teammates| - 1] + [teammates[|teammates| - 1]];
    }
  }

  /** The entry of one field player: its time to the ball with the leader discount when it is
      playing, the fallen cost otherwise. */
  function TeammateEntry(geo: Geometry, state: GameState, leaderID: int, teamBall: Vec, t: Teammate): CostEntry {
    if t.status == Playing
    then CostEntry(t.number, geo.roleCost(t.pose, RoleTarget(state, teamBall)) + LeaderDiscount(state, leaderID, t.number))
    else CostEntry(t.number, FallenCost)
  }

  /** Entries for the teammates: exactly one per field player, in broadcast order. */
  function TeammateCosts(geo: Geometry, state: GameState, leaderID: int, teamBall: Vec,
                         teammates: seq<Teammate>): (r: seq<CostEntry>)
    ensures |r| == |FieldPlayers(teammates)|
    ensures forall i :: 0 <= i < |r| ==> r[i] == TeammateEntry(geo, state, leaderID, teamBall, FieldPlayers(teammates)[i])
    ensures forall e :: e in r ==>
      exists t :: (t in teammates && !t.isGoalkeeper && t.number == e.number &&
                   e.cost == (if t.status == Playing
                              then geo.roleCost(t.pose, RoleTarget(state, teamBall)) + LeaderDiscount(state, leaderID, t.number)
                              else FallenCost))
    ensures forall t :: t in teammates && !t.isGoalkeeper ==> exists e :: e in r && e.number == t.number
    decreases |teammates|
  {
    if |teammates| == 0 then []
    else
      var init := teammates[..|teammates| - 1];
      var t := teammates[|teammates| - 1];
      assert teammates == init + [t];
      var rest := TeammateCosts(geo, state, leaderID, teamBall, init);
      var r := if t.isGoalkeeper then rest else rest + [TeammateEntry(geo, state, leaderID, teamBall, t)];
      EntriesSnoc(geo, state, leaderID, teamBall, init, t, rest, r);
      CostsListPlayers(geo, state, leaderID, teamBall, teammates, r);
      r
  }

  lemma EntriesSnoc(geo: Geometry, state: GameState, leaderID: int, teamBall: Vec,
                    init: seq<Teammate>, t: Teammate, rest: seq<CostEntry>, r: seq<CostEntry>)
    requires |rest| == |FieldPlayers(init)|
    requires forall i :: 0 <= i < |rest| ==> rest[i] == TeammateEntry(geo, state, leaderID, teamBall, FieldPlayers(init)[i])
    requires r == if t.isGoalkeeper then rest else rest + [TeammateEntry(geo, state, leaderID, teamBall, t)]
    ensures |r| == |FieldPlayers(init + [t])|
    ensures forall i :: 0 <= i < |r| ==> r[i] == TeammateEntry(geo, state, leaderID, teamBall, FieldPlayers(init + [t])[i])
  {
    FieldPlayersSnoc(init, t);
    var fp := FieldPlayers(init + [t]);
    if t.isGoalkeeper {
      assert fp == FieldPlayers(init);
    } else {
      assert fp == FieldPlayers(init) + [t];
      forall i | 0 <= i < |r|
        ensures r[i] == TeammateEntry(geo, state, leaderID, teamBall, fp[i])
      {
        if i < |rest| {
          assert fp[i] == FieldPlayers(init)[i];
        } else {
          assert fp[i] == t;
        }
      }
    }
  }

  /** Every field player has an entry with its number, and every entry is some field
      player's. */
  lemma CostsListPlayers(geo: Geometry, state: GameState, leaderID: int, teamBall: Vec,
                         teammates: seq<Teammate>, r: seq<CostEntry>)
    requires |r| == |FieldPlayers(teammates)|
    requires forall i :: 0 <= i < |r| ==> r[i] == TeammateEntry(geo, state, leaderID, teamBall, FieldPlayers(teammates)[i])
    ensures forall e :: e in r ==>
      exists t :: (t in teammates && !t.isGoalkeeper && t.number == e.number &&
                   e.cost == (if t.status == Playing
                              then geo.roleCost(t.pose, RoleTarget(state, teamBall)) + LeaderDiscount(state, leaderID, t.number)
                              else FallenCost))
    ensures forall t :: t in teammates && !t.isGoalkeeper ==> exists e :: e in r && e.number == t.number
  {
    FieldPlayersMembers(teammates);
    EntriesFromPlayers(geo, state, leaderID, teamBall, teammates, r);
    PlayersHaveEntries(geo, state, leaderID, teamBall, teammates, r);
  }

  lemma EntriesFromPlayers(geo: Geometry, state: GameState, leaderID: int, teamBall: Vec,
                           teammates: seq<Teammate>, r: seq<CostEntry>)
    requires |r| == |FieldPlayers(teammates)|
    requires forall i :: 0 <= i < |r| ==> r[i] == TeammateEntry(geo, state, leaderID, teamBall, FieldPlayers(teammates)[i])
    requires forall t :: t in FieldPlayers(teammates) ==> t in teammates
    ensures forall e :: e in r ==>
      exists t :: (t in teammates && !t.isGoalkeeper && t.number == e.number &&
                   e.cost == (if t.status == Playing
                              then geo.roleCost(t.pose, RoleTarget(state, teamBall)) + LeaderDiscount(state, leaderID, t.number)
                              else FallenCost))
  {
    var fp := FieldPlayers(teammates);
    forall e | e in r
      ensures exists t :: (t in teammates && !t.isGoalkeeper && t.number == e.number &&
                   e.cost == (if t.status == Playing
                              then geo.roleCost(t.pose, RoleTarget(state, teamBall)) + LeaderDiscount(state, leaderID, t.number)
                              else FallenCost))
    {
      var i :| 0 <= i < |r| && r[i] == e;
      assert fp[i] in fp;
    }
  }

  lemma PlayersHaveEntries(geo: Geometry, state: GameState, leaderID: int, teamBall: Vec,
                           teammates: seq<Teammate>, r: seq<CostEntry>)
    requires |r| == |FieldPlayers(teammates)|
    requires forall i :: 0 <= i < |r| ==> r[i] == TeammateEntry(geo, state, leaderID, teamBall, FieldPlayers(teammates)[i])
    requires forall t :: t in teammates && !t.isGoalkeeper ==> t in FieldPlayers(teammates)
    ensures forall t :: t in teammates && !t.isGoalkeeper ==> exists e :: e in r && e.number == t.number
  {
    var fp := FieldPlayers(teammates);
    forall t | t in teammates && !t.isGoalkeeper
      ensures exists e :: e in r && e.number == t.number
    {
      var i :| 0 <= i < |fp| && fp[i] == t;
      assert r[i] in r;
    }
  }

  /** All entries: the robot itself first when it is not the goalkeeper and stands upright,
      then the teammates' entries. */
  function BuildCosts(geo: Geometry, state: GameState, leaderID: int, self: int, selfUpright: bool,
                      selfPose: RobotPose, teamBall: Vec, teammates: seq<Teammate>): (r: seq<CostEntry>)
    ensures self != 1 && selfUpright ==>
      |r| >= 1 && r[0] == CostEntry(self, geo.roleCost(selfPose, RoleTarget(state, teamBall)) + LeaderDiscount(state, leaderID, self))
      && r[1..] == TeammateCosts(geo, state, leaderID, teamBall, teammates)
    ensures (self == 1 || !selfUpright) ==> r == TeammateCosts(geo, state, leaderID, teamBall, teammates)
  {
    var own := if self != 1 && selfUpright
               then [CostEntry(self, geo.roleCost(selfPose, RoleTarget(state, teamBall)) + LeaderDiscount(state, leaderID, self))]
               else [];
    own + TeammateCosts(geo, state, leaderID, teamBall, teammates)
  }

  // ---------------------------------------------------------------------------------
  // Ranking.

  ghost predicate SortedByCost(r: seq<CostEntry>) {
    forall i, j :: 0 <= i < j < |r| ==> r[i].cost <= r[j].cost
  }

  /** Any order the sort may produce: the same entries, by non-decreasing cost. The sort is
      not stable, so entries of equal cost may come in any order. */
  ghost predicate IsRanking(costs: seq<CostEntry>, r: seq<CostEntry>) {
    multiset(r) == multiset(costs) && SortedByCost(r)
  }

  function Insert(e: CostEntry, r: seq<CostEntry>): (s: seq<CostEntry>)
    requires SortedByCost(r)
    ensures SortedByCost(s) && multiset(s) == multiset(r) + multiset{e}
    decreases |r|
  {
    if |r| == 0 then [e]
    else if e.cost < r[0].cost then [e] + r
    else
      var rest := Insert(e, r[1..]);
      assert r == [r[0]] + r[1..];
      ConsSorted(r[0], rest, r[1..], e);
      [r[0]] + rest
  }

  lemma ConsSorted(x: CostEntry, rest: seq<CostEntry>, tail: seq<CostEntry>, e: CostEntry)
    requires SortedByCost(rest) && SortedByCost([x] + tail)
    requires multiset(rest) == multiset(tail) + multiset{e} && x.cost <= e.cost
    ensures SortedByCost([x] + rest)
  {
    forall k | 0 <= k < |rest|
      ensures x.cost <= rest[k].cost
    {
      assert rest[k] in multiset(rest);
      if rest[k] != e {
        assert rest[k] in multiset(tail);
        var m :| 0 <= m < |tail| && tail[m] == rest[k];
        assert ([x] + tail)[m + 1] == tail[m] && ([x] + tail)[0] == x;
        assert x.cost <= tail[m].cost;
      }
    }
    var s := [x] + rest;
    forall i, j | 0 <= i < j < |s|
      ensures s[i].cost <= s[j].cost
    {
      if i > 0 {
        assert s[i] == rest[i - 1] && s[j] == rest[j - 1];
      } else {
        assert s[j] == rest[j - 1];
      }
    }
  }

  /** An insertion sort by cost: one of the orders the ranking may take. */
  function SortByCost(xs: seq<CostEntry>): (r: seq<CostEntry>)
    ensures IsRanking(xs, r)
    decreases |xs|
  {
    if |xs| == 0 then []
    else
      assert xs == xs[..|xs| - 1] + [xs[|xs| - 1]];
      Insert(xs[|xs| - 1], SortByCost(xs[..|xs| - 1]))
  }

  lemma RankingHeadIsCheapest(costs: seq<CostEntry>, r: seq<CostEntry>, e: CostEntry)
    requires IsRanking(costs, r) && e in costs
    ensures |r| > 0 && r[0].cost <= e.cost
  {
    assert e in multiset(r);
  }

  /** When one robot is strictly cheapest, every admissible ranking puts it first. */
  lemma UniqueCheapestFirst(costs: seq<CostEntry>, r: seq<CostEntry>, e: CostEntry)
    requires IsRanking(costs, r) && e in costs
    requires forall x :: x in costs && x != e ==> e.cost < x.cost
    ensures r[0] == e
  {
    RankingHeadIsCheapest(costs, r, e);
    assert r[0] in multiset(costs);
  }

  // ---------------------------------------------------------------------------------
  // Dynamic roles.

  /** Whether the robot is a defender: only while PLAYING and with an assigned cell. */
  function AmIDefender(task: AgentTask, state: GameState): (r: Result<bool, Fault>)
    ensures r.Failure? <==> task.currentVoronoiId >= |task.cells| && state == StatePlaying
    ensures r.Success? ==>
      (r.value <==> state == StatePlaying && 0 <= task.currentVoronoiId < |task.cells| &&
                    task.cells[task.currentVoronoiId].name == DefenderName)
  {
    if task.currentVoronoiId >= 0 && state == StatePlaying then
      if task.currentVoronoiId < |task.cells| then Success(task.cells[task.currentVoronoiId].name == DefenderName)
      else Failure(IndexOutOfRange)
    else Success(false)
  }

  /** Whether the leader has a supporter. With dynamic post assignment (and the leader among
      the agents) it is the supporter count of the leader's assigned cell, false while no
      assignment exists; otherwise every non-defender assumes one. */
  function HasSupporter(task: AgentTask, dynamicPostAssign: bool, agents: seq<int>, best: seq<nat>,
                        leader: int, amIDefender: bool): (r: Result<bool, Fault>)
    ensures !(dynamicPostAssign && leader in agents) ==> r == Success(!amIDefender)
    ensures dynamicPostAssign && leader in agents && |best| == 0 ==> r == Success(false)
    ensures r.Success? && dynamicPostAssign && leader in agents && |best| > 0 ==>
      var i := IndexOf(agents, leader).value;
      i < |best| && best[i] < |task.cells| && (r.value <==> task.cells[best[i]].numOfSup != 0)
    ensures dynamicPostAssign && leader in agents && |best| > 0 ==>
      var i := IndexOf(agents, leader).value;
      r.Failure? <==> !(i < |best| && best[i] < |task.cells|)
  {
    if dynamicPostAssign && leader in agents then
      var i := IndexOf(agents, leader).value;
      if |best| == 0 then Success(false)
      else if i < |best| && best[i] < |task.cells| then Success(task.cells[best[i]].numOfSup != 0)
      else Failure(IndexOutOfRange)
    else Success(!amIDefender)
  }

  /** The x coordinate of the last teammate broadcasting the leader's number. */
  function LeaderPoseX(teammates: seq<Teammate>, leader: int): (r: Option<real>)
    ensures r.Some? <==> exists t :: t in teammates && t.number == leader
    ensures r.Some? ==> exists k :: 0 <= k < |teammates| && teammates[k].number == leader &&
                                    r.value == teammates[k].pose.translation.x &&
                                    (forall j :: k < j < |teammates| ==> teammates[j].number != leader)
    decreases |teammates|
  {
    if |teammates| == 0 then Option.None
    else
      var t := teammates[|teammates| - 1];
      if t.number == leader then Some(t.pose.translation.x)
      else
        var init := teammates[..|teammates| - 1];
        assert teammates == init + [t];
        LeaderPoseX(init, leader)
  }

  datatype RoleOutcome = RoleOutcome(role: Role, leaderID: int, ballInOwnHalf: Border)

  /** What the dynamic branch reads besides the ranking. */
  datatype RoleContext = RoleContext(
    self: int,
    state: GameState,
    dynamicPostAssign: bool,
    agents: seq<int>,
    bestPermutation: seq<nat>,
    palangExpired: bool,
    teamBallX: real,
    teammates: seq<Teammate>)

  /** The dynamic branch of `updateRole` after ranking. Reading the robot's own cell when it
      has none, or the second rank when only one robot was ranked, is out of bounds. The own-half border is queried only when the
      robot is second, has no supporter and is a defender. */
  function DynamicRole(task: AgentTask, hasGotBall: bool, ranking: seq<CostEntry>, leaderID: int,
                       ctx: RoleContext, border: Border): (r: Result<RoleOutcome, Fault>)
    ensures !hasGotBall || |ranking| == 0 ==> r == Success(RoleOutcome(Role.None, leaderID, border))
    ensures r.Success? && hasGotBall && |ranking| > 0 ==>
      r.value.leaderID == ranking[0].number && 0 <= task.currentVoronoiId < |task.cells|
    ensures r.Success? && hasGotBall && |ranking| > 0 && ranking[0].number == ctx.self ==> r.value.role == Leader
    ensures r.Success? && r.value.role == Supporter ==>
      |ranking| >= 2 && ranking[1].number == ctx.self && ranking[0].number != ctx.self && ctx.palangExpired
    ensures r.Success? && r.value.role == Leader && ranking[0].number != ctx.self ==>
      && |ranking| >= 2 && ranking[1].number == ctx.self
      && ctx.teamBallX < Threshold(border)
      && LeaderPoseX(ctx.teammates, ranking[0].number).Some?
      && LeaderPoseX(ctx.teammates, ranking[0].number).value > ctx.teamBallX
    ensures r.Failure? <==>
      && hasGotBall && |ranking| > 0
      && (|| !(0 <= task.currentVoronoiId < |task.cells|)
          || HasSupporter(task, ctx.dynamicPostAssign, ctx.agents, ctx.bestPermutation, ranking[0].number,
                          AmIDefender(task, ctx.state).value).Failure?
          || (ranking[0].number != ctx.self && |ranking| < 2))
    ensures r.Success? && r.value.ballInOwnHalf != border ==>
      r.value.ballInOwnHalf == IsBelowBorder(border, ctx.teamBallX).border
    ensures r.Success? && hasGotBall && |ranking| >= 2 && ranking[0].number != ctx.self && ranking[1].number == ctx.self ==>
      r.value.ballInOwnHalf ==
        (if AmIDefender(task, ctx.state) == Success(true) &&
            HasSupporter(task, ctx.dynamicPostAssign, ctx.agents, ctx.bestPermutation, ranking[0].number, true) == Success(false)
         then IsBelowBorder(border, ctx.teamBallX).border
         else border)
    ensures r.Success? && !(hasGotBall && |ranking| >= 2 && ranking[0].number != ctx.self && ranking[1].number == ctx.self) ==>
      r.value.ballInOwnHalf == border
    ensures r.Success? ==> r.value.role in {Leader, Supporter, Role.None}
  {
    if !hasGotBall || |ranking| == 0 then Success(RoleOutcome(Role.None, leaderID, border))
    else
      var leader := ranking[0].number;
      var amIDefender :- AmIDefender(task, ctx.state);
      var hasSupporter :- HasSupporter(task, ctx.dynamicPostAssign, ctx.agents, ctx.bestPermutation, leader, amIDefender);
      // the kick-off ("palang") check reads the robot's own cell; its value is unused
      if !(0 <= task.currentVoronoiId < |task.cells|) then Failure(IndexOutOfRange)
      else if leader == ctx.self then Success(RoleOutcome(Leader, leader, border))
      else if |ranking| < 2 then Failure(IndexOutOfRange)
      else if ranking[1].number == ctx.self && hasSupporter then
        Success(RoleOutcome(if ctx.palangExpired && !amIDefender then Supporter else Role.None, leader, border))
      else if ranking[1].number == ctx.self && amIDefender then
        var below := IsBelowBorder(border, ctx.teamBallX);
        var lx := LeaderPoseX(ctx.teammates, leader);
        var takesOver := below.result && lx.Some? && lx.value > ctx.teamBallX;
        Success(RoleOutcome(if takesOver then Leader else Role.None, leader, below.border))
      else Success(RoleOutcome(Role.None, leader, border))
  }

  /** The robot ranked second. When the leader's cell has room for a supporter, it supports
      exactly when the kick-off role has expired and it is no defender, and is idle otherwise.
      When there is no room, it takes over as leader exactly when it is a defender, the team
      ball is below the own-half border and the leader is ahead of the ball. */
  lemma SecondRankedRole(task: AgentTask, ranking: seq<CostEntry>, leaderID: int, ctx: RoleContext, border: Border)
    requires |ranking| >= 2 && ranking[0].number != ctx.self && ranking[1].number == ctx.self
    requires DynamicRole(task, true, ranking, leaderID, ctx, border).Success?
    ensures AmIDefender(task, ctx.state).Success?
    ensures
      var defender := AmIDefender(task, ctx.state).value;
      var room := HasSupporter(task, ctx.dynamicPostAssign, ctx.agents, ctx.bestPermutation, ranking[0].number, defender);
      var role := DynamicRole(task, true, ranking, leaderID, ctx, border).value.role;
      var lx := LeaderPoseX(ctx.teammates, ranking[0].number);
      && room.Success?
      && (room.value ==> role != Leader && (role == Supporter <==> ctx.palangExpired && !defender))
      && (!room.value ==>
            (role != Supporter &&
             (role == Leader <==> defender && ctx.teamBallX < Threshold(border) && lx.Some? && lx.value > ctx.teamBallX)))
  {
  }

  /** The strictly cheapest robot becomes the leader whatever order the sort leaves ties in;
      if that is the robot itself it takes the leader role. */
  lemma CheapestRobotLeads(task: AgentTask, costs: seq<CostEntry>, ranking: seq<CostEntry>, leaderID: int,
                           ctx: RoleContext, border: Border, e: CostEntry)
    requires IsRanking(costs, ranking) && e in costs
    requires forall x :: x in costs && x != e ==> e.cost < x.cost
    requires DynamicRole(task, true, ranking, leaderID, ctx, border).Success?
    ensures DynamicRole(task, true, ranking, leaderID, ctx, border).value.leaderID == e.number
    ensures e.number == ctx.self ==> DynamicRole(task, true, ranking, leaderID, ctx, border).value.role == Leader
  {
    UniqueCheapestFirst(costs, ranking, e);
  }

  /** The leader chosen is always a robot of least cost. */
  lemma LeaderHasLeastCost(task: AgentTask, costs: seq<CostEntry>, ranking: seq<CostEntry>, leaderID: int,
                           ctx: RoleContext, border: Border)
    requires IsRanking(costs, ranking) && |costs| > 0
    requires DynamicRole(task, true, ranking, leaderID, ctx, border).Success?
    ensures exists e :: e in costs && e.number == DynamicRole(task, true, ranking, leaderID, ctx, border).value.leaderID &&
                        forall x :: x in costs ==> e.cost <= x.cost
  {
    assert ranking[0] in multiset(costs);
    forall x | x in costs
      ensures ranking[0].cost <= x.cost
    {
      RankingHeadIsCheapest(costs, ranking, x);
    }
  }

  // ---------------------------------------------------------------------------------
  // Static roles.

  datatype StaticOutcome = StaticOutcome(role: Role, voronoiWithTheBall: nat, distanceToTarget: Border)

  /** The origin of the field, the ball position assumed in READY. */
  const Centre: RobotPose := RobotPose(0.0, Vec(0.0, 0.0))

  /** The static branch of `updateRole`. In READY the robot whose cell contains the centre
      leads (the cell hint is the default 0). Otherwise the ball's cell is classified with
      the last one as hint, and the robot leads when that is its cell or the ball is within
      the distance border, and the team has the ball. The border is only queried when the
      cells differ. */
  function StaticRole(geo: Geometry, task: AgentTask, state: GameState, hasGotBall: bool, ballGlobal: Vec,
                      ballDistance: real, voronoiWithTheBall: nat, border: Border): (r: Result<StaticOutcome, Fault>)
    ensures r.Failure? <==> |task.cells| == 0
    ensures r.Success? && state == StateReady ==>
      && Classify(geo, Centre, task.cells, 0) == Success(r.value.voronoiWithTheBall)
      && (r.value.role == Leader <==> task.currentVoronoiId == r.value.voronoiWithTheBall)
      && r.value.distanceToTarget == border
    ensures r.Success? && state != StateReady ==>
      && Classify(geo, RobotPose(0.0, ballGlobal), task.cells, voronoiWithTheBall) == Success(r.value.voronoiWithTheBall)
      && (r.value.role == Leader <==>
            hasGotBall && (task.currentVoronoiId == r.value.voronoiWithTheBall || ballDistance < Threshold(border)))
      && r.value.distanceToTarget ==
           (if task.currentVoronoiId == r.value.voronoiWithTheBall then border
            else IsBelowBorder(border, ballDistance).border)
    ensures r.Success? ==> r.value.role == Leader || r.value.role == Role.None
  {
    if state == StateReady then
      var id :- Classify(geo, Centre, task.cells, 0);
      Success(StaticOutcome(if task.currentVoronoiId == id then Leader else Role.None, id, border))
    else
      var id :- Classify(geo, RobotPose(0.0, ballGlobal), task.cells, voronoiWithTheBall);
      if task.currentVoronoiId == id then
        Success(StaticOutcome(if hasGotBall then Leader else Role.None, id, border))
      else
        var near := IsBelowBorder(border, ballDistance);
        Success(StaticOutcome(if near.result && hasGotBall then Leader else Role.None, id, near.border))
  }

  /** Outside READY the ball's cell is sticky: it changes only for a cell at least 400 mm
      closer to the ball. */
  lemma BallCellIsSticky(geo: Geometry, task: AgentTask, state: GameState, hasGotBall: bool, ballGlobal: Vec,
                         ballDistance: real, voronoiWithTheBall: nat, border: Border)
    requires state != StateReady && voronoiWithTheBall < |task.cells|
    requires StaticRole(geo, task, state, hasGotBall, ballGlobal, ballDistance, voronoiWithTheBall, border).Success?
    ensures
      var v := StaticRole(geo, task, state, hasGotBall, ballGlobal, ballDistance, voronoiWithTheBall, border).value.voronoiWithTheBall;
      var d := DistancesTo(geo, RobotPose(0.0, ballGlobal), task.cells);
      v != voronoiWithTheBall ==> d[v] + 400.0 <= d[voronoiWithTheBall]
  {
    var d := DistancesTo(geo, RobotPose(0.0, ballGlobal), task.cells);
    var v := StaticRole(geo, task, state, hasGotBall, ballGlobal, ballDistance, voronoiWithTheBall, border).value.voronoiWithTheBall;
    if v != voronoiWithTheBall {
      SwitchNeedsMargin(d, voronoiWithTheBall, v);
    }
  }
}

=== FILE: task_assignment.dfy ===
/** The task-assignment module: the formation catalog built at start-up and one control
    cycle, which runs the basic plan and then, during READY, SET and PLAYING, formation
    selection, post assignment and role assignment, and publishes the agent task. */
module TaskAssignment {
  import opened Wrappers
  import opened World
  import opened VoronoiCell
  import opened FormationFile
  import opened AgentTask
  import opened DynBorder
  import opened Team
  import opened BasicPlan
  import opened FormationSelection
  import opened PostAssignment
  import opened RoleAssignment

  /** The module's loaded parameters. */
  datatype Params = Params(
    dynamicPostAssign: bool,
    dynamicRoleAssign: bool,
    formationVersion: int,
    players: seq<int>)

  function DefaultParams(): (p: Params)
    ensures !p.dynamicPostAssign && p.dynamicRoleAssign && p.formationVersion == 1
    ensures p.players == [0, 0, 0, 0]
  {
    Params(false, true, 1, [0, 0, 0, 0])
  }

  predicate EndsWith(s: string, suffix: string) {
    |suffix| <= |s| && s[|s| - |suffix|..] == suffix
  }

  /** The constructor: every directory entry whose name ends in ".cfg" is parsed into a
      formation stored under its file name. Directory contents are given as lines. */
  function BuildCatalog(files: map<string, seq<string>>): (c: map<string, seq<Cell>>)
    ensures forall k :: k in c <==> k in files && EndsWith(k, ".cfg")
    ensures forall k :: k in c ==> c[k] == Load(files[k])
  {
    map k | k in files && EndsWith(k, ".cfg") :: Load(files[k])
  }

  /** Everything the module keeps between cycles. */
  datatype State = State(
    task: AgentTask,
    plan: PlanState,
    formation: FormationState,
    numOfPlayers: nat,
    bestPermutation: seq<nat>,
    agents: seq<int>,
    leaderID: int,
    voronoiWithTheBall: nat,
    ballInOwnHalf: Border,
    distanceToTarget: Border)

  /** The state after construction. Members the system leaves undefined are parameters:
      the task's role, cell id and ball flag, the stored kick-off flag, the player count
      and the palang timer. */
  function InitialState(catalog: map<string, seq<Cell>>, role: Role, voronoiId: int, ballIsFree: bool,
                        kickoffus: bool, numOfPlayers: nat, kickOffTimerPalang: int): (s: State)
    ensures s.task.cells == [] && s.formation.catalog == catalog && s.formation.gameState == StateInitial
    ensures s.leaderID == -1 && s.voronoiWithTheBall == 0 && s.agents == [] && s.bestPermutation == []
    ensures s.ballInOwnHalf == NewBorder(-1500.0, 300.0) && s.distanceToTarget == NewBorder(750.0, 100.0)
  {
    State(NewAgentTask(role, voronoiId, ballIsFree), InitialPlan(kickOffTimerPalang),
          FormationState(StateInitial, kickoffus, 0, catalog, []), numOfPlayers, [], [], -1, 0,
          BallInOwnHalfThreshold(), DistanceToTargetThreshold())
  }

  /** What one cycle reads; geometry already applied where the system transforms poses. */
  datatype Input = Input(
    number: int,
    penalized: bool,
    state: GameState,
    kickOffTeam: int,
    teamNumber: int,
    systemTime: int,
    frameTime: int,
    sighting: BallSighting,
    selfPose: RobotPose,
    selfUpright: bool,
    teammates: seq<Teammate>,
    teamBall: Vec,
    teamBallValid: bool,
    sinceTeamBallValid: int,
    ballGlobal: Vec,       // own ball estimate in field coordinates
    ballDistance: real)    // distance of the own ball estimate from the robot

  /** The new state and the task published to behaviour control. */
  datatype Step = Step(state: State, published: AgentTask)

  /** The basic plan's results survive the later steps of a cycle. */
  predicate Kept(s: State, s': State) {
    s'.plan == s.plan && s'.numOfPlayers == s.numOfPlayers && s'.task.ballIsFree == s.task.ballIsFree
  }

  /** `updateFormation`, loading the chosen formation into the task. */
  function FormationStep(p: Params, s: State, inp: Input): (r: Result<State, Fault>)
    ensures r.Success? ==> r.value.task.role == s.task.role && r.value.leaderID == s.leaderID
    ensures r.Success? ==> r.value.task.cells == s.task.cells || r.value.task.cells == r.value.formation.lastSetFormation
    ensures r.Success? ==> Kept(s, r.value)
  {
    var sel :- UpdateFormation(s.formation, inp.state, inp.kickOffTeam == inp.teamNumber, s.numOfPlayers,
                               p.formationVersion, p.dynamicPostAssign);
    var (fs, loaded) := sel;
    var task := if loaded.Some? then SetCells(s.task, loaded.value) else s.task;
    Success(s.(formation := fs, task := task))
  }

  /** `updatePost`, static or dynamic. */
  function PostStep(p: Params, geo: Geometry, s: State, inp: Input): (r: Result<State, Fault>)
    ensures r.Success? ==> r.value.task.role == s.task.role && r.value.task.cells == s.task.cells
    ensures r.Success? ==> r.value.leaderID == s.leaderID
    ensures r.Success? ==> Kept(s, r.value)
  {
    if !p.dynamicPostAssign then
      var task :- UpdatePostStatic(s.task, p.players, inp.number);
      Success(s.(task := task))
    else
      var out :- UpdatePostDynamic(geo, s.task, s.formation.lastSetFormation, s.leaderID, s.numOfPlayers,
                                   inp.number, inp.selfPose, inp.teammates, s.bestPermutation);
      Success(s.(task := out.task, agents := out.agents, bestPermutation := out.bestPermutation))
  }

  /** `updateRole`, static or dynamic; the dynamic ranking is the insertion sort by cost. */
  function RoleStep(p: Params, geo: Geometry, s: State, inp: Input): (r: Result<State, Fault>)
    ensures r.Success? ==> r.value.task.cells == s.task.cells
    ensures r.Success? ==> r.value.task.role in {Leader, Supporter, Role.None}
    ensures r.Success? ==> Kept(s, r.value)
  {
    var hasGotTheBall := HasGotBall(inp.teamBallValid, inp.sinceTeamBallValid);
    if !p.dynamicRoleAssign then
      var out :- StaticRole(geo, s.task, inp.state, hasGotTheBall, inp.ballGlobal, inp.ballDistance,
                            s.voronoiWithTheBall, s.distanceToTarget);
      Success(s.(task := SetRole(s.task, out.role), voronoiWithTheBall := out.voronoiWithTheBall,
                 distanceToTarget := out.distanceToTarget))
    else
      var costs := BuildCosts(geo, inp.state, s.leaderID, inp.number, inp.selfUpright, inp.selfPose,
                              inp.teamBall, inp.teammates);
      var ctx := RoleContext(inp.number, inp.state, p.dynamicPostAssign, s.agents, s.bestPermutation,
                             s.plan.palangExpired, inp.teamBall.x, inp.teammates);
      var out :- DynamicRole(s.task, hasGotTheBall, SortByCost(costs), s.leaderID, ctx, s.ballInOwnHalf);
      Success(s.(task := SetRole(s.task, out.role), leaderID := out.leaderID, ballInOwnHalf := out.ballInOwnHalf))
  }

  /** The start of a field player's cycle: player count and `updateBasicPlan`. */
  function PlanStep(p: Params, target: Target, s: State, inp: Input): (r: State)
    ensures r.plan == UpdateBasicPlan(s.plan, target, inp.state, inp.kickOffTeam != inp.teamNumber,
                                      inp.systemTime, inp.frameTime, inp.sighting)
    ensures r.task.ballIsFree == r.plan.ballIsFree
    ensures r.numOfPlayers == (if p.dynamicPostAssign then LastNumOfPlayers(inp.teammates) else |p.players|)
    ensures r.task.role == s.task.role && r.task.cells == s.task.cells
    ensures r.task.currentVoronoiId == s.task.currentVoronoiId && r.leaderID == s.leaderID
  {
    var n: nat := if p.dynamicPostAssign then LastNumOfPlayers(inp.teammates) else |p.players|;
    var plan := UpdateBasicPlan(s.plan, target, inp.state, inp.kickOffTeam != inp.teamNumber,
                                inp.systemTime, inp.frameTime, inp.sighting);
    s.(plan := plan, numOfPlayers := n, task := SetBallIsFree(s.task, plan.ballIsFree))
  }

  /** Formation, post and role, as run during READY, SET and PLAYING. */
  function PlayStep(p: Params, geo: Geometry, s: State, inp: Input): (r: Result<State, Fault>)
    ensures r.Success? ==> Kept(s, r.value)
    ensures r.Success? ==> r.value.task.role in {Leader, Supporter, Role.None}
  {
    var s2 :- FormationStep(p, s, inp);
    var s3 :- PostStep(p, geo, s2, inp);
    RoleStep(p, geo, s3, inp)
  }

  /** `update`: one control cycle. */
  function Cycle(p: Params, target: Target, geo: Geometry, s: State, inp: Input): (r: Result<Step, Fault>)
    ensures r.Success? ==> r.value.published == r.value.state.task
    ensures inp.number == 1 || inp.penalized ==>
      r == Success(Step(s.(task := SetRole(s.task, GoalKeeper)), SetRole(s.task, GoalKeeper)))
    ensures r.Success? && inp.number != 1 && !inp.penalized ==>
      && r.value.state.plan == PlanStep(p, target, s, inp).plan
      && r.value.published.ballIsFree == r.value.state.plan.ballIsFree
      && r.value.state.numOfPlayers == PlanStep(p, target, s, inp).numOfPlayers
    ensures r.Success? && inp.number != 1 && !inp.penalized && InPlay(inp.state) ==>
      r.value.published.role in {Leader, Supporter, Role.None}
    ensures r.Failure? ==> inp.number != 1 && !inp.penalized && InPlay(inp.state)
  {
    if inp.number == 1 || inp.penalized then
      var t := SetRole(s.task, GoalKeeper);
      Success(Step(s.(task := t), t))
    else
      var s1 := PlanStep(p, target, s, inp);
      if !InPlay(inp.state) then
        var s2 := s1.(leaderID := -1);
        Success(Step(s2, s2.task))
      else
        var s4 :- PlayStep(p, geo, s1, inp);
        Success(Step(s4, s4.task))
  }

  /** Outside READY, SET and PLAYING the "no role" the cycle writes goes to the caller's copy,
      which is then overwritten: the published role is whatever the module held before, while
      the leader is forgotten and the formation stays. */
  lemma StaleRoleOutsidePlay(p: Params, target: Target, geo: Geometry, s: State, inp: Input)
    requires inp.number != 1 && !inp.penalized && !InPlay(inp.state)
    ensures Cycle(p, target, geo, s, inp).Success?
    ensures
      var step := Cycle(p, target, geo, s, inp).value;
      && step.published.role == s.task.role
      && step.state.leaderID == -1
      && step.published.cells == s.task.cells
      && step.published.currentVoronoiId == s.task.currentVoronoiId
  {
  }

  /** A goalkeeper or penalized robot is always published as goalkeeper. */
  lemma GoalkeeperPublished(p: Params, target: Target, geo: Geometry, s: State, inp: Input)
    requires inp.number == 1 || inp.penalized
    ensures Cycle(p, target, geo, s, inp).Success?
    ensures Cycle(p, target, geo, s, inp).value.published.role == GoalKeeper
    ensures Cycle(p, target, geo, s, inp).value.state.plan == s.plan
  {
  }

  /** With the default parameters (static posts over the list 0, 0, 0, 0) a field player
      numbered 2 to 5 is never listed, so every cycle in READY, SET or PLAYING fails at post
      assignment when a formation was found. */
  lemma DefaultPlayersUnlisted(target: Target, geo: Geometry, s: State, inp: Input)
    requires inp.number != 0 && inp.number != 1 && !inp.penalized && InPlay(inp.state)
    requires FormationStep(DefaultParams(), s.(numOfPlayers := 4), inp).Success?
    ensures PostStep(DefaultParams(), geo, FormationStep(DefaultParams(), s.(numOfPlayers := 4), inp).value, inp)
            == Failure(PlayerNotListed)
  {
  }
}

=== FILE: team.dfy ===
/** Roster helpers: which robots take part in post and role assignment, how many there are,
    and finding a teammate's broadcast data by player number. */
module Team {
  import opened Wrappers
  import opened World

  /** A teammate counts for assignment unless it is the goalkeeper or penalized. */
  predicate Active(t: Teammate) {
    !t.isGoalkeeper && t.status != Penalized
  }

  /** Numbers of the active teammates, in broadcast order. */
  function ActiveNumbers(teammates: seq<Teammate>): (ns: seq<int>)
    ensures |ns| <= |teammates|
    ensures forall n :: n in ns <==> exists t :: t in teammates && Active(t) && t.number == n
  {
    if |teammates| == 0 then []
    else
      var init := ActiveNumbers(teammates[..|teammates| - 1]);
      var t := teammates[|teammates| - 1];
      assert teammates == teammates[..|teammates| - 1] + [t];
      if Active(t) then init + [t.number] else init
  }

  /** One more teammate adds its number at the end exactly when it is active. */
  lemma ActiveNumbersSnoc(ts: seq<Teammate>, t: Teammate)
    ensures ActiveNumbers(ts + [t]) == ActiveNumbers(ts) + (if Active(t) then [t.number] else [])
  {
    assert (ts + [t])[..|ts|] == ts;
  }

  /** Broadcast order is kept: the numbers of a concatenated roster are the numbers of the
      first part followed by those of the second. */
  lemma {:induction false} ActiveNumbersAppend(a: seq<Teammate>, b: seq<Teammate>)
    ensures ActiveNumbers(a + b) == ActiveNumbers(a) + ActiveNumbers(b)
    decreases |b|
  {
    if |b| == 0 {
      assert a + b == a;
    } else {
      var b' := b[..|b| - 1];
      var t := b[|b| - 1];
      var x := if Active(t) then [t.number] else [];
      assert b == b' + [t];
      assert a + b == (a + b') + [t];
      ActiveNumbersAppend(a, b');
      ActiveNumbersSnoc(a + b', t);
      ActiveNumbersSnoc(b', t);
      assert ActiveNumbers(a + b) == (ActiveNumbers(a) + ActiveNumbers(b')) + x;
      assert ActiveNumbers(b) == ActiveNumbers(b') + x;
    }
  }

  /** The agent list of post assignment: the active teammates followed by the robot itself. */
  function Agents(teammates: seq<Teammate>, self: int): (agents: seq<int>)
    ensures |agents| >= 1 && agents[|agents| - 1] == self
    ensures forall n :: n in agents <==>
      n == self || exists t :: t in teammates && Active(t) && t.number == n
  {
    ActiveNumbers(teammates) + [self]
  }

  /** `lastNumOfPlayers`: a counter over the same roster, plus one for the robot itself. */
  function LastNumOfPlayers(teammates: seq<Teammate>): (n: nat)
    ensures 1 <= n <= |teammates| + 1
  {
    if |teammates| == 0 then 1
    else
      var t := teammates[|teammates| - 1];
      LastNumOfPlayers(teammates[..|teammates| - 1]) + (if Active(t) then 1 else 0)
  }

  /** The player count and the agent list agree, so the size check of post assignment only
      fails when the count was taken from another roster. */
  lemma {:induction false} AgentCountMatches(teammates: seq<Teammate>, self: int)
    ensures |Agents(teammates, self)| == LastNumOfPlayers(teammates)
  {
    ActiveCountMatches(teammates);
  }

  lemma {:induction false} ActiveCountMatches(teammates: seq<Teammate>)
    ensures |ActiveNumbers(teammates)| + 1 == LastNumOfPlayers(teammates)
    decreases |teammates|
  {
    if |teammates| > 0 {
      ActiveCountMatches(teammates[..|teammates| - 1]);
    }
  }

  /** `getAgentByPlayerNumber`: the first teammate with the number. */
  function FindTeammate(teammates: seq<Teammate>, number: int): (r: Option<Teammate>)
    ensures r.Some? <==> exists t :: t in teammates && t.number == number
    ensures r.Some? ==> r.value in teammates && r.value.number == number
    ensures r.Some? ==> exists k :: 0 <= k < |teammates| && teammates[k] == r.value &&
                                  (forall j :: 0 <= j < k ==> teammates[j].number != number)
  {
    if |teammates| == 0 then None
    else if teammates[0].number == number then Some(teammates[0])
    else
      var r := FindTeammate(teammates[1..], number);
      assert forall t :: t in teammates[1..] ==> t in teammates;
      assert forall t :: t in teammates && t != teammates[0] ==> t in teammates[1..];
      if r.Some? then
        var k :| 0 <= k < |teammates[1..]| && teammates[1..][k] == r.value &&
                 (forall j :: 0 <= j < k ==> teammates[1..][j].number != number);
        assert teammates[k + 1] == r.value;
        r
      else r
  }

  /** Every agent but the robot itself is found among the teammates, so the lookup in the
      cost computation never reaches its "not found" exit. */
  lemma AgentsAreFound(teammates: seq<Teammate>, self: int, n: int)
    requires n in Agents(teammates, self) && n != self
    ensures FindTeammate(teammates, n).Some?
  {
  }

  /** Index of the first occurrence, as `std::find` computes it. */
  function IndexOf(xs: seq<int>, x: int): (r: Option<nat>)
    ensures r.Some? <==> x in xs
    ensures r.Some? ==> r.value < |xs| && xs[r.value] == x &&
                        (forall j :: 0 <= j < r.value ==> xs[j] != x)
  {
    if |xs| == 0 then None
    else if xs[0] == x then Some(0)
    else
      var r := IndexOf(xs[1..], x);
      assert forall y :: y in xs <==> y == xs[0] || y in xs[1..];
      if r.Some? then Some(r.value + 1) else None
  }

  /** The robot itself always has an index in its agent list. */
  lemma SelfIsIndexed(teammates: seq<Teammate>, self: int)
    ensures IndexOf(Agents(teammates, self), self).Some?
  {
  }
}

=== FILE: voronoi_cell.dfy ===
/** A formation cell: the pose a robot occupies, the pose it walks to (its pointer), a
    label such as "DF" for defender cells, the region id from the formation file and the
    number of supporters the cell admits. */
module VoronoiCell {

  /** A pose with integer components, as formation files produce them. */
  datatype Pose = Pose(rotation: int, x: int, y: int)

  const Origin: Pose := Pose(0, 0, 0)

  /** The pose `Pose2f(x, y)`: a translation without rotation. */
  function At(x: int, y: int): Pose {
    Pose(0, x, y)
  }

  /** Exclusive upper bound of a 32-bit unsigned value. */
  const UnsignedBound: int := 0x1_0000_0000

  datatype Cell = Cell(point: Pose, pointer: Pose, name: string, regionId: int, numOfSup: nat)

  /** The cell name that marks a defender's post: the leader is never pinned to such a
      cell, and a robot on one is a defender when roles are chosen. */
  const DefenderName: string := "DF"

  predicate ValidCell(c: Cell) {
    c.numOfSup < UnsignedBound
  }

  /** The cell built by the default constructor. */
  function DefaultCell(): (c: Cell)
    ensures c.point == Origin && c.pointer == Origin
    ensures c.name == "" && c.regionId == 0 && c.numOfSup == 0
    ensures ValidCell(c)
  {
    Cell(Origin, Origin, "", 0, 0)
  }

  /** `set`: replaces the occupation pose and the pointer, nothing else. */
  function Set(c: Cell, point: Pose, pointer: Pose): (r: Cell)
    ensures r.point == point && r.pointer == pointer
    ensures r.name == c.name && r.regionId == c.regionId && r.numOfSup == c.numOfSup
  {
    c.(point := point, pointer := pointer)
  }

  function SetRegionId(c: Cell, id: int): (r: Cell)
    ensures r.regionId == id
    ensures r.point == c.point && r.pointer == c.pointer && r.name == c.name && r.numOfSup == c.numOfSup
  {
    c.(regionId := id)
  }

  function SetName(c: Cell, name: string): (r: Cell)
    ensures r.name == name
    ensures r.point == c.point && r.pointer == c.pointer && r.regionId == c.regionId && r.numOfSup == c.numOfSup
  {
    c.(name := name)
  }

  /** The setter takes an unsigned 32-bit value, so a signed argument is converted
      modulo 2^32. */
  function SetNumOfSup(c: Cell, num: int): (r: Cell)
    ensures r.numOfSup < UnsignedBound
    ensures 0 <= num < UnsignedBound ==> r.numOfSup == num
    ensures num < 0 && -UnsignedBound <= num ==> r.numOfSup == UnsignedBound + num
    ensures r.point == c.point && r.pointer == c.pointer && r.name == c.name && r.regionId == c.regionId
  {
    c.(numOfSup := num % UnsignedBound)
  }

  function NegateY(p: Pose): Pose {
    p.(y := -p.y)
  }

  /** `mirrorY`: reflects the cell across the field's long axis. */
  function MirrorY(c: Cell): (r: Cell)
    ensures r.point.x == c.point.x && r.point.rotation == c.point.rotation && r.point.y == -c.point.y
    ensures r.pointer.x == c.pointer.x && r.pointer.rotation == c.pointer.rotation && r.pointer.y == -c.pointer.y
    ensures r.name == c.name && r.regionId == c.regionId && r.numOfSup == c.numOfSup
  {
    c.(point := NegateY(c.point), pointer := NegateY(c.pointer))
  }

  lemma MirrorYInvolution(c: Cell)
    ensures MirrorY(MirrorY(c)) == c
  {
  }

  /** Mirrors every cell of a formation, keeping the order. */
  function MirrorAll(cells: seq<Cell>): (r: seq<Cell>)
    ensures |r| == |cells|
    ensures forall i :: 0 <= i < |cells| ==> r[i] == MirrorY(cells[i])
  {
    seq(|cells|, i requires 0 <= i < |cells| => MirrorY(cells[i]))
  }

  lemma MirrorAllInvolution(cells: seq<Cell>)
    ensures MirrorAll(MirrorAll(cells)) == cells
  {
    var twice := MirrorAll(MirrorAll(cells));
    forall i | 0 <= i < |cells|
      ensures twice[i] == cells[i]
    {
      MirrorYInvolution(cells[i]);
    }
  }
}

=== FILE: world.dfy ===
/** The collaborators the task-assignment core reads every cycle: game phase, own and
    teammate poses, and the geometry (norms, time-to-target costs) that the core only
    consumes. Geometry is float arithmetic in the system and is abstracted here as
    uninterpreted functions. */
module World {

  /** Game phases in the numbering of the RoboCup GameController
      (INITIAL = 0, READY = 1, SET = 2, PLAYING = 3, FINISHED = 4). */
  datatype GameState = StateInitial | StateReady | StateSet | StatePlaying | StateFinished

  function StateCode(s: GameState): (n: nat)
    ensures n <= 4
    ensures s == StateInitial <==> n == 0
    ensures s == StateReady <==> n == 1
    ensures s == StateSet <==> n == 2
    ensures s == StatePlaying <==> n == 3
  {
    match s
    case StateInitial => 0
    case StateReady => 1
    case StateSet => 2
    case StatePlaying => 3
    case StateFinished => 4
  }

  /** The phases in which formation, post and role are recomputed. */
  predicate InPlay(s: GameState) {
    s == StateReady || s == StateSet || s == StatePlaying
  }

  /** A field vector in millimetres. */
  datatype Vec = Vec(x: real, y: real)

  function Sub(a: Vec, b: Vec): Vec {
    Vec(a.x - b.x, a.y - b.y)
  }

  /** A robot pose: rotation and translation. */
  datatype RobotPose = RobotPose(rotation: real, translation: Vec)

  /** Broadcast status of a teammate. */
  datatype Status = Penalized | Fallen | Playing

  /** What the core reads of one teammate's broadcast data. */
  datatype Teammate = Teammate(number: int, isGoalkeeper: bool, status: Status, pose: RobotPose)

  /** The float geometry the core consumes without inspecting it:
      - norm: Euclidean length of a field vector;
      - poseDistance: length of the translation of the difference of two poses, the distance
        the nearest-cell classifier compares;
      - postCost: heading plus distance time cost of a robot at a pose to reach a field point
        with the walking start speed used for post assignment;
      - roleCost: the same from standstill, used to rank robots for the ball. */
  datatype Geometry = Geometry(
    norm: Vec -> real,
    poseDistance: (RobotPose, RobotPose) -> real,
    postCost: (RobotPose, Vec) -> real,
    roleCost: (RobotPose, Vec) -> real)

  /** Conditions under which the system aborts or reads out of bounds; the model reports
      them instead of continuing. */
  datatype Fault =
    | MissingFormation(key: string)
    | EmptyPartition
    | IndexOutOfRange
    | PlayerNotListed
}

=== FILE: wrappers.dfy ===
/** Failure-compatible wrappers used across the model: an optional value and a result
    that either carries a value or a fault. */
module Wrappers {

  datatype Option<+T> = None | Some(value: T) {

    predicate IsFailure() {
      None?
    }

    function PropagateFailure<U>(): Option<U>
      requires None?
    {
      None
    }

    function Extract(): T
      requires Some?
    {
      value
    }
  }

  datatype Result<+T, +E> = Success(value: T) | Failure(error: E) {

    predicate IsFailure() {
      Failure?
    }

    function PropagateFailure<U>(): Result<U, E>
      requires Failure?
    {
      Failure(error)
    }

    function Extract(): T
      requires Success?
    {
      value
    }
  }
}
